=== FILE: README.md ===
# cuddlebot actuator and host-link firmware, modelled in Dafny

This project models the integer control and protocol logic of the
cuddlebot firmware. It covers the boards that drive the robot's joints
and the master board that talks to the host.

- **Motion driver** (`actuator/motion.c`). A 1 ms tick fetches setpoint
  batches from a mailbox, counts down each batch's delay, and swaps the
  batch in. It then walks the setpoints in array order, counts loops and
  drives a four-method render driver. Batches come from a memory pool. The
  mailbox is a FIFO `seq`, the pool is the set of live block ids, and
  every render-driver call, `motorSet` and pool free goes into an event
  trace.
- **Pulse-step renderer** (`actuator/render_ps.c`). It turns a 16-bit
  setpoint word (pulse duration in the low byte, signed step in the high
  byte) into a full-scale pulse, then the step.
- **RS-485 link** (`actuator/comm.c`). It reads frames from a byte stream,
  dispatches them to a callback and writes the reply or an error reply.
  The packed little-endian message layouts come from `actuator/msgtype.h`.
  The two request dispatchers are `actuator/service.c` and
  `actuator/state.c`.
- **Board identity** (`actuator/addr.c`, `actuator/address.c`,
  `addresscfg.c`). Four strap bits map to a one-hot identity byte, and a
  bitmask self-test checks wire addresses against it.
- **Motor output** (`motorStart`/`motorSet` in `actuator/motor.c`,
  `cm_motor_set` in `motor.c`). Each takes a previous state and a request
  to a new state and the list of enable-pin and PWM-channel calls it
  issues.
- **Starfish host link** (`starfish/hostComms.c`). It covers:
  - the byte-at-a-time receiver: words sent most significant byte first,
    a wrapping 32-bit additive checksum, a four-slot ring;
  - the slow code that decodes requests;
  - the reply builders, the checksum writer and the transmitter.

Every operation is a pure function from a state and an input to a new
state and an output trace. Each operation is paired with a reference
definition, an invariant or an inverse, and lemmas connect the two.
Examples:

- frame-level round trips for both links;
- pool discipline for every tick;
- the exact render sequence of a finite batch;
- the bridge state each motor request leaves.

Files, one module each:

- `common.dfy`: machine integer ranges, two's complement, little-endian
  16-bit fields and RTOS status codes.
- `msgtype.dfy`: message codes and payload layouts.
- `comm.dfy`: the RS-485 link.
- `service.dfy`: the two dispatchers.
- `address.dfy`: strap decoding and the self-test.
- `pwm.dfy`: the bridge hardware as the motor drivers see it.
- `actuator_motor.dfy` and `cm_motor.dfy`: the two motor drivers.
- `render_ps.dfy`: the pulse-step renderer.
- `motion.dfy`: the motion driver's operations.
- `motion_pool.dfy`: pool discipline.
- `motion_playback.dfy`: what many ticks render.
- `motion_scenarios.dfy`: the two canned batches of `actuator/commtest.c`.
- `host_bits.dfy`, `host_wire.dfy`, `host_rx.dfy`, `host_tx.dfy`,
  `host_slow.dfy` and `host_link.dfy`: the host link, its packet format
  and its end-to-end properties.

Where the code and its documentation disagree, the model follows the
code. The differences:

- **Checksums and framing.** The RS-485 frame's checksum is the CRC unit's
  32-bit value truncated to 16 bits. Data-bearing frames never reach the
  checksum test as written (see Findings).
- **Setpoint batch layout.** It is `delay, loop, points[]` with no count
  field. The number of points follows from the payload length.
- **PID request.** It is four unsigned 16-bit fields, not three floats.
  The `0x08` offset comment on its last field disagrees with the packed
  layout, which puts it at 6.
- **Self-test.** A frame that carries no data is serviced whatever its
  address byte. Only data-bearing frames are filtered by the self-test.
- **Invalid strap pattern.** It is not fatal. It stores the identity 0,
  which the self-test matches against nothing.
- **Addressing.** It is a bitmask. One OR-ed byte addresses several boards.
- **Dispatcher actions.** The SETPID and SETPOINT cases of both
  dispatchers do nothing and report success.
- **Full mailbox.** The corrected `motionSetpoint` reports `RDY_TIMEOUT`
  for a READY driver whose mailbox is full. The code as written refuses a
  READY driver with `RDY_RESET` whatever its mailbox holds, and posts for a
  driver stopped after a start, which gets `RDY_TIMEOUT` when the mailbox
  is full (see Findings).
- **Unstarted driver.** `MOTION2` is zero-initialised and only
  `motionStart` from STOP stores its configuration, so until then
  `config.mbox` is NULL. As written, `motionSetpoint` on a driver that is
  UNINIT, or STOP after `motionInit` alone, posts to that NULL mailbox
  (`Motion.UnstartedSetpointFaults`); the corrected call refuses it with
  `RDY_RESET`.
- **Listener.** `commListen` as written is `Comm.ListenStepAsWritten`: it
  answers only frames without data. `Comm.ListenStep` is the listener with
  the corrected receive, and the lemmas about replies to data-bearing
  frames (`Comm.EchoOnSuccess`, `Comm.ErrorReply`) are about it.
- **Config reply header.** The slow code takes the config reply's header
  layout as a parameter. The firmware's layout is `AsWritten`; the uniform
  one is the corrected reply (see Findings).

## Model

| member | source | states |
|---|---|---|
| Common.SignedByte | actuator/render_ps.h:31-34 | a byte read as `int8_t` is the byte itself below 0x80 and the byte minus 256 above |
| Common.UnsignedByte | actuator/render_ps.h:31-34 | writing an `int8_t` into a byte and reading it back as signed gives the value back |
| Common.ToInt16 | actuator/comm.c:234 | converting to `int16_t` keeps the value modulo 2^16, and keeps it exactly when it is in range |
| Common.U16Le | actuator/board/board.h:63 | a 16-bit field lies in memory low byte first on the STM32F4 target |
| Common.U16RoundTrip | actuator/msgtype.h:26 | reading back the two bytes of a 16-bit field gives the value |
| Common.U16BytesRoundTrip | actuator/msgtype.h:26 | any two bytes are the layout of the value they read as |
| MsgType.KindOf | actuator/msgtype.h:17-24 | a type byte names a message exactly when it is one of 0, 1, 2, 31, 32, 33, 34, 255 |
| MsgType.CodesDistinct | actuator/msgtype.h:17-24 | the eight codes are pairwise distinct: each byte names at most one message, and each message's code names it |
| MsgType.EncodePid | actuator/msgtype.h:37-42 | the PID request is 8 bytes: kp, ki, kd, setpoint as little-endian u16 at offsets 0, 2, 4, 6, with no padding |
| MsgType.PidRoundTrip | actuator/msgtype.h:37-42 | decoding an encoded PID request gives it back |
| MsgType.PidBytesRoundTrip | actuator/msgtype.h:37-42 | every 8-byte payload that decodes is the encoding of what it decodes to |
| MsgType.EncodePoint | actuator/msgtype.h:44-47 | a setpoint record is 4 bytes, duration then setpoint |
| MsgType.PointRoundTrip | actuator/msgtype.h:44-47 | decoding an encoded setpoint record gives it back |
| MsgType.PointBytesRoundTrip | actuator/msgtype.h:44-47 | every 4 bytes are the encoding of the record they decode to |
| MsgType.EncodePointsAt | actuator/msgtype.h:52 | point `i` of the array lies at bytes `4i .. 4i+4` |
| MsgType.PointsRoundTrip | actuator/msgtype.h:52 | decoding an encoded point array gives the points back |
| MsgType.PointsBytesRoundTrip | actuator/msgtype.h:52 | a byte string whose length is a multiple of 4 is the encoding of its decoded points |
| MsgType.EncodeBatch | actuator/msgtype.h:49-53 | a batch with n points takes 4 + 4n bytes, delay and loop in the first four |
| MsgType.BatchPointAt | actuator/msgtype.h:49-53 | point `i` of a batch starts at offset `4 + 4i` |
| MsgType.DecodeBatch | actuator/msgtype.h:49-53 | a payload decodes as a batch exactly when it is 4 bytes plus a whole number of points, and the length fixes the point count |
| MsgType.BatchRoundTrip | actuator/msgtype.h:49-53 | decoding an encoded batch gives it back |
| MsgType.BatchBytesRoundTrip | actuator/msgtype.h:49-53 | a payload that decodes as a batch is exactly that batch's encoding |
| MsgType.Encode | actuator/msgtype.h:28-35 | ping request and response and the batch response have empty payloads; a multi-message payload is the single byte `n` |
| MsgType.RoundTrip | actuator/msgtype.h:26-57 | every message with a layout decodes, under its own type code, to itself |
| MsgType.BytesRoundTrip | actuator/msgtype.h:26-57 | a payload that decodes re-encodes to the same bytes, under the kind its type code names |
| Comm.CodesClash | actuator/comm.h:24-25 | the codes `comm.c` treats as data-bearing are the PID request and response of `msgtype.h`, and the setpoint request and response of `msgtype.h` are read as frames without data |
| Comm.VerifyLength | actuator/comm.c:51-61 | the length test rejects every type and every length |
| Comm.Frame | actuator/comm.c:104-152 | a frame is address and type, and for a data-bearing type also the u16 length, the data and a 2-byte checksum |
| Comm.ReceiveAsWritten | actuator/comm.c:97-122 | as written, nothing is delivered with data; a data-bearing frame ends in `RDY_RESET` after its 4 header bytes |
| Comm.Receive | actuator/comm.c:97-162 | delivered metadata comes from the head of the stream; data is delivered only for data-bearing types, addressed to this board and fitting the buffer; the rest of the stream is a suffix |
| Comm.DeliveredIsFrame | actuator/comm.c:138-161 | a delivered data frame is, byte for byte, a well-formed frame at the head of the stream with a matching checksum |
| Comm.ReceiveFrame | actuator/comm.c:100-161 | every frame is consumed whole, and it is delivered exactly when it has no data, or is addressed to this board and fits the buffer |
| Comm.DataFrameDesyncs | actuator/comm.c:116-122 | as written, a data frame leaves its data and checksum in the stream |
| Comm.DesyncExample | actuator/comm.c:119-120 | a concrete 7-byte setpoint request whose leftover bytes the next call delivers as a frame without data |
| Comm.CorrectedExample | actuator/comm.c:119-161 | the same 7 bytes under the corrected receive make one delivered frame and leave nothing behind |
| Comm.Transmit | actuator/comm.c:194-201 | the reply is `[addr, type]`, followed by `len` bytes of the buffer only when there is a buffer and `len > 0` |
| Comm.EchoOnSuccess | actuator/comm.c:226-241 | with the corrected receive, one listen pass over a frame that is delivered and whose callback returns a non-negative status transmits the frame's own header and data, and the stream continues after the frame |
| Comm.ErrorPayload | actuator/comm.c:234-238 | the error payload is 2 bytes holding the status as a signed little-endian 16-bit value |
| Comm.Serve | actuator/comm.c:226-241 | a failed receive sends nothing; after a successful one the callback decides: a non-negative status sends the metadata back unchanged, a negative one sends address, type 255 and the status as two bytes; the stream always continues where the receive stopped |
| Comm.ListenStepAsWritten | actuator/comm.c:217-242 | one pass of `commListen` as written: a NULL callback ends the listener before any byte is read, every other pass consumes input, and only a frame without data draws a reply |
| Comm.ListenStep | actuator/comm.c:217-242 | the same pass with the corrected receive: a NULL callback ends the listener before any byte is read; every other pass consumes input |
| Comm.ErrorReply | actuator/comm.c:232-241 | with the corrected receive, a failing callback draws a 4-byte reply: the request's address, type 255, and the status as signed 16-bit little-endian |
| Comm.NoDataFrameServedAtAnyAddress | actuator/comm.c:110-113 | a frame without data consumes exactly 2 bytes and is serviced whatever its address byte, by the listener as written and the corrected one alike |
| Comm.AsWrittenDataNeverServed | actuator/comm.c:116-122 | as written, a listen pass over a data-bearing frame sends nothing, whichever callback is installed, and leaves the frame's data and checksum in the stream |
| Service.ClassifyExact | actuator/service.c:24-45 | a type byte selects a case exactly when it equals that case's code |
| Service.ServiceHandler | actuator/service.c:20-48 | PING writes the single PONG byte and returns the write's status; SETPID and SETPOINT write nothing and return `RDY_OK`; TEST writes "Hello World!\r\n"; VALUE writes the value text; unknown types return `RDY_RESET` with no output |
| Service.ShortMsg | actuator/state.c:30 | the ping answer is 4 bytes: board address, PONG, 0, 0 |
| Service.StateCallback | actuator/state.c:21-54 | the same table with the ping answered by the 4-byte short message; unknown types return `RDY_RESET` |
| Service.OnlyTypeMatters | actuator/state.c:26 | two headers with the same type get the same reply whatever their other fields, and the payload is never read |
| Service.DispatchersAgreeExceptPing | actuator/service.c:25-27 | the two dispatchers reply alike to every type but PING, where one sends 1 byte and the other 4 |
| Address.HeadersAreBitsets | actuator/addr.h:16-21 | in all three headers INVALID is 0 and the five boards own five different single bits |
| Address.ReadPattern | actuator/addr.c:19-49 | L0 and L1 under the first drive give bits 0 and 1, and H0 and H1 under the second give bits 2 and 3 |
| Address.SameBitPositions | addresscfg.c:36-63 | the pull-down/pull-up sampling of `addresscfg.c` puts the same pins in the same bits as the driven sampling of `addr.c` and `address.c` |
| Address.DecodeActuatorExact | actuator/addr.c:55-62 | the map is exactly 0000 HEAD_PITCH, 1010 HEAD_YAW, 0101 SPINE, 1111 PURR, 1101 RIBS, and every other pattern is INVALID |
| Address.DecodeCfgExact | addresscfg.c:69-76 | the map is exactly 1110 RIBS, 1111 PURR, 1010 HEAD_PITCH, 0101 SPINE, 0000 HEAD_YAW, and every other pattern is INVALID |
| Address.ValidPatternCount | actuator/address.c:85-92 | exactly five of the sixteen patterns name a board, in both maps |
| Address.ReadIdentity | actuator/addr.c:19-62 | under one-hot codes, the stored identity is 0 exactly for an invalid strap pattern and a single bit otherwise |
| Address.ReadIdentityInjective | actuator/addr.c:55-62 | the five valid patterns store five distinct identities, and exactly the other patterns store 0 |
| Address.IsSelf | actuator/addr.c:65-67 | an INVALID board matches nothing, address 0 matches no board, and a valid board matches its own identity |
| Address.OneHotDisjoint | actuator/address.c:102-104 | two single-bit identities share a bit exactly when they are equal |
| Address.UnicastMatchesOnlyItself | actuator/address.c:102-104 | a single board's identity reaches exactly that board |
| Address.MulticastMatchesMembers | addresscfg.c:84-86 | the OR of several identities matches each board of the set and no other |
| Address.MulticastStep | addresscfg.c:84-86 | adding one board to a multicast set adds exactly that board to the matches |
| Address.Run | actuator/addr.c:19-67 | from power-on, each query contributes exactly one answer, and with no strap read the identity stays INVALID |
| Address.IdentityFixedAfterRead | actuator/address.c:20-27 | after the one strap read, queries never change the identity, and each answers against the identity read |
| Address.DocTablesDisagree | actuator/address.c:36-41 | the code of `address.c` follows its own comment table and `addresscfg.c` follows the table of `address.h`; the two tables differ on RIBS, HEAD_PITCH and HEAD_YAW |
| Pwm.Apply | actuator/motor.c:90-136 | each HAL call changes only its own part of the bridge: the enable pin, the running flag or one channel; `pwmStart` also leaves both channels disabled |
| ActuatorMotor.MotorStart | actuator/motor.c:80-93 | the period is 207 on the purr board and 306 otherwise; pwmoffset is period − 127 and the state is 0; the driver is disabled and PWM started |
| ActuatorMotor.Normalize | actuator/motor.c:103-106 | −128 becomes −127, every other request is kept, so the magnitude is at most 127 |
| ActuatorMotor.MotorSet | actuator/motor.c:102-142 | the listed properties hold. The state ends as the normalised request. An equal request issues nothing. Zero only clears the enable pin. Leaving 0 sets it. The channel of the sign gets `pwmoffset + abs(p)`. The other channel is disabled only on a new direction. Every width lies in (pwmoffset, pwmoffset + 127] |
| ActuatorMotor.StartDrivesNothing | actuator/motor.c:80-93 | after `motorStart` the bridge is disabled and PWM is running, whatever it did before |
| ActuatorMotor.SetKeepsDrive | actuator/motor.c:102-142 | from a bridge matching the previous request, `motorSet` leaves a bridge on which exactly the channel of the new request's sign carries its width, or disabled for 0 |
| CmMotor.Clamp | motor.c:63-68 | the input is bounded to [−2048, 2048] and kept when inside |
| CmMotor.CmMotorSet | motor.c:60-94 | the listed properties hold. The state ends as the clamped request. An equal request issues nothing. Zero disables, stopping PWM and clearing the pin. Leaving 0 enables first. The channel of the sign gets the request's fraction of the period. The other channel is disabled only when the signs differ |
| CmMotor.SetKeepsDrive | motor.c:60-94 | from a bridge matching the previous state, `cm_motor_set` leaves exactly the channel of the new sign driven, or everything off for 0 |
| CmMotor.DriveKept | motor.c:75-90 | a new non-zero request leaves exactly the channel of its sign driven at its width |
| CmMotor.PowerOnDrivesNothing | motor.c:61 | the power-on state 0 means bridge disabled and PWM stopped |
| CmMotor.StartFromRestDiffers | motor.c:81 | a start from rest disables channel 1 in the actuator driver and not in this one, because only differing signs count as a new direction |
| PulseStep.PulseDirection | actuator/render_ps.c:35-39 | the pulse is +127 exactly when the old step, read as an unsigned byte, is below the new signed step; otherwise −127 |
| PulseStep.Render | actuator/render_ps.c:26-52 | the stored word becomes the setpoint. An unchanged word only counts the pulse down. A changed word sets the pulse direction and reloads the counter from its low byte. The output is the pulse while the counter runs and the signed step after |
| PulseStep.RenderOutput | actuator/render_ps.c:43-49 | the output is +127, −127 or the step byte, and a pending pulse always has a full-scale direction |
| PulseStep.InitValid | actuator/render_ps.c:63-68 | the initial object has word 0, pulse counter 0 and pulse output 0 |
| PulseStep.HoldRun | actuator/render_ps.c:30 | with the word unchanged, the output is the pulse for the remaining count and the step after |
| PulseStep.PulseThenStep | actuator/render_ps.c:30-49 | after a change to a word with low byte k, the output is the pulse for k calls, the changing call included, then the step |
| PulseStep.MixedSignComparison | actuator/render_ps.c:31 | a change from a negative step or to an equal step pulses at −127 |
| PulseStep.Positional | actuator/render_ps.c:59-61 | positional initialisation fills the table's slots in order and leaves the unfilled slots NULL |
| PulseStep.CallRender | actuator/render.h:30-34 | a call through the `render` slot runs the pulse-step logic when it holds `render`, and is a NULL call when the slot is empty |
| PulseStep.CallHook | actuator/render.h:30-34 | a call through a hook slot is a NULL call exactly when the slot is empty |
| PulseStep.VmtAsWritten | actuator/render_ps.c:59-61 | three initialisers fill the first three slots, so every function lands one slot before its own and `has_rendered` is NULL |
| PulseStep.Vmt | actuator/render_ps.c:59-61 | with a no-op `reset` in front, every slot holds the function of its own name |
| PulseStep.AsWrittenTableMisbinds | actuator/render_ps.c:59-61 | the three-entry table binds `will_render` to `reset`, `render` to `will_render` and `has_rendered` to `render`; `rdRender` returns no value and `has_rendered` is NULL |
| PulseStep.TableBindsByName | actuator/render_ps.c:59-61 | with a no-op `reset` in front, every slot holds the function of its name and `rdRender` runs the pulse-step logic |
| Motion.FreeSp | actuator/motion.c:38-43 | `sp` is freed at most once and then NULL, with nothing else changed |
| Motion.LoadSpData | actuator/motion.c:52-58 | the current setpoint's duration and target are loaded from `sp->setpoints[spindex]` |
| Motion.LoadNextSp | actuator/motion.c:60-69 | a batch is taken from the mailbox head only when none is held, and its delay is copied; the referenced blocks stay the same |
| Motion.Activate | actuator/motion.c:71-87 | a held batch counts its delay down; at 0 the old batch is freed and the new one becomes current with its loop count, index 0 and setpoint 0; the driver invariant is kept |
| Motion.FreeSpIfEmpty | actuator/motion.c:45-50 | a current batch with no setpoints is freed; otherwise nothing changes |
| Motion.HasUpdate | actuator/motion.c:117-135 | render exactly when a batch is current and its loop count is infinite or positive; otherwise the batch is freed |
| Motion.StepMotion | actuator/motion.c:89-115 | the duration counts down. At 1 or 0 the index advances in array order and wraps after the last setpoint. The wrap decrements the loop count unless it is infinite. The index stays in bounds |
| Motion.Prepare | actuator/motion.c:146-150 | after fetching, activation and dropping an empty batch, rendering proceeds exactly when a batch is current, and the invariant holds |
| Motion.RenderPhase | actuator/motion.c:151-167 | with nothing to render: `motorSet(0)` and inactive. Otherwise the phases run in order: `reset` only on the inactive-to-active edge, then `will_render`, `render`, `motorSet`, the step, then `has_rendered` |
| Motion.Tick | actuator/motion.c:137-172 | one thread iteration keeps the driver invariant and the run state |
| Motion.ActivateAsWritten | actuator/motion.c:84 | as written, activation faults exactly when the due batch has no setpoints, and otherwise agrees with `Activate` |
| Motion.FreeSpIfEmptyAsWritten | actuator/motion.c:45-50 | as written, the empty check faults exactly when no batch is current |
| Motion.TickAsWritten | actuator/motion.c:146-150 | a tick of the thread as written either behaves as the guarded tick or faults: out of bounds only when the batch fetched is empty, NULL only when no batch is current after activation |
| Motion.TickAsWrittenAgrees | actuator/motion.c:146-150 | the as-written tick agrees with the guarded one exactly when a batch is current after activation and it has setpoints |
| Motion.IdleTickFaults | actuator/motion.c:148 | with nothing current, held or queued, every as-written tick dereferences NULL, while the guarded tick sends `motorSet(0)` |
| Motion.EmptyBatchFaults | actuator/motion.c:84 | an empty batch activated with no delay makes the as-written tick read past its array, while the guarded tick frees it and stops the motor |
| Motion.ObjectInit | actuator/motion.c:179-186 | the object is stopped, with no current or next batch and index and loop 0, and every other field is kept, the configuration included |
| Motion.Start | actuator/motion.c:188-205 | from STOP the configuration is stored and the thread is created and starts inactive; from any other state only the state changes; the driver ends READY with its batches untouched |
| Motion.Stop | actuator/motion.c:207-231 | from READY the thread ends and the current batch is freed; the driver ends stopped and keeps its configuration |
| Motion.StopLeaksNext | actuator/motion.c:222-224 | a batch held as next when the driver stops stays allocated and is no longer referenced |
| Motion.Post | actuator/motion.c:236 | a non-blocking post appends to the mailbox when there is room and otherwise reports `RDY_TIMEOUT` with the mailbox unchanged |
| Motion.SetpointAsWritten | actuator/motion.c:233-238 | as written, a READY driver refuses with `RDY_RESET`; any other driver posts, which dereferences NULL exactly when no `motionStart` from STOP has set the mailbox |
| Motion.Setpoint | actuator/motion.h:106-115 | the corrected call accepts exactly when the driver is READY with a configured mailbox that has room, appending the batch; it reports `RDY_TIMEOUT` when the mailbox is full and `RDY_RESET` otherwise |
| Motion.InvertedGuard | actuator/motion.c:234 | a READY driver with room never accepts a batch as written, while the corrected call does when configured; a configured driver that is not READY does the opposite, queuing a batch that waits for the next start |
| Motion.UnstartedSetpointFaults | actuator/motion.c:179-238 | as written, `motionSetpoint` faults on the zero-initialised driver and after `motionInit` alone; a start from UNINIT leaves no mailbox and refuses, and a start from STOP followed by a stop gives a mailbox that a post reaches |
| MotionPool.DropsKeepPool | actuator/motion.c:38-43 | a tick step that frees the head of the referenced blocks keeps the pool invariant, and frees only live blocks, each once, none still referenced |
| MotionPool.FreeSpDrops | actuator/motion.c:38-43 | freeing `sp` frees the first referenced block and nothing else |
| MotionPool.LoadNextSpDrops | actuator/motion.c:60-69 | fetching frees nothing and keeps the referenced blocks |
| MotionPool.ActivateDrops | actuator/motion.c:76-79 | activation frees exactly the old current batch, which heads the referenced blocks |
| MotionPool.FreeSpIfEmptyDrops | actuator/motion.c:45-50 | dropping an empty batch frees the first referenced block |
| MotionPool.HasUpdateDrops | actuator/motion.c:117-135 | the loop check frees at most the current batch |
| MotionPool.PrepareDrops | actuator/motion.c:146-150 | fetching, activation and the empty check together free a head of the referenced blocks |
| MotionPool.TickAfterPrepare | actuator/motion.c:151-167 | after `Prepare`, a tick frees nothing more |
| MotionPool.TickPool | actuator/motion.c:137-172 | every tick frees only live blocks, each once, none still referenced, and keeps `sp` and `nextsp` from aliasing |
| MotionPlayback.PrepareOnlyFrees | actuator/motion.c:146-150 | the first half of a tick issues only frees |
| MotionPlayback.RenderPhaseEvents | actuator/motion.c:151-167 | the render phase renders the current setpoint once when it runs, and issues no frees |
| MotionPlayback.TickShape | actuator/motion.c:137-172 | a tick is `Prepare`, then either `motorSet(0)` and inactive, or exactly one render of the current setpoint and one step |
| MotionPlayback.LoopsLength | actuator/motion.c:89-115 | n passes over a batch last n times the sum of max(duration, 1) |
| MotionPlayback.StepRem | actuator/motion.c:89-115 | one step consumes the head of the remaining playback |
| MotionPlayback.PlayTick | actuator/motion.c:137-172 | one tick of a playing batch renders the head of the remaining playback and keeps the rest |
| MotionPlayback.PlayPrefix | actuator/motion.c:137-172 | the first j ticks of a playing batch render the first j setpoints of its remaining playback |
| MotionPlayback.DoneTick | actuator/motion.c:126-130 | a batch whose loops are spent is freed by the next tick, which renders nothing and stops the motor |
| MotionPlayback.ActivateRem | actuator/motion.c:71-87 | right after activation, the remaining playback is `loop` passes over the batch |
| MotionPlayback.BatchPrefix | actuator/motion.c:71-115 | the first j ticks from activation render the first j setpoints of `loop` passes |
| MotionPlayback.BatchPlaysOut | actuator/motion.c:117-135 | a finite loop N of a batch renders exactly N × Σ max(duration, 1) setpoints in array order, frees nothing of its own meanwhile, and is freed on the next tick with `motorSet(0)` |
| MotionPlayback.ZeroLoopFreesAtOnce | actuator/motion.c:126-130 | a batch activated with loop 0 is freed in the same tick without rendering |
| MotionPlayback.LoopTick | actuator/motion.c:106-108 | with the infinite marker, a tick renders and the batch stays current with its loop count |
| MotionPlayback.InfiniteNeverFrees | actuator/motion.c:117-135 | with the infinite marker, a batch renders on every tick for any number of ticks and is never freed |
| MotionPlayback.CountdownTick | actuator/motion.c:73-75 | while a held batch's delay is positive, a tick only counts it down |
| MotionPlayback.ActivationTick | actuator/motion.c:76-86 | the activating tick makes the batch current and renders its setpoint 0 |
| MotionPlayback.DelayedActivation | actuator/motion.c:60-87 | a batch fetched on tick 1 with delay d is held through tick d with its delay counting down, and becomes current on tick d + 1, rendering setpoint 0 |
| MotionScenarios.PsWord | actuator/commtest.c:36-38 | the pulse-step word built by the self-test has the pulse in its low byte and the step in its high byte |
| MotionScenarios.LoopsAt | actuator/motion.c:98-108 | position `q·P + x` of n passes is position x of one pass, for a pass of length P |
| MotionScenarios.Batch2Pass | actuator/commtest.c:45-67 | one pass of the second self-test batch lasts 3000 ticks: 1000 of the first setpoint, then 2000 of the second |
| MotionScenarios.Batch2Held | actuator/commtest.c:47 | posted alone, the second batch is fetched on tick 1, held through tick 2000, and current on tick 2001, rendering its first setpoint |
| MotionScenarios.Batch2Loops | actuator/commtest.c:48-64 | four passes of the second batch are 12000 ticks, with setpoint 1500 (or pulse-step 10/10) for the first 1000 of each 3000 and 10000 (or 10/80) after |
| MotionScenarios.Batch2Plays | actuator/commtest.c:45-67 | once current, the second batch renders those 12000 setpoints and is then freed and the motor stopped |
| MotionScenarios.Batch1Forever | actuator/commtest.c:29-43 | the first self-test batch, once current, renders on every tick and is never freed |
| MotionScenarios.PurrStep | actuator/commtest.c:35-38 | the purr board's first batch pulses for 10 ticks and then holds step 63 |
| MotionScenarios.PsTick | actuator/render_ps.c:43-49 | with the pulse-step renderer in the driver, every motor output of a tick is +127, −127, 0 or the current step |
| HostBits.WordRoundTrip | starfish/hostComms.c:437-440 | splitting a word into its four bytes and packing them gives the word back |
| HostBits.BytesRoundTrip | starfish/hostComms.c:437-440 | packing four bytes into a word and splitting it gives the bytes back |
| HostBits.ShiftInWord | starfish/hostComms.c:223-224 | four bytes shifted into any accumulator leave exactly their word, first byte most significant |
| HostWire.SerializeWordAt | starfish/hostComms.c:180-187 | word i of the serialised bytes reads back as word i |
| HostWire.SerializeWords | starfish/hostComms.c:180-187 | serialising words and reading them back gives the words |
| HostRx.PacketLength | starfish/hostComms.c:226-253 | start bytes 0, 1, 2, 3 select lengths 32, 44, 64, 44, and every other byte selects none |
| HostRx.Next | starfish/hostComms.c:260-263 | the ring index advances modulo 4 |
| HostRx.Init | starfish/hostComms.c:196-204 | the receiver starts at a packet boundary with the ring empty |
| HostRx.RxByte | starfish/hostComms.c:215-279 | a start byte clears the checksum, word index and address flag and sets the length; an invalid one also clears the accumulator and stays at a boundary; the write index moves only on an accepted final byte, and only the current slot is written |
| HostRx.Timeout | starfish/hostComms.c:210-214 | an idle timeout returns the receiver to a packet boundary and changes nothing else |
| HostRx.FeedFrame | starfish/hostComms.c:223-279 | a whole frame read from a boundary stores its data words in the current slot, touches no other slot, ends at a boundary, and advances the write index exactly when the address byte is the board's and the last word is the wrapping sum of the others |
| HostRx.FramePrefix | starfish/hostComms.c:266-274 | after k bytes of a frame, the accumulator, checksum, stored words and address flag are those of the frame's first k bytes |
| HostRx.FrameEnd | starfish/hostComms.c:254-265 | the final byte returns to a boundary and advances the index exactly when the frame is accepted |
| HostRx.DropsBadStart | starfish/hostComms.c:247-252 | a byte that selects no packet is dropped with the accumulator cleared, so the next byte is again a packet start |
| HostRx.TimeoutResyncs | starfish/hostComms.c:210-214 | after a timeout, a whole frame is read as from a boundary, whatever the receiver was in the middle of |
| HostTx.FeedbackCode | starfish/hostComms.c:89-94 | the feedback codes are 0 to 5 |
| HostTx.StatusCode | starfish/hostComms.c:420-436 | motion status bytes are 0 to 3, and an unknown status reads as stopped |
| HostTx.Init | starfish/hostComms.c:96 | the transmitter starts idle |
| HostTx.Seal | starfish/hostComms.c:547-554 | word len − 1 becomes the wrapping sum of words 0 to len − 2, and no other word changes |
| HostTx.CalcChecksumAndSend | starfish/hostComms.c:547-554 | the loop stores the wrapping sum of the earlier words in the last word and sets the words to transmit to len |
| HostTx.QueueMotionReply | starfish/hostComms.c:416-480 | nothing while a send is pending. Otherwise a 16-word checked packet is queued with header (type 2, address, status, 0) in wire order and the readings in words 1 to 14. Word 4 is 0 |
| HostTx.ConfigHeader | starfish/hostComms.c:406 | as written the feedback code is the top byte (sent first), then 0, the address and the packet type 3 last; laid out uniformly it is type, address, 0, feedback code |
| HostTx.QueueConfigReply | starfish/hostComms.c:402-414 | nothing while a send is pending; otherwise an 11-word checked packet of the header in the chosen layout, the offset, the three gains and the version |
| HostTx.QueueConfigReplyWith | starfish/hostComms.c:402-414 | nothing while a send is pending; otherwise an 11-word checked packet of header, offset, the three gains and the version |
| HostTx.SecondReplyIsNoOp | starfish/hostComms.c:402-405 | a reply builder called again before the send finishes does nothing |
| HostTx.TxBranch | starfish/hostComms.c:157-189 | a byte is sent exactly when the USART is ready and words remain; a send ends only when all words are out and transmit-complete or the timer fires |
| HostTx.SendCompletes | starfish/hostComms.c:173-178 | once all words are out, transmit-complete ends the send and resets the indices |
| HostTx.SendsPacket | starfish/hostComms.c:180-187 | sending a queued packet puts its words on the wire in order, most significant byte first |
| HostSlow.DecodeFeedback | starfish/hostComms.c:365-385 | codes 1 to 5 decode to their feedback types, and 0 and every unknown code to DISABLED |
| HostSlow.Packet | starfish/hostComms.c:547-554 | a packet is its words followed by their wrapping sum |
| HostSlow.MotionActions | starfish/hostComms.c:329-352 | a stop request stops all motion, and a queue request queues words 1 to 3; every kind then passes on the skin direction and value |
| HostSlow.ProcessConfig | starfish/hostComms.c:355-401 | only config type 2 (bits 8 to 15) changes the settings, to the request's offset, gains and feedback type (bits 0 to 7) |
| HostSlow.ConfigHeaderRoundTrip | starfish/hostComms.c:361-362 | a config request's header decodes to the type, address, kind and feedback put in it |
| HostSlow.Init | starfish/hostComms.c:64-67 | the link starts with nothing pending and the transmitter idle |
| HostSlow.SlowCode | starfish/hostComms.c:289-327 | at most one packet is handled per call, and only when the indices differ. Motion and config requests are processed and answered, the config reply with its header in the given layout (the firmware's is `AsWritten`). Other types are skipped. The read index then moves on modulo 4 |
| HostLink.PacketFrame | starfish/hostComms.c:226-274 | the bytes of a checked packet whose first byte selects its length form a frame, accepted exactly by the board in its address byte |
| HostLink.FeedAppend | starfish/hostComms.c:196-282 | feeding two byte streams one after the other is feeding their concatenation |
| HostLink.FeedEachConcat | starfish/hostComms.c:196-282 | feeding frames one by one is feeding them back to back |
| HostLink.AdvanceMod | starfish/hostComms.c:260-263 | n accepted frames move the write index by n modulo 4 |
| HostLink.AdvanceReturns | starfish/hostComms.c:260-263 | the write index comes back to where it was exactly after a multiple of 4 accepted frames |
| HostLink.FeedFrames | starfish/hostComms.c:254-265 | frames read back to back end at a boundary with the write index advanced by the number accepted |
| HostLink.AcceptedCountExact | starfish/hostComms.c:257-258 | the count of accepted frames is at most the number of frames; it is all of them exactly when every frame passes the address and checksum tests, and none exactly when none passes |
| HostLink.AllAccepted | starfish/hostComms.c:257-258 | frames that each pass the address and checksum tests are all counted |
| HostLink.RingPending | starfish/hostComms.c:302 | after frames arrive at an empty ring, the slow code sees a packet exactly when the number accepted is not a multiple of 4 |
| HostLink.FullRingLooksEmpty | starfish/hostComms.c:260-263 | four accepted packets before the slow code runs make the ring look empty, and all four are lost |
| HostLink.RequestArrives | starfish/hostComms.c:254-270 | a packet addressed to the board fills the slot the slow code reads next with its data words |
| HostLink.MotionSlotServed | starfish/hostComms.c:305-309 | the slow code on a motion request makes the calls its kind asks for, empties the ring and queues a motion reply |
| HostLink.MotionRequestServed | starfish/hostComms.c:329-352 | a motion request read from the wire and handled by the slow code gives the calls its kind asks for, then the skin update |
| HostLink.ConfigSlotServed | starfish/hostComms.c:310-313 | for either header layout, the slow code on a config request installs what its kind asks for and queues a reply in that layout echoing the settings now in force |
| HostLink.ConfigRequestServed | starfish/hostComms.c:355-401 | for either header layout, a config request read from the wire: an update installs the request's offset, gains and feedback, any other kind keeps the settings, and the reply queued in that layout echoes them |
| HostLink.OtherBoardIgnored | starfish/hostComms.c:271-274 | a request addressed to another board is read and dropped, and the slow code finds nothing to do |
| HostLink.ReplyDelivered | starfish/hostComms.c:180-187 | a queued reply sent whole reaches a receiver as the reply's words, and is accepted exactly when its address is in the header's second byte |
| HostLink.MotionReplyDelivered | starfish/hostComms.c:437-440 | the motion reply, type first and address second, is accepted by exactly the receiver with that address, which holds its 15 data words |
| HostLink.ConfigReplyDelivered | starfish/hostComms.c:402-414 | the config reply with its header in the uniform layout is accepted by exactly the receiver with its address |
| HostLink.ConfigReplyAsWrittenMisframed | starfish/hostComms.c:406 | the config reply as written puts the feedback code first and 0 where the address belongs, so no board with a nonzero address accepts it, and with feedback disabled it is not even one frame |
| HostLink.ConfigRequestMisanswered | starfish/hostComms.c:310-313 | a config request served by the firmware's slow code draws a reply that goes out feedback code first and 0 second, which no board with a nonzero address accepts |
| HostLink.ConfigRequestAnswered | starfish/hostComms.c:310-313 | with the uniform header, the reply to a config request is accepted by exactly the receiver with the board's address, which holds its words |

## Left out

- Floating point:
  - the PID controller and `render_pid`;
  - the float fields of the host-link requests and replies, which are
    opaque 32-bit words here;
  - `motorPosition` and sensing;
  - the `VALUE` reply's decimal text of `motorGet()`, which is a
    parameter.
- Hardware and RTOS plumbing:
  - the GPT timer and its signal;
  - thread creation and exit, beyond a `running` flag;
  - `sdStart`, `commStart` and `commStop`;
  - the ADC;
  - the LED blink of the slow code;
  - the USART flag polling, whose flags are inputs of `HostTx.TxBranch`;
  - the `hostCommsBranch` hold-off between receiving and transmitting.
- `comm_lld_crc32` drives the STM32 CRC unit. It is a parameter
  `seq<uint8> -> uint32`.
- `comm_lld_service` does nothing for every type and is not modelled.
- A header read that returns fewer than 2 bytes counts as the negative
  timeout status that `comm_lld_receive` tests for. ChibiOS's
  `sdReadTimeout` returns a byte count, which the code compares with 0.
- A blocking read on a stream that has run out is modelled as the thread
  staying blocked (`Starved`).
- Outside parameters:
  - the message codes `service.c` and `state.c` switch on (a parameter
    `Codes`);
  - `MSGTYPE_LOOP_INFINITE` (`inf`);
  - the render driver's own state and methods;
  - the host-link readings: address, status and measured words;
  - `getAddress()` as a byte.
- The RTOS status codes are taken as ChibiOS 2.x's: `RDY_OK` 0,
  `RDY_TIMEOUT` −1, `RDY_RESET` −2.
- The motion model begins after the tick's signal. The pool is a set of
  live ids, not the pool's free list.
- The batch type is rebuilt from how `motion.c` and `commtest.c` use it.
- `chMBPost` of a full mailbox with `TIME_IMMEDIATE` is modelled as
  `RDY_TIMEOUT`.
- Motion.FreeSpIfEmpty: the two motion.c defects are modelled as explicit
  `Failed` outcomes of the `AsWritten` members (`Motion.FreeSpIfEmptyAsWritten`,
  `Motion.ActivateAsWritten`), not as preconditions. The faulting ticks are
  then stated as lemmas (`Motion.IdleTickFaults`, `Motion.EmptyBatchFaults`).
- Motion.Tick: its own contract states only the invariant and the
  untouched fields. The trace it produces is stated by `MotionPlayback.TickShape`
  and `MotionPool.TickPool`.
- MotionPlayback.BatchPlaysOut: it needs `loop < inf`. A finite count equal
  to the marker is the infinite case.
- Service.ShortMsg: `msgtype_shortmsg_t` is not defined in the source.
  Its layout is assumed to be four bytes: address, type and two zero
  bytes, as its initialiser lists them.
- HostSlow.SlowCode: `getPositionOffset()`, `setPositionOffset()` and the
  gain and feedback accessors of `feedback.c` are not part of this model.
  Each getter is assumed to return what the matching setter last stored,
  so the config reply's offset, gains and feedback type are the settings
  the slow code holds.
- HostRx.RxByte: the receiver's `char` is unsigned, as on ARM EABI. The
  5 ms timer is an `IdleTimeout` event.
- ActuatorMotor.MotorStart: the purr test `addrGet() == ADDR_PURR` is a
  boolean input. The frequency is kept but not stated.
- Pwm.Apply: the ChibiOS PWM driver is not part of this model. `pwmStart`
  is taken to leave both channels disabled, as a fresh configuration does;
  `CmMotor.SetKeepsDrive` and `CmMotor.DriveKept` rely on this.
- CmMotor.CmMotorSet: `PWM_FRACTION_TO_WIDTH` is taken for the configured
  2048-count period, so the width equals the clamped request.
- The top-level `motor.c` functions `cm_motor_init`, `cm_motor_enable` and
  `cm_motor_disable` appear only as the call lists `cm_motor_set` issues.
- `motorStop` of `actuator/motor.c` is not modelled. It only disables the
  driver and stops PWM.
- Address: which of the three headers a build uses is a parameter `Codes`.
  The strap samples are a function of pin and drive.
- Comm.Receive: the corrected receive reads the length from the wire in
  place of the uninitialised local. It reads data into `buf` rather than
  through the NULL `meta->buf`.

## Findings

| source | as written | input that shows it | evidently intended | confidence | as-written member | corrected member |
|---|---|---|---|---|---|---|
| actuator/motion.c:47 | `motion_lld_free_sp_if_empty` reads `mdp->sp->n` with no NULL check and runs every tick | any tick with no current, held or queued batch | skip the check when no batch is current | not executed | Motion.FreeSpIfEmptyAsWritten, Motion.IdleTickFaults | Motion.FreeSpIfEmpty, Motion.Tick |
| actuator/motion.c:84 | activation loads `setpoints[0]` before the empty check frees the batch | a batch with `n = 0` and delay 0 | load setpoint 0 only when the batch has one | not executed | Motion.ActivateAsWritten, Motion.EmptyBatchFaults | Motion.Activate |
| actuator/motion.c:234 | `motionSetpoint` refuses with `RDY_RESET` when the driver is READY and posts otherwise, also when no `motionStart` from STOP has set `config.mbox` | a READY driver with room in its mailbox; a driver after `motionInit` alone, which posts to a NULL mailbox | post when READY, and refuse otherwise | not executed | Motion.SetpointAsWritten, Motion.InvertedGuard, Motion.UnstartedSetpointFaults | Motion.Setpoint |
| actuator/comm.c:119 | `len` is declared uninitialised, and `comm_lld_verify_length` always returns false | `[1, 31, 1, 0, 0x55, 0xAA, 0xBB]`: the next call takes `0x55 0xAA` as a frame | test the length read from the wire, and accept data-bearing types | not executed | Comm.ReceiveAsWritten, Comm.DataFrameDesyncs, Comm.DesyncExample, Comm.ListenStepAsWritten, Comm.AsWrittenDataNeverServed | Comm.Receive, Comm.CorrectedExample, Comm.ListenStep, Comm.EchoOnSuccess, Comm.ErrorReply |
| actuator/render_ps.c:59-61 | three initialisers for the four slots of the method table, and `render` returns void | any `rdRender` call: it reaches `has_rendered` | a no-op `reset` first, and `render` returning the output | not executed | PulseStep.VmtAsWritten, PulseStep.AsWrittenTableMisbinds | PulseStep.Vmt, PulseStep.TableBindsByName, MotionScenarios.PsRenderer, MotionScenarios.PsTick |
| starfish/hostComms.c:406 | the config reply header puts the feedback type in the top byte and the packet type in the bottom byte, which goes on the wire last | any config reply from a board with a nonzero address: the first byte is the feedback code and the second is 0 | type, address, then the rest, as the motion reply does | not executed | HostTx.ConfigHeader, HostLink.ConfigReplyAsWrittenMisframed, HostLink.ConfigRequestMisanswered | HostLink.ConfigReplyDelivered, HostLink.ConfigRequestAnswered |

=== FILE: actuator_motor.dfy ===
/** `motorStart` and `motorSet` of `actuator/motor.c`: an 8-bit signed
    drive request becomes an enable-pin level and a pulse width on one of
    two bridge channels, with a dead band of `period - 127` counts. */
module ActuatorMotor {
  import opened Common
  import opened Pwm

  /** The file-static state: the PWM period chosen at start, the minimum
      width that moves the motor and the last applied request. */
  datatype Motor = Motor(frequency: nat, period: nat, pwmoffset: int, pwmstate: int8)

  const MaxonPeriod: nat := 306
  const PurrPeriod: nat := 207

  /** `motorStart`; whether `addrGet()` is the purr board is an input,
      since `addrGet` and `ADDR_PURR` are not in `actuator/addr.h`. */
  function MotorStart(isPurr: bool): (r: (Motor, seq<Action>))
    ensures r.0.period == (if isPurr then PurrPeriod else MaxonPeriod)
    ensures r.0.pwmoffset == r.0.period - 127 && r.0.pwmstate == 0
    ensures r.1 == [EnableClear, Start(r.0.period)]
  {
    var period := if isPurr then PurrPeriod else MaxonPeriod;
    var freq := if isPurr then 207 * 202898 else 306 * 137254;
    (Motor(freq, period, period - 127, 0), [EnableClear, Start(period)])
  }

  /** The request after `motorSet`'s first statement: -128 becomes -127. */
  function Normalize(p: int8): (q: int8)
    ensures -127 <= q <= 127
    ensures p != -128 ==> q == p
  {
    if p == -128 then -127 else p
  }

  /** `motorSet`. */
  function MotorSet(m: Motor, p: int8): (r: (Motor, seq<Action>))
    ensures r.0 == m.(pwmstate := Normalize(p))
    ensures Normalize(p) == m.pwmstate ==> r.1 == []
    ensures Normalize(p) != m.pwmstate && p == 0 ==> r.1 == [EnableClear]
    ensures Normalize(p) != m.pwmstate && p != 0 ==>
              (EnableSet in r.1 <==> m.pwmstate == 0) && EnableClear !in r.1
    ensures Normalize(p) != m.pwmstate && p > 0 ==>
              ChannelEnable(0, m.pwmoffset + p) in r.1 && ChannelEnable(1, m.pwmoffset + p) !in r.1
    ensures Normalize(p) != m.pwmstate && p < 0 ==>
              ChannelEnable(1, m.pwmoffset - Normalize(p)) in r.1
    ensures forall a :: a in r.1 && a.ChannelEnable? ==> m.pwmoffset < a.width <= m.pwmoffset + 127
    ensures forall a :: a in r.1 && a.ChannelDisable? ==>
              (a.ch == 1 <==> Normalize(p) > 0) && !SameDirection(m.pwmstate, Normalize(p))
  {
    var q := Normalize(p);
    if m.pwmstate == q then
      (m.(pwmstate := q), [])
    else if q == 0 then
      (m.(pwmstate := q), [EnableClear])
    else
      var start := if m.pwmstate == 0 then [EnableSet] else [];
      var newdir := m.pwmstate == 0 || ((m.pwmstate < 0) != (q < 0));
      var drive :=
        if q > 0 then
          [ChannelEnable(0, m.pwmoffset + q)] + (if newdir then [ChannelDisable(1)] else [])
        else
          (if newdir then [ChannelDisable(0)] else []) + [ChannelEnable(1, m.pwmoffset - q)];
      (m.(pwmstate := q), start + drive)
  }

  /** Both nonzero and of the same sign: the only case in which the other
      channel is left alone. */
  predicate SameDirection(a: int, b: int) {
    (a > 0 && b > 0) || (a < 0 && b < 0)
  }

  /** Reference meaning of the driver state: the bridge is off for 0, and
      for a nonzero state exactly the channel of its sign carries
      `pwmoffset + |state|`. */
  predicate Drives(hw: Hw, m: Motor) {
    && (m.pwmstate == 0 ==> !hw.enable)
    && (m.pwmstate > 0 ==>
          hw.enable && hw.running && hw.ch0 == On(m.pwmoffset + m.pwmstate) && hw.ch1 == Off)
    && (m.pwmstate < 0 ==>
          hw.enable && hw.running && hw.ch1 == On(m.pwmoffset - m.pwmstate) && hw.ch0 == Off)
  }

  /** After `motorStart`, whatever the bridge did before, it is off. */
  lemma StartDrivesNothing(hw: Hw, isPurr: bool)
    ensures Drives(ApplyAll(hw, MotorStart(isPurr).1), MotorStart(isPurr).0)
    ensures ApplyAll(hw, MotorStart(isPurr).1).running
  {
    ApplyTwo(hw, EnableClear, Start(MotorStart(isPurr).0.period));
  }

  /** Every `motorSet` call keeps the bridge in the state its new request
      means, from any bridge state that matched the previous request. */
  lemma SetKeepsDrive(hw: Hw, m: Motor, p: int8)
    requires Drives(hw, m)
    requires m.pwmstate != 0 || hw.running
    ensures Drives(ApplyAll(hw, MotorSet(m, p).1), MotorSet(m, p).0)
    ensures ApplyAll(hw, MotorSet(m, p).1).running
  {
    var q := Normalize(p);
    var acts := MotorSet(m, p).1;
    if m.pwmstate == q {
    } else if q == 0 {
      ApplyOne(hw, EnableClear);
    } else {
      var newdir := m.pwmstate == 0 || ((m.pwmstate < 0) != (q < 0));
      var e0 := ChannelEnable(0, m.pwmoffset + q);
      var e1 := ChannelEnable(1, m.pwmoffset - q);
      if m.pwmstate == 0 {
        if q > 0 {
          assert acts == [EnableSet, e0, ChannelDisable(1)];
          ApplyThree(hw, EnableSet, e0, ChannelDisable(1));
        } else {
          assert acts == [EnableSet, ChannelDisable(0), e1];
          ApplyThree(hw, EnableSet, ChannelDisable(0), e1);
        }
      } else if newdir {
        if q > 0 {
          assert acts == [e0, ChannelDisable(1)];
          ApplyTwo(hw, e0, ChannelDisable(1));
        } else {
          assert acts == [ChannelDisable(0), e1];
          ApplyTwo(hw, ChannelDisable(0), e1);
        }
      } else {
        if q > 0 {
          assert acts == [e0];
          ApplyOne(hw, e0);
        } else {
          assert acts == [e1];
          ApplyOne(hw, e1);
        }
      }
    }
  }
}

=== FILE: address.dfy ===
/** Board identity from the four address straps, in the three revisions
    of the firmware: `actuator/addr.c`, `actuator/address.c` and
    `addresscfg.c`.  Each samples two pins twice, assembles a 4-bit
    pattern, maps the pattern to a one-hot identity byte and answers
    "is this wire address for me?" with a bitwise AND. */
module Address {
  import opened Common

  datatype Board = Invalid | Ribs | Purr | Spine | HeadYaw | HeadPitch

  /** The identity byte of every board in one header revision. */
  datatype Codes = Codes(invalid: bv8, ribs: bv8, purr: bv8, spine: bv8,
                         headYaw: bv8, headPitch: bv8)

  /** `actuator/addr.h`. */
  const AddrH := Codes(0x00, 0x01, 0x02, 0x04, 0x08, 0x10)
  /** `address.h`. */
  const AddressH := Codes(0x00, 0x01, 0x10, 0x08, 0x04, 0x02)
  /** `addresscfg.h`. */
  const AddressCfgH := Codes(0x00, 0x01, 0x10, 0x08, 0x04, 0x02)

  function Code(c: Codes, b: Board): bv8 {
    match b
    case Invalid => c.invalid
    case Ribs => c.ribs
    case Purr => c.purr
    case Spine => c.spine
    case HeadYaw => c.headYaw
    case HeadPitch => c.headPitch
  }

  predicate OneHot(x: bv8) {
    x == 0x01 || x == 0x02 || x == 0x04 || x == 0x08 ||
    x == 0x10 || x == 0x20 || x == 0x40 || x == 0x80
  }

  /** What every revision's header promises: INVALID is zero and the five
      boards own five different single bits. */
  predicate BitsetCodes(c: Codes) {
    && c.invalid == 0
    && (forall b: Board :: b != Invalid ==> OneHot(Code(c, b)))
    && (forall b1: Board, b2: Board :: b1 != b2 ==> Code(c, b1) != Code(c, b2))
  }

  lemma HeadersAreBitsets()
    ensures BitsetCodes(AddrH) && BitsetCodes(AddressH) && BitsetCodes(AddressCfgH)
  {
  }

  // ---------------------------------------------------------------------
  // Strap sampling

  /** How the ADDROUT pin is driven while ADDR0/ADDR1 are sampled. */
  datatype Drive = OutputLow | OutputHigh | PullDown | PullUp
  datatype Pin = Addr0 | Addr1

  /** Assemble the pattern: ADDR0 and ADDR1 under the first drive give
      bits 0 and 1, under the second drive bits 2 and 3. */
  function ReadPattern(sample: (Drive, Pin) -> bool, first: Drive, second: Drive): (p: nat)
    ensures p < 16
    ensures (p % 2 == 1) == sample(first, Addr0)
    ensures (p / 2 % 2 == 1) == sample(first, Addr1)
    ensures (p / 4 % 2 == 1) == sample(second, Addr0)
    ensures (p / 8 == 1) == sample(second, Addr1)
  {
    (if sample(first, Addr0) then 1 else 0) +
    (if sample(first, Addr1) then 2 else 0) +
    (if sample(second, Addr0) then 4 else 0) +
    (if sample(second, Addr1) then 8 else 0)
  }

  /** `addrRead` / `cm_address_read`: ADDROUT driven low, then high. */
  function ActuatorPattern(sample: (Drive, Pin) -> bool): nat {
    ReadPattern(sample, OutputLow, OutputHigh)
  }

  /** `cm_address_init`: ADDROUT as pulled-down input, then pulled-up input. */
  function CfgPattern(sample: (Drive, Pin) -> bool): nat {
    ReadPattern(sample, PullDown, PullUp)
  }

  /** The two sampling procedures put the same pins in the same bits; they
      only differ in how ADDROUT is driven. */
  lemma SameBitPositions(sample: (Drive, Pin) -> bool, sample': (Drive, Pin) -> bool)
    requires sample'(PullDown, Addr0) == sample(OutputLow, Addr0)
    requires sample'(PullDown, Addr1) == sample(OutputLow, Addr1)
    requires sample'(PullUp, Addr0) == sample(OutputHigh, Addr0)
    requires sample'(PullUp, Addr1) == sample(OutputHigh, Addr1)
    ensures CfgPattern(sample') == ActuatorPattern(sample)
  {
  }

  // ---------------------------------------------------------------------
  // Pattern maps

  /** The switch of `addrRead` and `cm_address_read` (identical). */
  function DecodeActuator(p: nat): Board {
    if p == 0x0 then HeadPitch
    else if p == 0xA then HeadYaw
    else if p == 0x5 then Spine
    else if p == 0xF then Purr
    else if p == 0xD then Ribs
    else Invalid
  }

  /** The switch of `cm_address_init`. */
  function DecodeCfg(p: nat): Board {
    if p == 0xE then Ribs
    else if p == 0xF then Purr
    else if p == 0xA then HeadPitch
    else if p == 0x5 then Spine
    else if p == 0x0 then HeadYaw
    else Invalid
  }

  /** Independent statement of the actuator strap table: the one pattern
      assigned to each board. */
  function ActuatorStraps(b: Board): nat
    requires b != Invalid
  {
    match b
    case HeadPitch => 0x0
    case HeadYaw => 0xA
    case Spine => 0x5
    case Purr => 0xF
    case Ribs => 0xD
  }

  /** Independent statement of the `addresscfg.c` strap table. */
  function CfgStraps(b: Board): nat
    requires b != Invalid
  {
    match b
    case Ribs => 0xE
    case Purr => 0xF
    case HeadPitch => 0xA
    case Spine => 0x5
    case HeadYaw => 0x0
  }

  /** The actuator map is exactly the strap table: each board's pattern
      decodes to it, and any pattern that decodes to a board is that
      board's pattern; the other eleven patterns are INVALID. */
  lemma DecodeActuatorExact(p: nat, b: Board)
    requires b != Invalid
    ensures DecodeActuator(ActuatorStraps(b)) == b
    ensures DecodeActuator(p) == b <==> p == ActuatorStraps(b)
  {
  }

  lemma DecodeCfgExact(p: nat, b: Board)
    requires b != Invalid
    ensures DecodeCfg(CfgStraps(b)) == b
    ensures DecodeCfg(p) == b <==> p == CfgStraps(b)
  {
  }

  /** Exactly five of the sixteen patterns name a board. */
  lemma ValidPatternCount()
    ensures |set p | 0 <= p < 16 && DecodeActuator(p) != Invalid| == 5
    ensures |set p | 0 <= p < 16 && DecodeCfg(p) != Invalid| == 5
  {
    assert (set p | 0 <= p < 16 && DecodeActuator(p) != Invalid) == {0x0, 0xA, 0x5, 0xF, 0xD};
    assert (set p | 0 <= p < 16 && DecodeCfg(p) != Invalid) == {0xE, 0xF, 0xA, 0x5, 0x0};
  }

  /** The identity byte a board stores after reading its straps. */
  function ReadIdentity(c: Codes, decode: nat -> Board, p: nat): (id: bv8)
    ensures BitsetCodes(c) ==> (id == 0 <==> decode(p) == Invalid)
    ensures BitsetCodes(c) && decode(p) != Invalid ==> OneHot(id)
  {
    Code(c, decode(p))
  }

  /** Five valid patterns give five distinct identity bytes, and every
      other pattern gives INVALID (0). */
  lemma ReadIdentityInjective(c: Codes, p1: nat, p2: nat)
    requires BitsetCodes(c)
    requires p1 < 16 && p2 < 16
    ensures ReadIdentity(c, DecodeActuator, p1) == 0 <==> DecodeActuator(p1) == Invalid
    ensures DecodeActuator(p1) != Invalid && DecodeActuator(p2) != Invalid && p1 != p2
            ==> ReadIdentity(c, DecodeActuator, p1) != ReadIdentity(c, DecodeActuator, p2)
    ensures DecodeCfg(p1) != Invalid && DecodeCfg(p2) != Invalid && p1 != p2
            ==> ReadIdentity(c, DecodeCfg, p1) != ReadIdentity(c, DecodeCfg, p2)
  {
    assert OneHot(Code(c, DecodeActuator(p1))) || DecodeActuator(p1) == Invalid;
    if DecodeActuator(p1) != Invalid && DecodeActuator(p2) != Invalid && p1 != p2 {
      DecodeActuatorExact(p1, DecodeActuator(p1));
      DecodeActuatorExact(p2, DecodeActuator(p2));
    }
    if DecodeCfg(p1) != Invalid && DecodeCfg(p2) != Invalid && p1 != p2 {
      DecodeCfgExact(p1, DecodeCfg(p1));
      DecodeCfgExact(p2, DecodeCfg(p2));
    }
  }

  // ---------------------------------------------------------------------
  // Self test

  /** `addrIsSelf` / `cm_address_is_self`: the wire byte shares a bit with
      the board's identity. */
  function IsSelf(addr: bv8, local: bv8): (r: bool)
    ensures local == 0 ==> !r
    ensures addr == 0 ==> !r
    ensures addr == local ==> (r <==> local != 0)
  {
    addr & local != 0
  }

  /** The wire byte for a set of boards: the OR of their identities. */
  function Multicast(c: Codes, boards: seq<Board>): bv8 {
    if |boards| == 0 then 0
    else Multicast(c, boards[..|boards| - 1]) | Code(c, boards[|boards| - 1])
  }

  lemma OneHotDisjoint(x: bv8, y: bv8)
    requires OneHot(x) && OneHot(y)
    ensures (x & y != 0) <==> x == y
  {
  }

  /** With bitset identities a single board's byte reaches exactly that
      board, and an INVALID board matches nothing. */
  lemma UnicastMatchesOnlyItself(c: Codes, target: Board, self: Board)
    requires BitsetCodes(c)
    requires target != Invalid
    ensures IsSelf(Code(c, target), Code(c, self)) <==> self == target
  {
    if self != Invalid {
      OneHotDisjoint(Code(c, target), Code(c, self));
    }
  }

  /** The OR of several identities matches each member of the set and no
      other board. */
  lemma {:induction false} MulticastMatchesMembers(c: Codes, boards: seq<Board>, self: Board)
    requires BitsetCodes(c)
    requires self != Invalid
    ensures IsSelf(Multicast(c, boards), Code(c, self)) <==> self in boards
  {
    if |boards| != 0 {
      var init := boards[..|boards| - 1];
      var last := boards[|boards| - 1];
      MulticastMatchesMembers(c, init, self);
      assert boards == init + [last];
      MulticastStep(c, init, last, self);
    }
  }

  /** Adding one board to the set adds exactly that board to the matches. */
  lemma MulticastStep(c: Codes, init: seq<Board>, last: Board, self: Board)
    requires BitsetCodes(c) && self != Invalid
    requires IsSelf(Multicast(c, init), Code(c, self)) <==> self in init
    ensures IsSelf(Multicast(c, init + [last]), Code(c, self)) <==> self in init + [last]
  {
    assert (init + [last])[..|init|] == init;
    OrShares(Multicast(c, init), Code(c, last), Code(c, self));
    if last != Invalid {
      UnicastMatchesOnlyItself(c, last, self);
    }
  }

  lemma OrShares(m: bv8, l: bv8, sv: bv8)
    ensures IsSelf(m | l, sv) <==> IsSelf(m, sv) || IsSelf(l, sv)
  {
  }

  // ---------------------------------------------------------------------
  // Boot-time identity

  /** Operations on the address module after boot: one strap read, then
      any number of self tests. */
  datatype AddrOp = ReadStraps(pattern: nat) | Query(addr: bv8)

  /** Run the operations from the power-on value INVALID; returns the
      stored identity and the answers of the queries. */
  function Run(c: Codes, decode: nat -> Board, ops: seq<AddrOp>): (r: (bv8, seq<bool>))
    ensures |r.1| == QueryCount(ops)
    ensures AllQueries(ops) ==> r.0 == c.invalid
  {
    if |ops| == 0 then (c.invalid, [])
    else
      var (local, answers) := Run(c, decode, ops[..|ops| - 1]);
      match ops[|ops| - 1]
      case ReadStraps(p) => (Code(c, decode(p)), answers)
      case Query(a) => (local, answers + [IsSelf(a, local)])
  }

  predicate AllQueries(ops: seq<AddrOp>) {
    forall i :: 0 <= i < |ops| ==> ops[i].Query?
  }

  /** How many of the operations are queries. */
  function QueryCount(ops: seq<AddrOp>): nat {
    if |ops| == 0 then 0 else QueryCount(ops[..|ops| - 1]) + (if ops[|ops| - 1].Query? then 1 else 0)
  }

  /** After the single strap read, queries never change the identity and
      each answers against the identity the read stored. */
  lemma {:induction false} IdentityFixedAfterRead(c: Codes, decode: nat -> Board, p: nat, qs: seq<AddrOp>)
    requires AllQueries(qs)
    ensures Run(c, decode, [ReadStraps(p)] + qs).0 == Code(c, decode(p))
    ensures |Run(c, decode, [ReadStraps(p)] + qs).1| == |qs|
    ensures forall i :: 0 <= i < |qs| ==>
              Run(c, decode, [ReadStraps(p)] + qs).1[i] == IsSelf(qs[i].addr, Code(c, decode(p)))
  {
    if |qs| == 0 {
      assert [ReadStraps(p)] + qs == [ReadStraps(p)];
      assert [ReadStraps(p)][..0] == [];
    } else {
      var init := qs[..|qs| - 1];
      IdentityFixedAfterRead(c, decode, p, init);
      var ops := [ReadStraps(p)] + qs;
      assert ops[..|ops| - 1] == [ReadStraps(p)] + init;
      assert ops[|ops| - 1] == qs[|qs| - 1];
    }
  }

  // ---------------------------------------------------------------------
  // Documentation tables

  /** The strap column of the table in the comment above
      `cm_address_read` (`actuator/address.c`). */
  function AddressCDocStraps(b: Board): nat
    requires b != Invalid
  {
    match b
    case Ribs => 0xD
    case Purr => 0xF
    case Spine => 0x5
    case HeadYaw => 0xA
    case HeadPitch => 0x0
  }

  /** The strap column of the table in `address.h`. */
  function AddressHDocStraps(b: Board): nat
    requires b != Invalid
  {
    match b
    case Ribs => 0xE
    case Purr => 0xF
    case HeadPitch => 0xA
    case Spine => 0x5
    case HeadYaw => 0x0
  }

  /** `address.c`'s code follows its own comment table, `addresscfg.c`
      follows `address.h`'s table, and the two tables disagree on RIBS,
      HEAD_PITCH and HEAD_YAW. */
  lemma DocTablesDisagree(b: Board)
    requires b != Invalid
    ensures DecodeActuator(AddressCDocStraps(b)) == b
    ensures DecodeCfg(AddressHDocStraps(b)) == b
    ensures AddressCDocStraps(b) != AddressHDocStraps(b) <==> b in {Ribs, HeadPitch, HeadYaw}
  {
  }
}

=== FILE: cm_motor.dfy ===
/** `cm_motor_set` of the master-board `motor.c`: a request in
    [-2048, 2048] drives one bridge channel at `|p| / 2048` of the PWM
    period, switching the PWM unit off entirely at zero. */
module CmMotor {
  import opened Common
  import opened Pwm
  import ActuatorMotor

  const PwmPeriod: int := 2048

  /** The function-static `pwmstate`, 0 at power-on. */
  datatype CmMotor = CmMotor(pwmstate: int16)

  const PowerOn := CmMotor(0)

  /** `PWM_FRACTION_TO_WIDTH(&PWMD1, PWM_PERIOD, x)` for the configured
      period of `PWM_PERIOD` counts. */
  function Width(x: int): int {
    PwmPeriod * x / PwmPeriod
  }

  /** The first statement of `cm_motor_set`: bound the input. */
  function Clamp(p: int16): (q: int16)
    ensures -PwmPeriod <= q <= PwmPeriod
    ensures -PwmPeriod <= p <= PwmPeriod ==> q == p
    ensures p > PwmPeriod ==> q == PwmPeriod
    ensures p < -PwmPeriod ==> q == -PwmPeriod
  {
    if p > PwmPeriod then PwmPeriod else if p < -PwmPeriod then -PwmPeriod else p
  }

  /** `cm_motor_enable` and `cm_motor_disable`. */
  const Enable: seq<Action> := [EnableSet, Start(2048)]
  const Disable: seq<Action> := [Stop, EnableClear]

  /** `cm_motor_set`. */
  function CmMotorSet(m: CmMotor, p: int16): (r: (CmMotor, seq<Action>))
    ensures r.0.pwmstate == Clamp(p)
    ensures Clamp(p) == m.pwmstate ==> r.1 == []
    ensures Clamp(p) != m.pwmstate && Clamp(p) == 0 ==> r.1 == Disable
    ensures Clamp(p) != m.pwmstate && Clamp(p) != 0 ==>
              (EnableSet in r.1 <==> m.pwmstate == 0) && Stop !in r.1 &&
              (m.pwmstate == 0 ==> |r.1| >= 2 && r.1[..2] == Enable)
    ensures Clamp(p) != m.pwmstate && Clamp(p) > 0 ==> ChannelEnable(0, Clamp(p)) in r.1
    ensures Clamp(p) != m.pwmstate && Clamp(p) < 0 ==> ChannelEnable(1, -Clamp(p)) in r.1
    ensures forall a :: a in r.1 && a.ChannelDisable? ==>
              (m.pwmstate < 0) != (Clamp(p) < 0) && (a.ch == 1 <==> Clamp(p) > 0)
  {
    var q := Clamp(p);
    if m.pwmstate == q then
      (CmMotor(q), [])
    else if q == 0 then
      (CmMotor(q), Disable)
    else
      var start := if m.pwmstate == 0 then Enable else [];
      var newdir := (m.pwmstate < 0) != (q < 0);
      var drive :=
        if q > 0 then
          [ChannelEnable(0, Width(q))] + (if newdir then [ChannelDisable(1)] else [])
        else
          (if newdir then [ChannelDisable(0)] else []) + [ChannelEnable(1, Width(-q))];
      (CmMotor(q), start + drive)
  }

  /** Reference meaning of the state: PWM off and bridge disabled at 0,
      otherwise only the channel of the request's sign carries `|p|`. */
  predicate Drives(hw: Hw, m: CmMotor) {
    && (m.pwmstate == 0 ==> !hw.enable && !hw.running)
    && (m.pwmstate > 0 ==> hw.enable && hw.running && hw.ch0 == On(m.pwmstate) && hw.ch1 == Off)
    && (m.pwmstate < 0 ==> hw.enable && hw.running && hw.ch1 == On(-(m.pwmstate as int)) && hw.ch0 == Off)
  }

  /** A start from zero is not a direction change in this revision, yet the
      opposite channel is still off, because enabling restarts the PWM unit. */
  lemma SetKeepsDrive(hw: Hw, m: CmMotor, p: int16)
    requires Drives(hw, m)
    ensures Drives(ApplyAll(hw, CmMotorSet(m, p).1), CmMotorSet(m, p).0)
  {
    var q := Clamp(p);
    if m.pwmstate == q {
    } else if q == 0 {
      ApplyTwo(hw, Stop, EnableClear);
    } else {
      DriveKept(hw, m, p);
    }
  }

  /** The case of a new non-zero request. */
  lemma DriveKept(hw: Hw, m: CmMotor, p: int16)
    requires Drives(hw, m) && Clamp(p) != m.pwmstate && Clamp(p) != 0
    ensures Drives(ApplyAll(hw, CmMotorSet(m, p).1), CmMotorSet(m, p).0)
  {
    var q := Clamp(p);
    var acts := CmMotorSet(m, p).1;
    var newdir := (m.pwmstate < 0) != (q < 0);
    var e0 := ChannelEnable(0, Width(q));
    var e1 := ChannelEnable(1, Width(-q));
    var start := if m.pwmstate == 0 then Enable else [];
    var drive :=
      if q > 0 then [e0] + (if newdir then [ChannelDisable(1)] else [])
      else (if newdir then [ChannelDisable(0)] else []) + [e1];
    assert acts == start + drive;
    ApplyAllAppend(hw, start, drive);
    var h := ApplyAll(hw, start);
    if m.pwmstate == 0 {
      ApplyTwo(hw, EnableSet, Start(2048));
      assert h.enable && h.running && h.ch0 == Off && h.ch1 == Off;
    } else {
      assert h == hw;
    }
    if q > 0 {
      if newdir {
        assert drive == [e0, ChannelDisable(1)];
        ApplyTwo(h, e0, ChannelDisable(1));
      } else {
        assert drive == [e0];
        ApplyOne(h, e0);
      }
    } else {
      if newdir {
        assert drive == [ChannelDisable(0), e1];
        ApplyTwo(h, ChannelDisable(0), e1);
      } else {
        assert drive == [e1];
        ApplyOne(h, e1);
      }
    }
  }

  /** At power-on the bridge is off and the PWM unit stopped, which is
      what state 0 means. */
  lemma PowerOnDrivesNothing()
    ensures Drives(Hw(false, false, Off, Off), PowerOn)
  {
  }

  /** The two revisions disagree on a start from rest: the actuator driver
      counts 0 -> positive as a new direction and disables channel 1, this
      one only compares signs and leaves channel 1 to the PWM restart. */
  lemma StartFromRestDiffers(m: ActuatorMotor.Motor, p: int8)
    requires m.pwmstate == 0 && p > 0
    ensures ChannelDisable(1) in ActuatorMotor.MotorSet(m, p).1
    ensures ChannelDisable(1) !in CmMotorSet(PowerOn, p).1
  {
  }
}

=== FILE: comm.dfy ===
/** The RS-485 link of `actuator/comm.c` over an input byte stream.

    A frame is `addr, type`, and for the two data-bearing types a
    little-endian `u16` length, the data and a 16-bit checksum.  The
    stream is the bytes still unread; a blocking read that would need
    more bytes than the stream holds leaves the thread blocked. */
module Comm {
  import opened Common
  import Address
  import MsgType

  /** The `MSGTYPE_*` values of `actuator/comm.h`, which `comm.c`
      includes. */
  const Noop: uint8 := 0
  const PingReq: uint8 := 1
  const PingResp: uint8 := 2
  const SetpointReq: uint8 := 31
  const SetpointResp: uint8 := 32
  const ErrorResp: uint8 := 255

  /** `uint8_t buf[1024]` of `commListen`. */
  const BufSize: nat := 1024

  /** `comm_lld_expect_data`. */
  predicate ExpectData(t: uint8) {
    t == SetpointReq || t == SetpointResp
  }

  /** The two headers disagree: the code `comm.c` treats as a setpoint
      request is the PID request of `msgtype.h`, and the setpoint request
      of `msgtype.h` is read as a frame with no data. */
  lemma CodesClash()
    ensures SetpointReq == MsgType.Code(MsgType.SetPidReq)
    ensures SetpointResp == MsgType.Code(MsgType.SetPidResp)
    ensures ExpectData(MsgType.Code(MsgType.SetPidReq))
    ensures !ExpectData(MsgType.Code(MsgType.SetpointReq))
    ensures !ExpectData(MsgType.Code(MsgType.SetpointResp))
  {
  }

  /** `comm_lld_verify_length`: the `return true` of the data-bearing
      cases is commented out, so they fall through to `return false`. */
  function VerifyLength(t: uint8, len: uint16): (ok: bool)
    ensures !ok
  {
    false
  }

  /** `comm_lld_meta_t`; `buf` is NULL or the data read. */
  datatype Meta = Meta(addr: uint8, typ: uint8, len: uint16, buf: Option<seq<uint8>>)

  /** What a receive call leaves: a status with the metadata and the
      stream after it, a header read that timed out, or a thread blocked
      on a read the stream cannot satisfy. */
  datatype Received =
    | Got(status: int, meta: Meta, rest: seq<uint8>)
    | Failed(status: int, rest: seq<uint8>)
    | Starved

  /** The byte string a sender puts on the wire for one message, with
      `crc` standing for the CRC unit's value over the data. */
  function Frame(addr: uint8, typ: uint8, data: seq<uint8>, crc: seq<uint8> -> uint32): (f: seq<uint8>)
    requires |data| < 0x1_0000
    ensures |f| >= 2 && f[..2] == [addr, typ]
    ensures !ExpectData(typ) ==> |f| == 2
    ensures ExpectData(typ) ==> |f| == 6 + |data| && f[4..4 + |data|] == data
  {
    if ExpectData(typ) then [addr, typ] + U16Le(|data|) + data + U16Le(crc(data) % 0x1_0000)
    else [addr, typ]
  }

  /** `comm_lld_receive` as written.  The header read's timeout is taken
      as the negative status the code tests for; a frame with data is
      rejected once its length is read, because the length test always
      fails. */
  function ReceiveAsWritten(s: seq<uint8>): (r: Received)
    ensures r.Got? ==> r.meta.buf.None?
    ensures r.Got? && r.status == RdyOk ==> !ExpectData(r.meta.typ) && r.meta.len == 0
    ensures r.Got? && ExpectData(r.meta.typ) ==> r.status == RdyReset && |s| >= 4 && r.rest == s[4..]
  {
    if |s| < 2 then Failed(RdyTimeout, [])
    else if !ExpectData(s[1]) then Got(RdyOk, Meta(s[0], s[1], 0, None), s[2..])
    else if |s| < 4 then Starved
    else
      var m := Meta(s[0], s[1], FromU16Le(s[2], s[3]), None);
      if !VerifyLength(m.typ, m.len) then Got(RdyReset, m, s[4..])
      else assert false; Starved
  }

  /** `comm_lld_receive` with the length test accepting the data-bearing
      types, the wire length used in place of the uninitialised local,
      and the data read into `buf` rather than through the NULL
      `meta->buf`. */
  function Receive(s: seq<uint8>, local: bv8, blen: nat, crc: seq<uint8> -> uint32): (r: Received)
    ensures r.Failed? ==> r.rest == []
    ensures r.Got? ==> 2 <= |s| && r.meta.addr == s[0] && r.meta.typ == s[1]
    ensures r.Got? ==> |r.rest| + 2 <= |s| && r.rest == s[|s| - |r.rest|..]
    ensures r.Got? && r.meta.buf.Some? ==> r.status == RdyOk && |r.meta.buf.value| == r.meta.len
    ensures r.Got? && r.status == RdyOk ==> (r.meta.buf.Some? <==> ExpectData(r.meta.typ))
    ensures r.Got? && r.status == RdyOk && ExpectData(r.meta.typ) ==>
              r.meta.len <= blen && Address.IsSelf(r.meta.addr as bv8, local)
  {
    if |s| < 2 then Failed(RdyTimeout, [])
    else if !ExpectData(s[1]) then Got(RdyOk, Meta(s[0], s[1], 0, None), s[2..])
    else if |s| < 4 then Starved
    else
      var len := FromU16Le(s[2], s[3]);
      var m := Meta(s[0], s[1], len, None);
      if |s| < 6 + len then Starved
      else if !Address.IsSelf(s[0] as bv8, local) || len > blen then Got(RdyReset, m, s[6 + len..])
      else
        var data := s[4..4 + len];
        var checksum := FromU16Le(s[4 + len], s[5 + len]);
        if checksum != crc(data) % 0x1_0000 then Got(RdyReset, m, s[6 + len..])
        else Got(RdyOk, m.(buf := Some(data)), s[6 + len..])
  }

  /** A delivered data frame is, byte for byte, a well-formed frame at the
      head of the stream: address, type, length, the data and its
      checksum. */
  lemma DeliveredIsFrame(s: seq<uint8>, local: bv8, blen: nat, crc: seq<uint8> -> uint32)
    requires Receive(s, local, blen, crc).Got?
    requires Receive(s, local, blen, crc).status == RdyOk
    requires ExpectData(Receive(s, local, blen, crc).meta.typ)
    ensures var r := Receive(s, local, blen, crc);
            s == Frame(r.meta.addr, r.meta.typ, r.meta.buf.value, crc) + r.rest
  {
    var len := FromU16Le(s[2], s[3]);
    FrameAtHead(s, len, crc);
  }

  lemma FrameAtHead(s: seq<uint8>, len: uint16, crc: seq<uint8> -> uint32)
    requires |s| >= 6 + len && ExpectData(s[1])
    requires len == FromU16Le(s[2], s[3])
    requires FromU16Le(s[4 + len], s[5 + len]) == crc(s[4..4 + len]) % 0x1_0000
    ensures s == Frame(s[0], s[1], s[4..4 + len], crc) + s[6 + len..]
  {
    var data := s[4..4 + len];
    U16BytesRoundTrip(s[2], s[3]);
    U16BytesRoundTrip(s[4 + len], s[5 + len]);
    assert U16Le(|data|) == s[2..4];
    assert U16Le(crc(data) % 0x1_0000) == s[4 + len..6 + len];
    SplitFive(s, 4 + len);
  }

  /** A stream long enough for a frame of `4 + k - 4` data bytes is its
      header, length, data, checksum and the rest, in order. */
  lemma SplitFive(s: seq<uint8>, k: nat)
    requires 4 <= k && k + 2 <= |s|
    ensures s == [s[0], s[1]] + s[2..4] + s[4..k] + s[k..k + 2] + s[k + 2..]
  {
    assert s[..2] == [s[0], s[1]];
    assert s == s[..2] + s[2..4] + s[4..k] + s[k..k + 2] + s[k + 2..];
  }

  /** Each frame is read whole, whatever its fate: the stream after it is
      exactly what followed it.  It is delivered iff it carries no data,
      or it is addressed to this board and fits the buffer (a correct
      checksum is part of the frame). */
  lemma ReceiveFrame(addr: uint8, typ: uint8, data: seq<uint8>, tail: seq<uint8>,
                     local: bv8, blen: nat, crc: seq<uint8> -> uint32)
    requires |data| < 0x1_0000
    requires !ExpectData(typ) ==> data == []
    ensures Receive(Frame(addr, typ, data, crc) + tail, local, blen, crc).Got?
    ensures Receive(Frame(addr, typ, data, crc) + tail, local, blen, crc).rest == tail
    ensures Receive(Frame(addr, typ, data, crc) + tail, local, blen, crc).status == RdyOk <==>
              !ExpectData(typ) || (Address.IsSelf(addr as bv8, local) && |data| <= blen)
    ensures Receive(Frame(addr, typ, data, crc) + tail, local, blen, crc).meta.addr == addr
    ensures Receive(Frame(addr, typ, data, crc) + tail, local, blen, crc).meta.typ == typ
    ensures Receive(Frame(addr, typ, data, crc) + tail, local, blen, crc).status == RdyOk ==>
              Receive(Frame(addr, typ, data, crc) + tail, local, blen, crc).meta.buf ==
                (if ExpectData(typ) then Some(data) else None)
  {
    var f := Frame(addr, typ, data, crc);
    var s := f + tail;
    if ExpectData(typ) {
      var len := |data|;
      assert s[2..4] == U16Le(len);
      U16RoundTrip(len);
      assert s[4..4 + len] == data;
      assert s[4 + len..6 + len] == U16Le(crc(data) % 0x1_0000);
      U16RoundTrip(crc(data) % 0x1_0000);
      assert s[6 + len..] == tail;
    } else {
      assert s[2..] == tail;
    }
  }

  /** The effect of the as-written length test: a data frame is abandoned
      after its length, and its data and checksum are left in the stream,
      where the next call takes their first two bytes as a header. */
  lemma DataFrameDesyncs(addr: uint8, typ: uint8, data: seq<uint8>, tail: seq<uint8>,
                         crc: seq<uint8> -> uint32)
    requires |data| < 0x1_0000
    requires ExpectData(typ)
    ensures ReceiveAsWritten(Frame(addr, typ, data, crc) + tail) ==
              Got(RdyReset, Meta(addr, typ, |data| as uint16, None),
                  data + U16Le(crc(data) % 0x1_0000) + tail)
  {
    var s := Frame(addr, typ, data, crc) + tail;
    assert s[2..4] == U16Le(|data|);
    assert s[4..] == data + U16Le(crc(data) % 0x1_0000) + tail;
  }

  /** A concrete case: a one-byte setpoint request to board 1 with data
      0x55 and checksum bytes 0xAA 0xBB.  The as-written receive stops after
      the length; the next call takes 0x55 0xAA as a complete data-less
      frame and delivers it, while the corrected receive consumes the
      whole frame. */
  lemma DesyncExample()
    ensures ReceiveAsWritten([1, 31, 1, 0, 0x55, 0xAA, 0xBB]) ==
              Got(RdyReset, Meta(1, 31, 1, None), [0x55, 0xAA, 0xBB])
    ensures ReceiveAsWritten([0x55, 0xAA, 0xBB]) == Got(RdyOk, Meta(0x55, 0xAA, 0, None), [0xBB])
  {
    var s: seq<uint8> := [1, 31, 1, 0, 0x55, 0xAA, 0xBB];
    assert s[2] == 1 && s[3] == 0;
    assert FromU16Le(s[2], s[3]) == 1;
    var r := ReceiveAsWritten(s);
    assert r.status == RdyReset && r.rest == s[4..];
    assert r.meta.len == 1;
    assert s[4..] == [0x55, 0xAA, 0xBB];
    var t: seq<uint8> := [0x55, 0xAA, 0xBB];
    assert t[2..] == [0xBB];
  }

  /** The same bytes under the corrected receive, with a CRC unit whose
      value over the data ends in 0xBBAA: one delivered frame. */
  lemma CorrectedExample(crc: seq<uint8> -> uint32)
    requires crc([0x55]) % 0x1_0000 == 0xBBAA
    ensures Receive([1, 31, 1, 0, 0x55, 0xAA, 0xBB], 1, BufSize, crc) ==
              Got(RdyOk, Meta(1, 31, 1, Some([0x55])), [])
  {
    var s: seq<uint8> := [1, 31, 1, 0, 0x55, 0xAA, 0xBB];
    assert s[2] == 1 && s[3] == 0;
    assert FromU16Le(s[2], s[3]) == 1;
    assert Address.IsSelf(1, 1);
    assert s[4..5] == [0x55];
    assert s[5] == 0xAA && s[6] == 0xBB;
    assert FromU16Le(s[5], s[6]) == 0xBBAA;
    var q := Receive(s, 1, BufSize, crc);
    assert q.rest == s[7..] == [];
  }

  /** `comm_lld_transmit`: the header, then `len` bytes of `buf` when
      there is a buffer and a nonzero length. */
  function Transmit(m: Meta): (out: seq<uint8>)
    requires m.buf.Some? ==> m.len <= |m.buf.value|
    ensures |out| >= 2 && out[..2] == [m.addr, m.typ]
    ensures m.buf.None? || m.len == 0 ==> |out| == 2
    ensures m.buf.Some? ==> out[2..] == m.buf.value[..m.len]
  {
    [m.addr, m.typ] + (if m.buf.Some? && m.len > 0 then m.buf.value[..m.len] else [])
  }

  /** The `commscb_t` callback: type, buffer (NULL or the data) and
      length to a status. */
  type Callback = (uint8, Option<seq<uint8>>, uint16) -> int

  /** One pass of `commListen`'s loop, or its exit. */
  datatype Step =
    | Exit(code: int)
    | Blocked
    | Next(reply: seq<uint8>, rest: seq<uint8>)

  /** `int16_t err = ret` as the two bytes sent after an error type. */
  function ErrorPayload(ret: int): (p: seq<uint8>)
    ensures |p| == 2
    ensures -0x8000 <= ret < 0 ==> SignedByte(p[1]) * 0x100 + p[0] == ret
  {
    I16Le(ToInt16(ret))
  }

  /** Servicing after a receive: a failed receive sends nothing; a
      negative callback status turns the reply into an error response
      carrying the status; otherwise the metadata goes back unchanged. */
  function Serve(scb: Callback, rcv: Received): (r: Step)
    requires rcv.Got? && rcv.meta.buf.Some? ==> rcv.meta.len <= |rcv.meta.buf.value|
    ensures rcv.Starved? <==> r.Blocked?
    ensures !rcv.Starved? ==> r.Next? && r.rest == rcv.rest
    ensures r.Next? && (rcv.Failed? || rcv.status < RdyOk) ==> r.reply == []
    ensures r.Next? && r.reply != [] ==> r.reply[0] == rcv.meta.addr
    ensures rcv.Got? && rcv.status >= RdyOk ==>
              var ret := scb(rcv.meta.typ, rcv.meta.buf, rcv.meta.len);
              && (ret >= RdyOk ==> r.reply == Transmit(rcv.meta))
              && (ret < RdyOk ==> r.reply == [rcv.meta.addr, ErrorResp] + ErrorPayload(ret))
  {
    match rcv
    case Starved => Blocked
    case Failed(_, rest) => Next([], rest)
    case Got(status, meta, rest) =>
      if status < RdyOk then Next([], rest)
      else
        var ret := scb(meta.typ, meta.buf, meta.len);
        var out :=
          if ret < RdyOk then meta.(typ := ErrorResp, buf := Some(ErrorPayload(ret)), len := 2)
          else meta;
        Next(Transmit(out), rest)
  }

  /** One iteration of `commListen` as written, on the stream `s`: a NULL
      callback ends the thread first, and otherwise the as-written receive
      is serviced.  Only a frame without data can draw a reply. */
  function ListenStepAsWritten(scb: Option<Callback>, s: seq<uint8>): (r: Step)
    ensures scb.None? ==> r == Exit(RdyReset)
    ensures r.Next? ==> |r.rest| < |s| || r.rest == s == []
    ensures r.Next? && r.reply != [] ==> |s| >= 2 && !ExpectData(s[1]) && r.rest == s[2..]
  {
    if scb.None? then Exit(RdyReset)
    else Serve(scb.value, ReceiveAsWritten(s))
  }

  /** One iteration of the corrected listener: `commListen` with the
      corrected receive, on the stream `s` for the board whose identity is
      `local`; a NULL callback ends the thread first. */
  function ListenStep(scb: Option<Callback>, s: seq<uint8>, local: bv8,
                      crc: seq<uint8> -> uint32): (r: Step)
    ensures scb.None? ==> r == Exit(RdyReset)
    ensures r.Next? ==> |r.rest| < |s| || r.rest == s == []
  {
    if scb.None? then Exit(RdyReset)
    else Serve(scb.value, Receive(s, local, BufSize, crc))
  }

  /** A frame whose callback fails draws a 4-byte error reply: the
      request's address, type 255 and the status as a signed 16-bit
      little-endian value. */
  lemma ErrorReply(scb: Callback, addr: uint8, typ: uint8, data: seq<uint8>, tail: seq<uint8>,
                   local: bv8, crc: seq<uint8> -> uint32)
    requires |data| < 0x1_0000
    requires !ExpectData(typ) ==> data == []
    requires !ExpectData(typ) || (Address.IsSelf(addr as bv8, local) && |data| <= BufSize)
    requires -0x8000 <= scb(typ, if ExpectData(typ) then Some(data) else None,
                            if ExpectData(typ) then |data| as uint16 else 0) < RdyOk
    ensures ListenStep(Some(scb), Frame(addr, typ, data, crc) + tail, local, crc).Next?
    ensures ListenStep(Some(scb), Frame(addr, typ, data, crc) + tail, local, crc).rest == tail
    ensures var reply := ListenStep(Some(scb), Frame(addr, typ, data, crc) + tail, local, crc).reply;
            && |reply| == 4
            && reply[0] == addr && reply[1] == ErrorResp
            && SignedByte(reply[3]) * 0x100 + reply[2] ==
                 scb(typ, if ExpectData(typ) then Some(data) else None,
                     if ExpectData(typ) then |data| as uint16 else 0)
  {
    ReceiveFrame(addr, typ, data, tail, local, BufSize, crc);
  }

  /** A frame delivered to a callback that succeeds is answered with its
      own header and data, and the stream moves past it. */
  lemma EchoOnSuccess(scb: Callback, addr: uint8, typ: uint8, data: seq<uint8>, tail: seq<uint8>,
                      local: bv8, crc: seq<uint8> -> uint32)
    requires |data| < 0x1_0000
    requires !ExpectData(typ) ==> data == []
    requires !ExpectData(typ) || (Address.IsSelf(addr as bv8, local) && |data| <= BufSize)
    requires scb(typ, if ExpectData(typ) then Some(data) else None,
                 if ExpectData(typ) then |data| as uint16 else 0) >= RdyOk
    ensures ListenStep(Some(scb), Frame(addr, typ, data, crc) + tail, local, crc) ==
              Next([addr, typ] + data, tail)
  {
    ReceiveFrame(addr, typ, data, tail, local, BufSize, crc);
    var rcv := Receive(Frame(addr, typ, data, crc) + tail, local, BufSize, crc);
    assert rcv.meta.len == (if ExpectData(typ) then |data| as uint16 else 0);
    assert rcv.meta.buf.Some? ==> rcv.meta.buf.value[..rcv.meta.len] == data;
    assert Transmit(rcv.meta) == [addr, typ] + data;
  }

  /** A frame without data is serviced whatever its address byte, so
      every board on the bus answers a ping. */
  lemma NoDataFrameServedAtAnyAddress(scb: Callback, addr: uint8, typ: uint8, tail: seq<uint8>,
                                      local: bv8, crc: seq<uint8> -> uint32)
    requires !ExpectData(typ)
    requires scb(typ, None, 0) >= RdyOk
    ensures ListenStepAsWritten(Some(scb), [addr, typ] + tail) == Next([addr, typ], tail)
    ensures ListenStep(Some(scb), [addr, typ] + tail, local, crc) == Next([addr, typ], tail)
  {
    assert ([addr, typ] + tail)[2..] == tail;
  }

  /** As written, the callback never sees a data-bearing frame: a listen
      pass over one sends nothing, whichever callback is installed, and
      leaves the data and checksum in the stream. */
  lemma AsWrittenDataNeverServed(scb: Callback, addr: uint8, typ: uint8, data: seq<uint8>,
                                 tail: seq<uint8>, crc: seq<uint8> -> uint32)
    requires |data| < 0x1_0000 && ExpectData(typ)
    ensures ListenStepAsWritten(Some(scb), Frame(addr, typ, data, crc) + tail) ==
              Next([], data + U16Le(crc(data) % 0x1_0000) + tail)
  {
    DataFrameDesyncs(addr, typ, data, tail, crc);
  }
}

=== FILE: common.dfy ===
/** Machine integer ranges, byte packing and RTOS status codes shared by
    every module of the actuator and host-link model. */
module Common {

  type uint8 = x: int | 0 <= x < 0x100
  type uint16 = x: int | 0 <= x < 0x1_0000
  type uint32 = x: int | 0 <= x < 0x1_0000_0000
  type int8 = x: int | -0x80 <= x < 0x80
  type int16 = x: int | -0x8000 <= x < 0x8000

  datatype Option<+T> = None | Some(value: T)

  /** ChibiOS/RT wake-up and status codes (`msg_t`). */
  const RdyOk: int := 0
  const RdyTimeout: int := -1
  const RdyReset: int := -2

  /** Reading a `uint8_t` as an `int8_t`: two's complement. */
  function SignedByte(b: uint8): (r: int8)
    ensures 0 <= r ==> r == b
    ensures r < 0 ==> r == b - 0x100
  {
    if b < 0x80 then b else b - 0x100
  }

  /** Reading an `int8_t` as a `uint8_t`. */
  function UnsignedByte(v: int8): (r: uint8)
    ensures SignedByte(r) == v
  {
    if v < 0 then v + 0x100 else v
  }

  /** Truncating an `int` to `int16_t` on a two's-complement target. */
  function ToInt16(v: int): (r: int16)
    ensures (r - v) % 0x1_0000 == 0
    ensures -0x8000 <= v < 0x8000 ==> r == v
  {
    var u := v % 0x1_0000;
    if u < 0x8000 then u else u - 0x1_0000
  }

  /** Low and high byte of a 16-bit value. */
  function Lo(v: uint16): uint8 { v % 0x100 }
  function Hi(v: uint16): uint8 { v / 0x100 }

  /** A 16-bit field as it lies in memory on the little-endian target. */
  function U16Le(v: uint16): (r: seq<uint8>)
    ensures |r| == 2
    ensures (r[0] as int) + 0x100 * (r[1] as int) == v
  {
    [Lo(v), Hi(v)]
  }

  function FromU16Le(b0: uint8, b1: uint8): uint16 {
    b0 + 0x100 * b1
  }

  lemma U16RoundTrip(v: uint16)
    ensures FromU16Le(U16Le(v)[0], U16Le(v)[1]) == v
  {
  }

  lemma U16BytesRoundTrip(b0: uint8, b1: uint8)
    ensures U16Le(FromU16Le(b0, b1)) == [b0, b1]
  {
  }

  /** A 16-bit signed value as two little-endian bytes. */
  function I16Le(v: int16): (r: seq<uint8>)
    ensures |r| == 2
  {
    U16Le(v % 0x1_0000)
  }
}

=== FILE: host_bits.dfy ===
/** Bit-level facts about 32-bit words and their bytes, apart from any
    sequence reasoning. */
module HostBits {
  /** Wrapping 32-bit addition, as on the `uint` checksums. */
  function Add(a: bv32, b: bv32): bv32 { a + b }

  /** Byte 3 (most significant) to byte 0 of a word. */
  function Byte3(w: bv32): bv8 { (w >> 24) as bv8 }
  function Byte2(w: bv32): bv8 { ((w >> 16) & 0xFF) as bv8 }
  function Byte1(w: bv32): bv8 { ((w >> 8) & 0xFF) as bv8 }
  function Byte0(w: bv32): bv8 { (w & 0xFF) as bv8 }

  /** The four bytes of a word in the order they go on the wire. */
  function WordBytes(w: bv32): (b: seq<bv8>)
    ensures |b| == 4
  {
    [Byte3(w), Byte2(w), Byte1(w), Byte0(w)]
  }

  /** The word four bytes make, the first most significant. */
  function WordOf(a: bv8, b: bv8, c: bv8, d: bv8): bv32 {
    ((a as bv32) << 24) | ((b as bv32) << 16) | ((c as bv32) << 8) | (d as bv32)
  }

  /** One byte shifted into the low end of an accumulator, the high byte
      falling off. */
  function ShiftIn(acc: bv32, c: bv8): bv32 {
    (acc << 8) + (c as bv32)
  }

  /** Splitting a word into bytes and packing them gives the word back. */
  lemma WordRoundTrip(w: bv32)
    ensures WordOf(Byte3(w), Byte2(w), Byte1(w), Byte0(w)) == w
  {
  }

  /** Packing four bytes and splitting the word gives the bytes back. */
  lemma BytesRoundTrip(a: bv8, b: bv8, c: bv8, d: bv8)
    ensures var w := WordOf(a, b, c, d); Byte3(w) == a && Byte2(w) == b && Byte1(w) == c && Byte0(w) == d
  {
  }

  /** Four bytes shifted into any accumulator leave exactly their word. */
  lemma ShiftInWord(acc: bv32, a: bv8, b: bv8, c: bv8, d: bv8)
    ensures ShiftIn(ShiftIn(ShiftIn(ShiftIn(acc, a), b), c), d) == WordOf(a, b, c, d)
  {
  }

  function Pack1(a: bv8): bv32 { a as bv32 }
  function Pack2(a: bv8, b: bv8): bv32 { ((a as bv32) << 8) | (b as bv32) }
  function Pack3(a: bv8, b: bv8, c: bv8): bv32 { ((a as bv32) << 16) | ((b as bv32) << 8) | (c as bv32) }
  function Low1(acc: bv32): bv32 { acc & 0xFF }
  function Low2(acc: bv32): bv32 { acc & 0xFFFF }
  function Low3(acc: bv32): bv32 { acc & 0xFF_FFFF }


  /** The byte lands in the zero byte the shift leaves, so the addition
      never carries. */
  lemma ShiftInOr(acc: bv32, c: bv8)
    ensures ShiftIn(acc, c) == (acc << 8) | (c as bv32)
  {
  }

  lemma ShiftIn1(acc: bv32, a: bv8)
    ensures Low1(ShiftIn(acc, a)) == Pack1(a)
  {
    ShiftInOr(acc, a);
  }

  lemma ShiftIn2(acc: bv32, a: bv8, b: bv8)
    requires Low1(acc) == Pack1(a)
    ensures Low2(ShiftIn(acc, b)) == Pack2(a, b)
  {
    ShiftInOr(acc, b);
  }

  lemma ShiftIn3(acc: bv32, a: bv8, b: bv8, c: bv8)
    requires Low2(acc) == Pack2(a, b)
    ensures Low3(ShiftIn(acc, c)) == Pack3(a, b, c)
  {
    ShiftInOr(acc, c);
  }

  lemma ShiftIn4(acc: bv32, a: bv8, b: bv8, c: bv8, d: bv8)
    requires Low3(acc) == Pack3(a, b, c)
    ensures ShiftIn(acc, d) == WordOf(a, b, c, d)
  {
    ShiftInOr(acc, d);
  }
}

=== FILE: host_link.dfy ===
/** End-to-end properties of the starfish host link (`starfish/hostComms.c`):
    packets built by one side and read by the receive state machine,
    the receive ring seen by the slow code, and the replies read back. */
module HostLink {
  import opened HostBits
  import opened HostWire
  import opened HostRx
  import HostTx
  import HostSlow

  // ---------------------------------------------------------------------
  // Packets on the wire

  /** The bytes of a checked packet whose first byte selects its length
      form a frame carrying every word but the checksum; a receiver
      accepts it exactly when its address byte is the receiver's. */
  lemma PacketFrame(ws: seq<bv32>, self: bv8)
    requires Checked(ws) && PacketLength(Byte3(ws[0])) == 4 * |ws|
    ensures var f := Serialize(ws);
            && Frame(f) && Data(f) == ws[..|ws| - 1]
            && (Accepts(f, self) <==> Byte2(ws[0]) == self)
  {
    var n := |ws|;
    SerializeHead(ws);
    SerializePrefix(ws, n - 1);
    SerializeWordAt(ws, n - 1);
  }

  /** Feeding two byte streams one after the other. */
  lemma {:induction false} FeedAppend(r: Rx, a: seq<bv8>, b: seq<bv8>, self: bv8)
    requires Valid(r)
    ensures Feed(r, a + b, self) == Feed(Feed(r, a, self), b, self)
    decreases |b|
  {
    if b == [] {
      assert a + b == a;
    } else {
      var b' := b[..|b| - 1];
      assert (a + b)[..|a + b| - 1] == a + b';
      FeedAppend(r, a, b', self);
    }
  }

  /** Frames sent back to back. */
  function Concat(fs: seq<seq<bv8>>): seq<bv8> {
    if fs == [] then [] else Concat(fs[..|fs| - 1]) + fs[|fs| - 1]
  }

  /** How many of the frames a receiver accepts. */
  function AcceptedCount(fs: seq<seq<bv8>>, self: bv8): nat {
    if fs == [] then 0
    else AcceptedCount(fs[..|fs| - 1], self) + (if Accepts(fs[|fs| - 1], self) then 1 else 0)
  }

  /** The receiver after each frame in turn. */
  function FeedEach(r: Rx, fs: seq<seq<bv8>>, self: bv8): (r': Rx)
    requires Valid(r)
    ensures Valid(r')
  {
    if fs == [] then r else Feed(FeedEach(r, fs[..|fs| - 1], self), fs[|fs| - 1], self)
  }

  /** Feeding frames one by one is feeding them back to back. */
  lemma {:induction false} FeedEachConcat(r: Rx, fs: seq<seq<bv8>>, self: bv8)
    requires Valid(r)
    ensures FeedEach(r, fs, self) == Feed(r, Concat(fs), self)
    decreases |fs|
  {
    if fs != [] {
      var init := fs[..|fs| - 1];
      FeedEachConcat(r, init, self);
      FeedAppend(r, Concat(init), fs[|fs| - 1], self);
    }
  }

  /** The write index after `n` accepted frames. */
  function Advance(w: nat, n: nat): (v: nat)
    requires w < NumSlots
    ensures v < NumSlots
  {
    if n == 0 then w else Next(Advance(w, n - 1))
  }

  /** Advancing is counting modulo the ring size. */
  lemma {:induction false} AdvanceMod(w: nat, n: nat)
    requires w < NumSlots
    ensures Advance(w, n) == (w + n) % NumSlots
  {
    if n > 0 {
      AdvanceMod(w, n - 1);
      ModStep(w, n - 1);
    }
  }

  /** The write index comes back to where it started exactly after a
      multiple of the ring size. */
  lemma AdvanceReturns(w: nat, n: nat)
    requires w < NumSlots
    ensures Advance(w, n) == w <==> n % NumSlots == 0
  {
    AdvanceMod(w, n);
    ModZero(w, n);
  }

  lemma ModStep(w: nat, n: nat)
    ensures ((w + n) % NumSlots + 1) % NumSlots == (w + n + 1) % NumSlots
  {
  }

  lemma ModZero(w: nat, n: nat)
    requires w < NumSlots
    ensures (w + n) % NumSlots == w <==> n % NumSlots == 0
  {
  }

  /** Frames read one after the other leave the receiver at a packet
      boundary with the write index advanced once per accepted frame. */
  lemma {:induction false} FeedFrames(r0: Rx, fs: seq<seq<bv8>>, self: bv8)
    requires Valid(r0) && r0.byteIndex == 0
    requires forall i :: 0 <= i < |fs| ==> Frame(fs[i])
    ensures var r := FeedEach(r0, fs, self);
            && r.byteIndex == 0
            && r.writeIdx == Advance(r0.writeIdx, AcceptedCount(fs, self))
    decreases |fs|
  {
    if fs != [] {
      var init := fs[..|fs| - 1];
      FeedFrames(r0, init, self);
      FeedFrameIndex(FeedEach(r0, init, self), fs[|fs| - 1], self);
    }
  }

  lemma {:induction false} AllAccepted(fs: seq<seq<bv8>>, self: bv8)
    requires forall i :: 0 <= i < |fs| ==> Accepts(fs[i], self)
    ensures AcceptedCount(fs, self) == |fs|
    decreases |fs|
  {
    if fs != [] {
      AllAccepted(fs[..|fs| - 1], self);
    }
  }

  /** The count is at most the number of frames; it is all of them exactly
      when every frame is accepted, and none exactly when none is. */
  lemma {:induction false} AcceptedCountExact(fs: seq<seq<bv8>>, self: bv8)
    ensures AcceptedCount(fs, self) <= |fs|
    ensures AcceptedCount(fs, self) == |fs| <==> forall i :: 0 <= i < |fs| ==> Accepts(fs[i], self)
    ensures AcceptedCount(fs, self) == 0 <==> forall i :: 0 <= i < |fs| ==> !Accepts(fs[i], self)
    decreases |fs|
  {
    if fs != [] {
      var init := fs[..|fs| - 1];
      AcceptedCountExact(init, self);
      assert forall i :: 0 <= i < |init| ==> init[i] == fs[i];
    }
  }

  // ---------------------------------------------------------------------
  // The receive ring

  /** After frames arrive at an empty ring, the slow code sees a
      packet exactly when the number accepted is not a multiple of the
      ring size: the writer never looks at the read index. */
  lemma RingPending(h: HostSlow.Host, fs: seq<seq<bv8>>, self: bv8)
    requires HostSlow.Valid(h) && !HostSlow.Pending(h) && h.rx.byteIndex == 0
    requires forall i :: 0 <= i < |fs| ==> Frame(fs[i])
    ensures var h' := h.(rx := FeedEach(h.rx, fs, self));
            HostSlow.Pending(h') <==> AcceptedCount(fs, self) % NumSlots != 0
  {
    FeedFrames(h.rx, fs, self);
    AdvanceReturns(h.readIdx, AcceptedCount(fs, self));
  }

  /** Four accepted packets arriving before the slow code runs fill the
      ring so that it looks empty: the slow code then does nothing, and
      all four packets are lost. */
  lemma FullRingLooksEmpty(h: HostSlow.Host, fs: seq<seq<bv8>>, self: bv8, rd: HostTx.Readings,
                            layout: HostTx.ConfigLayout)
    requires HostSlow.Valid(h) && !HostSlow.Pending(h) && h.rx.byteIndex == 0
    requires |rd.measured| == 13
    requires |fs| == NumSlots && forall i :: 0 <= i < |fs| ==> Frame(fs[i]) && Accepts(fs[i], self)
    ensures var h' := h.(rx := FeedEach(h.rx, fs, self));
            !HostSlow.Pending(h') && HostSlow.SlowCode(h', rd, layout) == (h', [])
  {
    AllAccepted(fs, self);
    RingPending(h, fs, self);
  }

  // ---------------------------------------------------------------------
  // Requests served end to end

  /** A packet addressed to the board, arriving at an empty ring, fills
      the slot the slow code reads next with its data words. */
  lemma RequestArrives(h: HostSlow.Host, ws: seq<bv32>, self: bv8)
    requires HostSlow.Valid(h) && !HostSlow.Pending(h) && h.rx.byteIndex == 0
    requires Checked(ws) && PacketLength(Byte3(ws[0])) == 4 * |ws| && Byte2(ws[0]) == self
    ensures var h' := h.(rx := Feed(h.rx, Serialize(ws), self));
            && HostSlow.Valid(h') && HostSlow.Pending(h') && h'.rx.writeIdx == Next(h.readIdx)
            && h'.rx.slots[h.readIdx][..|ws| - 1] == ws[..|ws| - 1]
  {
    PacketFrame(ws, self);
    FeedFrame(h.rx, Serialize(ws), self);
  }

  /** The first `n` words of two sequences agree word by word. */
  lemma PrefixAt(a: seq<bv32>, b: seq<bv32>, n: nat, i: nat)
    requires n <= |a| && n <= |b| && a[..n] == b[..n] && i < n
    ensures a[i] == b[i]
  {
    assert a[..n][i] == b[..n][i];
  }

  /** The slow code on a slot holding a motion request. */
  lemma MotionSlotServed(h: HostSlow.Host, address: bv8, kind: bv8, setpoint: bv32, dsdt: bv32,
                         time: bv32, dir: bv8, value: bv8, rd: HostTx.Readings,
                         layout: HostTx.ConfigLayout)
    requires HostSlow.Valid(h) && h.rx.writeIdx == Next(h.readIdx) && |rd.measured| == 13
    requires h.rx.slots[h.readIdx][..7] ==
             HostSlow.MotionRequest(address, kind, setpoint, dsdt, time, dir, value)[..7]
    ensures var r := HostSlow.SlowCode(h, rd, layout);
            && r.1 == MotionCalls(kind, setpoint, dsdt, time, dir, value)
            && !HostSlow.Pending(r.0) && r.0.settings == h.settings
            && r.0.tx == HostTx.QueueMotionReply(h.tx, rd)
  {
    var ws := HostSlow.MotionRequest(address, kind, setpoint, dsdt, time, dir, value);
    var req := h.rx.slots[h.readIdx];
    PrefixAt(req, ws, 7, 0);
    PrefixAt(req, ws, 7, 1);
    PrefixAt(req, ws, 7, 2);
    PrefixAt(req, ws, 7, 3);
    PrefixAt(req, ws, 7, 4);
    BytesRoundTrip(HostSlow.MotionRequestType, address, kind, 0);
    BytesRoundTrip(0, value, 0, dir);
  }

  /** The calls a motion request of the given kind asks for. */
  function MotionCalls(kind: bv8, setpoint: bv32, dsdt: bv32, time: bv32, dir: bv8, value: bv8)
    : seq<HostSlow.Action>
  {
    (if kind == HostSlow.StopRequest then [HostSlow.StopAllMotion]
     else if kind == HostSlow.QueueRequest then [HostSlow.UpdateTrajectories(setpoint, dsdt, time)]
     else [])
    + [HostSlow.SetSkinSensor(dir, value)]
  }

  /** A motion request addressed to the board, read from the wire and
      handled by the slow code, produces the calls its kind asks for,
      then the skin sensor update, and empties the ring again. */
  lemma MotionRequestServed(h: HostSlow.Host, self: bv8, kind: bv8, setpoint: bv32, dsdt: bv32,
                            time: bv32, dir: bv8, value: bv8, rd: HostTx.Readings,
                            layout: HostTx.ConfigLayout)
    requires HostSlow.Valid(h) && !HostSlow.Pending(h) && h.rx.byteIndex == 0
    requires |rd.measured| == 13
    ensures var ws := HostSlow.MotionRequest(self, kind, setpoint, dsdt, time, dir, value);
            var h' := h.(rx := Feed(h.rx, Serialize(ws), self));
            var r := HostSlow.SlowCode(h', rd, layout);
            && HostSlow.Pending(h')
            && r.1 == MotionCalls(kind, setpoint, dsdt, time, dir, value)
            && !HostSlow.Pending(r.0) && r.0.settings == h.settings
            && r.0.tx == HostTx.QueueMotionReply(h.tx, rd)
  {
    var ws := HostSlow.MotionRequest(self, kind, setpoint, dsdt, time, dir, value);
    BytesRoundTrip(HostSlow.MotionRequestType, self, kind, 0);
    RequestArrives(h, ws, self);
    MotionSlotServed(h.(rx := Feed(h.rx, Serialize(ws), self)), self, kind, setpoint, dsdt,
                     time, dir, value, rd, layout);
  }

  /** The slow code on a slot holding a config request. */
  lemma ConfigSlotServed(h: HostSlow.Host, address: bv8, kind: bv8, fb: HostTx.Feedback,
                         offset: bv32, p: bv32, i: bv32, d: bv32, rd: HostTx.Readings,
                         layout: HostTx.ConfigLayout)
    requires HostSlow.Valid(h) && h.rx.writeIdx == Next(h.readIdx) && |rd.measured| == 13
    requires !HostTx.IsTransmitting(h.tx)
    requires h.rx.slots[h.readIdx][..10] ==
             HostSlow.ConfigRequest(address, kind, fb, offset, p, i, d)[..10]
    ensures var r := HostSlow.SlowCode(h, rd, layout);
            var s := r.0.settings;
            && !HostSlow.Pending(r.0)
            && s == ConfigSettings(h.settings, kind, fb, offset, p, i, d)
            && r.1 == ConfigCalls(kind, fb, offset, p, i, d)
            && r.0.tx == HostTx.QueueConfigReply(h.tx, layout, s.gains, rd.(offset := s.offset))
            && r.0.tx.wordsToTransmit == HostTx.ConfigReplyWords
            && r.0.tx.buf[..6] == [HostTx.ConfigHeader(layout, rd.address, s.gains.fb), s.offset,
                                   s.gains.p, s.gains.i, s.gains.d, rd.version]
            && Checked(r.0.tx.buf[..HostTx.ConfigReplyWords])
  {
    var ws := HostSlow.ConfigRequest(address, kind, fb, offset, p, i, d);
    var req := h.rx.slots[h.readIdx];
    PrefixAt(req, ws, 10, 0);
    PrefixAt(req, ws, 10, 1);
    PrefixAt(req, ws, 10, 2);
    PrefixAt(req, ws, 10, 3);
    PrefixAt(req, ws, 10, 4);
    HostSlow.ConfigHeaderRoundTrip(address, kind, fb);
  }

  /** The settings after a config request of the given kind. */
  function ConfigSettings(s: HostSlow.Settings, kind: bv8, fb: HostTx.Feedback, offset: bv32,
                          p: bv32, i: bv32, d: bv32): HostSlow.Settings
  {
    if kind == HostSlow.ConfigUpdate then HostSlow.Settings(HostTx.Gains(p, i, d, fb), offset) else s
  }

  /** The calls a config request of the given kind asks for. */
  function ConfigCalls(kind: bv8, fb: HostTx.Feedback, offset: bv32, p: bv32, i: bv32, d: bv32)
    : seq<HostSlow.Action>
  {
    if kind == HostSlow.ConfigUpdate
    then [HostSlow.SetPositionOffset(offset), HostSlow.UpdateCoeffs(p, i, d, fb)]
    else []
  }

  /** A config request addressed to the board, read from the wire and
      handled by the slow code: an update installs the request's offset,
      gains and feedback type and any other kind keeps the settings, and
      the reply queued on an idle transmitter echoes the settings now in
      force. */
  lemma ConfigRequestServed(h: HostSlow.Host, self: bv8, kind: bv8, fb: HostTx.Feedback,
                            offset: bv32, p: bv32, i: bv32, d: bv32, rd: HostTx.Readings,
                            layout: HostTx.ConfigLayout)
    requires HostSlow.Valid(h) && !HostSlow.Pending(h) && h.rx.byteIndex == 0
    requires !HostTx.IsTransmitting(h.tx) && |rd.measured| == 13
    ensures var ws := HostSlow.ConfigRequest(self, kind, fb, offset, p, i, d);
            var h' := h.(rx := Feed(h.rx, Serialize(ws), self));
            var r := HostSlow.SlowCode(h', rd, layout);
            var s := r.0.settings;
            && HostSlow.Pending(h') && !HostSlow.Pending(r.0)
            && s == ConfigSettings(h.settings, kind, fb, offset, p, i, d)
            && r.1 == ConfigCalls(kind, fb, offset, p, i, d)
            && r.0.tx == HostTx.QueueConfigReply(h.tx, layout, s.gains, rd.(offset := s.offset))
            && r.0.tx.wordsToTransmit == HostTx.ConfigReplyWords
            && r.0.tx.buf[..6] == [HostTx.ConfigHeader(layout, rd.address, s.gains.fb), s.offset,
                                   s.gains.p, s.gains.i, s.gains.d, rd.version]
            && Checked(r.0.tx.buf[..HostTx.ConfigReplyWords])
  {
    var ws := HostSlow.ConfigRequest(self, kind, fb, offset, p, i, d);
    HostSlow.ConfigHeaderRoundTrip(self, kind, fb);
    RequestArrives(h, ws, self);
    ConfigSlotServed(h.(rx := Feed(h.rx, Serialize(ws), self)), self, kind, fb, offset, p, i, d, rd,
                     layout);
  }

  /** A request addressed to another board is read and dropped: the slow
      code finds nothing to do. */
  lemma OtherBoardIgnored(h: HostSlow.Host, ws: seq<bv32>, self: bv8, rd: HostTx.Readings,
                           layout: HostTx.ConfigLayout)
    requires HostSlow.Valid(h) && !HostSlow.Pending(h) && h.rx.byteIndex == 0
    requires |rd.measured| == 13
    requires Checked(ws) && PacketLength(Byte3(ws[0])) == 4 * |ws| && Byte2(ws[0]) != self
    ensures var h' := h.(rx := Feed(h.rx, Serialize(ws), self));
            !HostSlow.Pending(h') && HostSlow.SlowCode(h', rd, layout) == (h', [])
  {
    PacketFrame(ws, self);
    FeedFrame(h.rx, Serialize(ws), self);
  }

  // ---------------------------------------------------------------------
  // Replies read back

  /** A reply queued on an idle transmitter and sent whole reaches a
      receiver as the reply's words; the receiver accepts it exactly when
      its address is in the header's second byte. */
  lemma ReplyDelivered(u: HostTx.Tx, r0: Rx, self: bv8)
    requires HostTx.Valid(u) && u.wordIndex == 0 && u.byteIndex == 4
    requires Valid(r0) && r0.byteIndex == 0
    requires 1 <= u.wordsToTransmit && Checked(u.buf[..u.wordsToTransmit])
    requires PacketLength(Byte3(u.buf[0])) == 4 * u.wordsToTransmit
    ensures var out := HostTx.Sends(u, 4 * u.wordsToTransmit).1;
            var r := Feed(r0, out, self);
            && r.byteIndex == 0
            && r.writeIdx == (if Byte2(u.buf[0]) == self then Next(r0.writeIdx) else r0.writeIdx)
            && r.slots[r0.writeIdx][..u.wordsToTransmit - 1] == u.buf[..u.wordsToTransmit - 1]
  {
    var n := u.wordsToTransmit;
    var ws := u.buf[..n];
    HostTx.SendsPacket(u);
    PacketFrame(ws, self);
    FeedFrame(r0, Serialize(ws), self);
    SlicePrefix(u.buf, n, n - 1);
  }

  lemma SlicePrefix(s: seq<bv32>, n: nat, m: nat)
    requires m <= n <= |s|
    ensures s[..n][..m] == s[..m]
  {
  }

  /** An idle transmitter has sent nothing of its buffer. */
  lemma IdleAtStart(t: HostTx.Tx)
    requires HostTx.Valid(t) && !HostTx.IsTransmitting(t)
    ensures t.wordIndex == 0 && t.byteIndex == 4
  {
  }

  /** The motion reply goes out type first and address second, so a
      receiver with the reply's address accepts it and holds its fifteen
      data words. */
  lemma MotionReplyDelivered(t: HostTx.Tx, rd: HostTx.Readings, r0: Rx, self: bv8)
    requires HostTx.Valid(t) && !HostTx.IsTransmitting(t) && |rd.measured| == 13
    requires Valid(r0) && r0.byteIndex == 0
    ensures var u := HostTx.QueueMotionReply(t, rd);
            var r := Feed(r0, HostTx.Sends(u, 4 * HostTx.MotionReplyWords).1, self);
            && (r.writeIdx == Next(r0.writeIdx) <==> rd.address == self)
            && r.slots[r0.writeIdx][..15] == u.buf[..15]
  {
    var u := HostTx.QueueMotionReply(t, rd);
    IdleAtStart(t);
    BytesRoundTrip(HostTx.MotionReplyType, rd.address, HostTx.StatusCode(rd.status), 0);
    ReplyDelivered(u, r0, self);
  }

  /** The config reply with its header laid out like every other packet
      is accepted by a receiver with the reply's address. */
  lemma ConfigReplyDelivered(t: HostTx.Tx, g: HostTx.Gains, rd: HostTx.Readings, r0: Rx, self: bv8)
    requires HostTx.Valid(t) && !HostTx.IsTransmitting(t)
    requires Valid(r0) && r0.byteIndex == 0
    ensures var u := HostTx.QueueConfigReply(t, HostTx.Uniform, g, rd);
            var r := Feed(r0, HostTx.Sends(u, 4 * HostTx.ConfigReplyWords).1, self);
            && (r.writeIdx == Next(r0.writeIdx) <==> rd.address == self)
            && r.slots[r0.writeIdx][..10] == u.buf[..10]
  {
    var u := HostTx.QueueConfigReply(t, HostTx.Uniform, g, rd);
    IdleAtStart(t);
    BytesRoundTrip(HostTx.ConfigReplyType, rd.address, 0, HostTx.FeedbackCode(g.fb));
    ReplyDelivered(u, r0, self);
  }

  /** The config reply as written puts the feedback code on the wire
      first, a zero where the address belongs, and the packet type last:
      no receiver with a non-zero address accepts it, and with feedback
      disabled its first byte announces a 32-byte motion request, so the
      44 bytes do not even form one frame. */
  lemma ConfigReplyAsWrittenMisframed(t: HostTx.Tx, g: HostTx.Gains, rd: HostTx.Readings, self: bv8)
    requires HostTx.Valid(t) && !HostTx.IsTransmitting(t)
    ensures var u := HostTx.QueueConfigReply(t, HostTx.AsWritten, g, rd);
            var out := HostTx.Sends(u, 4 * HostTx.ConfigReplyWords).1;
            && |out| == 44
            && out[0] == HostTx.FeedbackCode(g.fb) && out[1] == 0
            && (self != 0 ==> !Accepts(out, self))
            && (g.fb == HostTx.FbDisabled ==> !Frame(out))
  {
    var u := HostTx.QueueConfigReply(t, HostTx.AsWritten, g, rd);
    IdleAtStart(t);
    HostTx.SendsPacket(u);
    BytesRoundTrip(HostTx.FeedbackCode(g.fb), 0, rd.address, HostTx.ConfigReplyType);
    SerializeHead(u.buf[..HostTx.ConfigReplyWords]);
  }

  /** A config request read from the wire and served by the firmware's
      slow code draws a reply that is misframed end to end: it goes out
      feedback code first and 0 second, so no board with a nonzero address
      accepts it. */
  lemma ConfigRequestMisanswered(h: HostSlow.Host, self: bv8, kind: bv8, fb: HostTx.Feedback,
                                 offset: bv32, p: bv32, i: bv32, d: bv32, rd: HostTx.Readings,
                                 other: bv8)
    requires HostSlow.Valid(h) && !HostSlow.Pending(h) && h.rx.byteIndex == 0
    requires !HostTx.IsTransmitting(h.tx) && |rd.measured| == 13
    ensures var ws := HostSlow.ConfigRequest(self, kind, fb, offset, p, i, d);
            var h' := h.(rx := Feed(h.rx, Serialize(ws), self));
            var r := HostSlow.SlowCode(h', rd, HostTx.AsWritten);
            var out := HostTx.Sends(r.0.tx, 4 * HostTx.ConfigReplyWords).1;
            && |out| == 44 && out[0] == HostTx.FeedbackCode(r.0.settings.gains.fb) && out[1] == 0
            && (other != 0 ==> !Accepts(out, other))
  {
    var ws := HostSlow.ConfigRequest(self, kind, fb, offset, p, i, d);
    var h' := h.(rx := Feed(h.rx, Serialize(ws), self));
    ConfigRequestServed(h, self, kind, fb, offset, p, i, d, rd, HostTx.AsWritten);
    var s := HostSlow.SlowCode(h', rd, HostTx.AsWritten).0.settings;
    ConfigReplyAsWrittenMisframed(h.tx, s.gains, rd.(offset := s.offset), other);
  }

  /** With the header laid out like every other packet, the reply to a
      config request reaches a receiver with the board's address, which
      accepts it and holds its words. */
  lemma ConfigRequestAnswered(h: HostSlow.Host, self: bv8, kind: bv8, fb: HostTx.Feedback,
                              offset: bv32, p: bv32, i: bv32, d: bv32, rd: HostTx.Readings,
                              r0: Rx, other: bv8)
    requires HostSlow.Valid(h) && !HostSlow.Pending(h) && h.rx.byteIndex == 0
    requires !HostTx.IsTransmitting(h.tx) && |rd.measured| == 13
    requires Valid(r0) && r0.byteIndex == 0
    ensures var ws := HostSlow.ConfigRequest(self, kind, fb, offset, p, i, d);
            var h' := h.(rx := Feed(h.rx, Serialize(ws), self));
            var r := HostSlow.SlowCode(h', rd, HostTx.Uniform);
            var out := HostTx.Sends(r.0.tx, 4 * HostTx.ConfigReplyWords).1;
            var q := Feed(r0, out, other);
            && (q.writeIdx == Next(r0.writeIdx) <==> rd.address == other)
            && q.slots[r0.writeIdx][..10] == r.0.tx.buf[..10]
  {
    var ws := HostSlow.ConfigRequest(self, kind, fb, offset, p, i, d);
    var h' := h.(rx := Feed(h.rx, Serialize(ws), self));
    ConfigRequestServed(h, self, kind, fb, offset, p, i, d, rd, HostTx.Uniform);
    var s := HostSlow.SlowCode(h', rd, HostTx.Uniform).0.settings;
    ConfigReplyDelivered(h.tx, s.gains, rd.(offset := s.offset), r0, other);
  }
}

=== FILE: host_rx.dfy ===
/** The byte-at-a-time receiver of the starfish host link
    (`hostCommsRxBranch` in `starfish/hostComms.c`).

    The first byte of a packet selects its length; bytes accumulate most
    significant first into 32-bit words; every complete word except the
    last is stored in the current ring slot and added, wrapping, to a
    checksum; the byte at index 1 must be the board's own address; and on
    the last byte the packet is published to the reader by advancing the
    write index when the address matched and the last word equals the
    checksum. */
module HostRx {
  import opened HostBits
  import opened HostWire

  const NumSlots: nat := 4
  const SlotWords: nat := 100

  /** The length a start byte selects: motion request 32, config request
      44, motion reply 64, config reply 44; 0 for a byte that starts no
      packet. */
  function PacketLength(c: bv8): (n: nat)
    ensures n == 0 || n == 32 || n == 44 || n == 64
    ensures n != 0 <==> c < 4
  {
    if c == 0 then 32 else if c == 1 then 44 else if c == 2 then 64 else if c == 3 then 44 else 0
  }

  /** The successor of a ring index. */
  function Next(i: nat): (j: nat)
    requires i < NumSlots
    ensures j < NumSlots && j == (i + 1) % NumSlots
  {
    if i + 1 >= NumSlots then 0 else i + 1
  }

  /** The receiver's static locals and the receive ring.  `byteIndex` is
      the index of the next byte of the packet, 0 when waiting for a
      start byte. */
  datatype Rx = Rx(byteIndex: nat, packetLength: nat, checksum: bv32, wordAcc: bv32,
                   wordIndex: nat, addressOk: bool, writeIdx: nat, slots: seq<seq<bv32>>)

  predicate Valid(r: Rx) {
    && |r.slots| == NumSlots
    && (forall i :: 0 <= i < |r.slots| ==> |r.slots[i]| == SlotWords)
    && r.writeIdx < NumSlots
    && (r.byteIndex > 0 ==>
          && (r.packetLength == 32 || r.packetLength == 44 || r.packetLength == 64)
          && r.byteIndex < r.packetLength
          && r.wordIndex == r.byteIndex / 4)
  }

  /** The receiver after reset: all static locals zero, the ring empty. */
  function Init(): (r: Rx)
    ensures Valid(r) && r.byteIndex == 0 && r.writeIdx == 0
  {
    Rx(0, 0, 0, 0, 0, false, 0, seq(NumSlots, _ => seq(SlotWords, _ => 0 as bv32)))
  }

  function Store(slots: seq<seq<bv32>>, w: nat, i: nat, v: bv32): seq<seq<bv32>>
    requires w < |slots| && i < |slots[w]|
  {
    slots[w := slots[w][i := v]]
  }

  /** One received byte.  The comparison with `packetLength - 1` is
      unsigned in the source; it only runs with `packetLength` at least 32,
      so no wrap-around arises. */
  function RxByte(r: Rx, c: bv8, self: bv8): (r': Rx)
    requires Valid(r)
    ensures Valid(r')
    ensures r.byteIndex == 0 ==>
              && r'.checksum == 0 && r'.wordIndex == 0 && !r'.addressOk
              && r'.packetLength == PacketLength(c)
              && (r'.byteIndex == 1 <==> c < 4)
              && (c >= 4 ==> r'.byteIndex == 0 && r'.wordAcc == 0)
              && r'.writeIdx == r.writeIdx && r'.slots == r.slots
    ensures r'.writeIdx != r.writeIdx ==>
              && r'.writeIdx == Next(r.writeIdx)
              && r.byteIndex == r.packetLength - 1 && r.addressOk && r'.byteIndex == 0
    ensures forall j :: 0 <= j < NumSlots && j != r.writeIdx ==> r'.slots[j] == r.slots[j]
  {
    var acc := ShiftIn(r.wordAcc, c);
    if r.byteIndex == 0 then
      var len := PacketLength(c);
      if len == 0 then
        r.(byteIndex := 0, packetLength := 0, checksum := 0, wordAcc := 0,
           wordIndex := 0, addressOk := false)
      else
        r.(byteIndex := 1, packetLength := len, checksum := 0, wordAcc := acc,
           wordIndex := 0, addressOk := false)
    else if r.byteIndex >= r.packetLength - 1 then
      var accepted := r.addressOk && r.checksum == acc;
      r.(byteIndex := 0, wordIndex := 0, wordAcc := acc,
         writeIdx := if accepted then Next(r.writeIdx) else r.writeIdx)
    else if r.byteIndex % 4 == 3 then
      r.(slots := Store(r.slots, r.writeIdx, r.wordIndex, acc), wordIndex := r.wordIndex + 1,
         checksum := Add(r.checksum, acc), wordAcc := 0, byteIndex := r.byteIndex + 1)
    else if r.byteIndex == 1 && r.wordIndex == 0 then
      r.(addressOk := r.addressOk || c == self, wordAcc := acc, byteIndex := 2)
    else
      r.(wordAcc := acc, byteIndex := r.byteIndex + 1)
  }

  /** No byte for 5 ms in the middle of a packet: the next byte is read
      as a packet start; nothing else changes. */
  function Timeout(r: Rx): (r': Rx)
    ensures r'.byteIndex == 0
    ensures r' == r.(byteIndex := 0)
  {
    if r.byteIndex != 0 then r.(byteIndex := 0) else r
  }

  datatype Event = Byte(c: bv8) | IdleTimeout

  function Step(r: Rx, e: Event, self: bv8): (r': Rx)
    requires Valid(r)
    ensures Valid(r')
  {
    match e
    case Byte(c) => RxByte(r, c, self)
    case IdleTimeout => Timeout(r)
  }

  /** The receiver after a sequence of bytes. */
  function Feed(r: Rx, bs: seq<bv8>, self: bv8): (r': Rx)
    requires Valid(r)
    ensures Valid(r')
  {
    if bs == [] then r else RxByte(Feed(r, bs[..|bs| - 1], self), bs[|bs| - 1], self)
  }

  // ---------------------------------------------------------------------
  // Whole frames

  /** A byte string whose start byte selects exactly its length. */
  predicate Frame(f: seq<bv8>) {
    |f| > 0 && PacketLength(f[0]) == |f|
  }

  /** The words a frame stores, and its trailing checksum word. */
  function Data(f: seq<bv8>): (ws: seq<bv32>)
    requires Frame(f)
    ensures |ws| == |f| / 4 - 1
  {
    Words(f, |f| / 4 - 1)
  }

  function Trailer(f: seq<bv8>): bv32
    requires Frame(f)
  {
    WordAt(f, |f| / 4 - 1)
  }

  /** A frame a receiver with address `self` publishes. */
  predicate Accepts(f: seq<bv8>, self: bv8) {
    Frame(f) && f[1] == self && Trailer(f) == Sum(Data(f))
  }

  /** The low bytes of the accumulator after `k` bytes of a frame are the
      bytes of the word in progress. */
  predicate PartialOk(acc: bv32, f: seq<bv8>, k: nat)
    requires 1 <= k <= |f|
  {
    if k % 4 == 1 then Low1(acc) == Pack1(f[k - 1])
    else if k % 4 == 2 then Low2(acc) == Pack2(f[k - 2], f[k - 1])
    else if k % 4 == 3 then Low3(acc) == Pack3(f[k - 3], f[k - 2], f[k - 1])
    else true
  }

  /** The receiver `r` has read the first `k` bytes of frame `f`, having
      started from `r0` at a packet boundary. */
  predicate InFrame(r0: Rx, f: seq<bv8>, self: bv8, k: nat, r: Rx)
    requires Frame(f) && 1 <= k < |f|
  {
    && Valid(r0) && Valid(r)
    && r.byteIndex == k && r.packetLength == |f| && r.writeIdx == r0.writeIdx
    && r.addressOk == (k >= 2 && f[1] == self)
    && r.checksum == Sum(Words(f, k / 4))
    && PartialOk(r.wordAcc, f, k)
    && (forall i :: 0 <= i < k / 4 ==> r.slots[r0.writeIdx][i] == WordAt(f, i))
    && (forall j :: 0 <= j < NumSlots && j != r0.writeIdx ==> r.slots[j] == r0.slots[j])
  }

  /** The word completed by the byte at index `k`, `k` the last of a word. */
  lemma CompleteWord(f: seq<bv8>, k: nat, acc: bv32)
    requires k < |f| && k % 4 == 3 && PartialOk(acc, f, k)
    ensures ShiftIn(acc, f[k]) == WordAt(f, k / 4)
  {
    assert 4 * (k / 4) == k - 3;
    ShiftIn4(acc, f[k - 3], f[k - 2], f[k - 1], f[k]);
  }

  lemma WordsSnoc(f: seq<bv8>, n: nat)
    requires 4 * n + 4 <= |f|
    ensures Sum(Words(f, n + 1)) == Add(Sum(Words(f, n)), WordAt(f, n))
  {
    assert Words(f, n + 1)[..n] == Words(f, n);
  }

  lemma FrameStart(r0: Rx, f: seq<bv8>, self: bv8)
    requires Valid(r0) && r0.byteIndex == 0 && Frame(f)
    ensures InFrame(r0, f, self, 1, RxByte(r0, f[0], self))
  {
    ShiftIn1(r0.wordAcc, f[0]);
  }

  lemma FrameStep(r0: Rx, f: seq<bv8>, self: bv8, k: nat, r: Rx)
    requires Frame(f) && 1 <= k && k + 1 < |f|
    requires InFrame(r0, f, self, k, r)
    ensures InFrame(r0, f, self, k + 1, RxByte(r, f[k], self))
  {
    if k % 4 == 3 {
      StoreStep(r0, f, self, k, r);
    } else {
      ShiftStep(r0, f, self, k, r);
    }
  }

  /** A byte inside a word: it is shifted into the accumulator. */
  lemma ShiftStep(r0: Rx, f: seq<bv8>, self: bv8, k: nat, r: Rx)
    requires Frame(f) && 1 <= k && k + 1 < |f| && k % 4 != 3
    requires InFrame(r0, f, self, k, r)
    ensures InFrame(r0, f, self, k + 1, RxByte(r, f[k], self))
  {
    if k % 4 == 0 {
      ShiftIn1(r.wordAcc, f[k]);
    } else if k % 4 == 1 {
      ShiftIn2(r.wordAcc, f[k - 1], f[k]);
    } else {
      ShiftIn3(r.wordAcc, f[k - 2], f[k - 1], f[k]);
    }
  }

  /** The last byte of a data word: the word is stored and summed. */
  lemma StoreStep(r0: Rx, f: seq<bv8>, self: bv8, k: nat, r: Rx)
    requires Frame(f) && 1 <= k && k + 1 < |f| && k % 4 == 3
    requires InFrame(r0, f, self, k, r)
    ensures InFrame(r0, f, self, k + 1, RxByte(r, f[k], self))
  {
    var r' := RxByte(r, f[k], self);
    var w := r0.writeIdx;
    CompleteWord(f, k, r.wordAcc);
    WordsSnoc(f, k / 4);
    assert (k + 1) / 4 == k / 4 + 1;
    assert r'.slots[w] == r.slots[w][k / 4 := WordAt(f, k / 4)];
  }

  lemma {:induction false} FramePrefix(r0: Rx, f: seq<bv8>, self: bv8, k: nat)
    requires Valid(r0) && r0.byteIndex == 0 && Frame(f) && 1 <= k < |f|
    ensures InFrame(r0, f, self, k, Feed(r0, f[..k], self))
    decreases k
  {
    if k == 1 {
      FirstByte(r0, f, self);
    } else {
      FramePrefix(r0, f, self, k - 1);
      FrameAdvance(r0, f, self, k);
    }
  }

  /** One more byte of the frame fed keeps the in-frame invariant. */
  lemma FrameAdvance(r0: Rx, f: seq<bv8>, self: bv8, k: nat)
    requires Valid(r0) && Frame(f) && 2 <= k < |f|
    requires InFrame(r0, f, self, k - 1, Feed(r0, f[..k - 1], self))
    ensures InFrame(r0, f, self, k, Feed(r0, f[..k], self))
  {
    var prev := Feed(r0, f[..k - 1], self);
    FrameStep(r0, f, self, k - 1, prev);
    FeedSnoc(r0, f, self, k);
    SameState(r0, f, self, k, RxByte(prev, f[k - 1], self), Feed(r0, f[..k], self));
  }

  lemma SameState(r0: Rx, f: seq<bv8>, self: bv8, k: nat, a: Rx, b: Rx)
    requires Frame(f) && 1 <= k < |f| && a == b && InFrame(r0, f, self, k, a)
    ensures InFrame(r0, f, self, k, b)
  {
  }

  lemma FeedSnoc(r0: Rx, f: seq<bv8>, self: bv8, k: nat)
    requires Valid(r0) && 1 <= k <= |f|
    ensures Feed(r0, f[..k], self) == RxByte(Feed(r0, f[..k - 1], self), f[k - 1], self)
  {
    assert f[..k][..k - 1] == f[..k - 1];
  }

  lemma FirstByte(r0: Rx, f: seq<bv8>, self: bv8)
    requires Valid(r0) && r0.byteIndex == 0 && Frame(f) && 1 < |f|
    ensures InFrame(r0, f, self, 1, Feed(r0, f[..1], self))
  {
    FeedSnoc(r0, f, self, 1);
    assert f[..0] == [];
    FrameStart(r0, f, self);
  }

  /** The last byte of a frame: the receiver is back at a packet
      boundary and publishes the slot exactly when the frame is accepted. */
  lemma FrameEnd(r0: Rx, f: seq<bv8>, self: bv8, r: Rx)
    requires Frame(f) && InFrame(r0, f, self, |f| - 1, r)
    ensures var r' := RxByte(r, f[|f| - 1], self);
            && r'.byteIndex == 0 && r'.slots == r.slots
            && r'.writeIdx == if Accepts(f, self) then Next(r0.writeIdx) else r0.writeIdx
  {
    var k := |f| - 1;
    assert k / 4 == |f| / 4 - 1;
    CompleteWord(f, k, r.wordAcc);
  }

  /** Reading a whole frame from a packet boundary stores its data words
      in the current slot, touches no other slot, returns to a packet
      boundary, and advances the write index exactly when the address
      byte is the board's own and the last word is the wrapping sum of
      the others. */
  lemma FeedFrame(r0: Rx, f: seq<bv8>, self: bv8)
    requires Valid(r0) && r0.byteIndex == 0 && Frame(f)
    ensures var r := Feed(r0, f, self);
            && r.byteIndex == 0
            && r.writeIdx == (if Accepts(f, self) then Next(r0.writeIdx) else r0.writeIdx)
            && r.slots[r0.writeIdx][..|f| / 4 - 1] == Data(f)
            && forall j :: 0 <= j < NumSlots && j != r0.writeIdx ==> r.slots[j] == r0.slots[j]
  {
    var k := |f| - 1;
    FramePrefix(r0, f, self, k);
    var r := Feed(r0, f[..k], self);
    FrameEnd(r0, f, self, r);
    SlotHoldsData(r0, f, self, r);
  }

  /** Where `FeedFrame` leaves the indices. */
  lemma FeedFrameIndex(r0: Rx, f: seq<bv8>, self: bv8)
    requires Valid(r0) && r0.byteIndex == 0 && Frame(f)
    ensures var r := Feed(r0, f, self);
            && r.byteIndex == 0
            && r.writeIdx == (if Accepts(f, self) then Next(r0.writeIdx) else r0.writeIdx)
  {
    FeedFrame(r0, f, self);
  }

  lemma SlotHoldsData(r0: Rx, f: seq<bv8>, self: bv8, r: Rx)
    requires Frame(f) && InFrame(r0, f, self, |f| - 1, r)
    ensures r.slots[r0.writeIdx][..|f| / 4 - 1] == Data(f)
  {
    assert (|f| - 1) / 4 == |f| / 4 - 1;
  }

  /** A byte that selects no packet is dropped: the receiver waits for a
      start byte again with a cleared accumulator and the ring untouched. */
  lemma DropsBadStart(r: Rx, c: bv8, self: bv8)
    requires Valid(r) && r.byteIndex == 0 && c >= 4
    ensures RxByte(r, c, self) ==
              r.(packetLength := 0, checksum := 0, wordAcc := 0, wordIndex := 0, addressOk := false)
  {
  }

  /** After a timeout a whole frame is read as in `FeedFrame`, whatever
      the receiver was in the middle of. */
  lemma TimeoutResyncs(r0: Rx, f: seq<bv8>, self: bv8)
    requires Valid(r0) && Frame(f)
    ensures var r := Feed(Timeout(r0), f, self);
            && r.byteIndex == 0
            && r.writeIdx == (if Accepts(f, self) then Next(r0.writeIdx) else r0.writeIdx)
            && r.slots[r0.writeIdx][..|f| / 4 - 1] == Data(f)
  {
    FeedFrame(Timeout(r0), f, self);
  }
}

=== FILE: host_slow.dfy ===
/** The slow-code half of the starfish host link (`starfish/hostComms.c`):
    the reader of the receive ring, the two request decoders, and the
    settings a config request updates. */
module HostSlow {
  import opened HostBits
  import opened HostWire
  import HostRx
  import HostTx

  /** Request packet types, motion request kinds and config kinds. */
  const MotionRequestType: bv8 := 0
  const ConfigRequestType: bv8 := 1
  const StopRequest: bv8 := 0
  const QueueRequest: bv8 := 2
  const ConfigUpdate: bv8 := 2

  /** The calls the slow code makes into the rest of the firmware.  Float
      arguments are the request's words, bit for bit. */
  datatype Action =
    | StopAllMotion
    | UpdateTrajectories(setpoint: bv32, dsdt: bv32, time: bv32)
    | SetSkinSensor(dir: bv8, value: bv8)
    | SetPositionOffset(offset: bv32)
    | UpdateCoeffs(p: bv32, i: bv32, d: bv32, fb: HostTx.Feedback)

  /** The feedback byte of a config request; an unknown code disables
      feedback. */
  function DecodeFeedback(b: bv8): (f: HostTx.Feedback)
    ensures f == HostTx.FbDisabled <==> b == 0 || b > 5
    ensures b <= 5 ==> HostTx.FeedbackCode(f) == b
  {
    if b == 1 then HostTx.FbOpenLoop
    else if b == 2 then HostTx.FbPosition
    else if b == 3 then HostTx.FbVelocity
    else if b == 4 then HostTx.FbForce
    else if b == 5 then HostTx.FbCurrent
    else HostTx.FbDisabled
  }

  // ---------------------------------------------------------------------
  // Requests as a host builds them

  /** A packet: the words followed by their wrapping sum. */
  function Packet(ws: seq<bv32>): (p: seq<bv32>)
    ensures |p| == |ws| + 1 && Checked(p) && p[..|ws|] == ws
  {
    var p := ws + [Sum(ws)];
    assert p[..|ws|] == ws;
    p
  }

  /** A 32-byte motion request: header (type, address, motion kind, 0),
      set point, slope and time, the skin word with the value in its
      second wire byte and the direction in its last, two spare words
      and the checksum. */
  function MotionRequest(address: bv8, kind: bv8, setpoint: bv32, dsdt: bv32, time: bv32,
                         dir: bv8, value: bv8): (p: seq<bv32>)
    ensures |p| == 8 && Checked(p)
  {
    Packet([WordOf(MotionRequestType, address, kind, 0), setpoint, dsdt, time,
            WordOf(0, value, 0, dir), 0, 0])
  }

  /** A 44-byte config request: header (type, address, config kind,
      feedback code), offset, the three gains, five spare words and the
      checksum. */
  function ConfigRequest(address: bv8, kind: bv8, fb: HostTx.Feedback, offset: bv32,
                         p: bv32, i: bv32, d: bv32): (r: seq<bv32>)
    ensures |r| == 11 && Checked(r)
  {
    Packet([WordOf(ConfigRequestType, address, kind, HostTx.FeedbackCode(fb)), offset, p, i, d,
            0, 0, 0, 0, 0])
  }

  // ---------------------------------------------------------------------
  // Request decoders

  /** `processMotionRequest`: a stop request stops all motion, a queue
      request queues the trajectory in words 1 to 3, the other kinds do
      nothing; every kind then passes the skin direction (memory byte 0 of
      word 4) and value (memory byte 2) on. */
  function MotionActions(req: seq<bv32>): (acts: seq<Action>)
    requires |req| >= 5
    ensures |acts| >= 1 && acts[|acts| - 1] == SetSkinSensor(Byte0(req[4]), Byte2(req[4]))
    ensures StopAllMotion in acts <==> Byte1(req[0]) == StopRequest
    ensures UpdateTrajectories(req[1], req[2], req[3]) in acts <==> Byte1(req[0]) == QueueRequest
    ensures |acts| <= 2
  {
    var kind := Byte1(req[0]);
    var first :=
      if kind == StopRequest then [StopAllMotion]
      else if kind == QueueRequest then [UpdateTrajectories(req[1], req[2], req[3])]
      else [];
    first + [SetSkinSensor(Byte0(req[4]), Byte2(req[4]))]
  }

  /** The gains and feedback type of `feedback.c` with the position
      offset. */
  datatype Settings = Settings(gains: HostTx.Gains, offset: bv32)

  /** `processConfigRequest`: the config kind is bits 8 to 15 of the
      header and the feedback type bits 0 to 7; only an update changes
      the settings, to the request's offset, gains and feedback type. */
  function ProcessConfig(s: Settings, req: seq<bv32>): (r: (Settings, seq<Action>))
    requires |req| >= 5
    ensures Byte1(req[0]) != ConfigUpdate ==> r == (s, [])
    ensures Byte1(req[0]) == ConfigUpdate ==>
              && r.0.offset == req[1]
              && r.0.gains == HostTx.Gains(req[2], req[3], req[4], DecodeFeedback(Byte0(req[0])))
              && r.1 == [SetPositionOffset(r.0.offset),
                         UpdateCoeffs(r.0.gains.p, r.0.gains.i, r.0.gains.d, r.0.gains.fb)]
  {
    if Byte1(req[0]) == ConfigUpdate then
      var fb := DecodeFeedback(Byte0(req[0]));
      (Settings(HostTx.Gains(req[2], req[3], req[4], fb), req[1]),
       [SetPositionOffset(req[1]), UpdateCoeffs(req[2], req[3], req[4], fb)])
    else (s, [])
  }

  /** The config request's header decodes to what was put in it, for
      every known feedback type. */
  lemma ConfigHeaderRoundTrip(address: bv8, kind: bv8, fb: HostTx.Feedback)
    ensures var w := WordOf(ConfigRequestType, address, kind, HostTx.FeedbackCode(fb));
            && Byte3(w) == ConfigRequestType && Byte2(w) == address
            && Byte1(w) == kind && DecodeFeedback(Byte0(w)) == fb
  {
    BytesRoundTrip(ConfigRequestType, address, kind, HostTx.FeedbackCode(fb));
  }

  // ---------------------------------------------------------------------
  // The board's host-link state and the slow code

  /** The receive side, the slot the slow code reads next, the transmit
      side and the settings. */
  datatype Host = Host(rx: HostRx.Rx, readIdx: nat, tx: HostTx.Tx, settings: Settings)

  predicate Valid(h: Host) {
    HostRx.Valid(h.rx) && h.readIdx < HostRx.NumSlots && HostTx.Valid(h.tx)
  }

  function Init(s: Settings): (h: Host)
    ensures Valid(h) && !Pending(h) && h.rx.byteIndex == 0 && !HostTx.IsTransmitting(h.tx)
  {
    Host(HostRx.Init(), 0, HostTx.Init(), s)
  }

  /** The ring holds a packet for the slow code exactly when the indices
      differ. */
  predicate Pending(h: Host) {
    h.rx.writeIdx != h.readIdx
  }

  /** The packet type of a slot: the top byte of its first word. */
  function TypeOf(req: seq<bv32>): bv8
    requires |req| >= 1
  {
    Byte3(req[0])
  }

  /** `hostCommsSlowCode` without the LED: when a packet is pending it is
      dispatched on its type, motion and config requests are processed
      and answered (each answer is queued twice, and the second call does
      nothing), other types are skipped, and the read index moves on.
      `rd` stands for what the reply builders read from the rest of the
      firmware; the reply's position offset is the settings'.  `layout`
      picks the config reply's header: the firmware builds it `AsWritten`. */
  function SlowCode(h: Host, rd: HostTx.Readings, layout: HostTx.ConfigLayout): (r: (Host, seq<Action>))
    requires Valid(h) && |rd.measured| == 13
    ensures Valid(r.0) && r.0.rx == h.rx
    ensures !Pending(h) ==> r == (h, [])
    ensures Pending(h) ==> r.0.readIdx == HostRx.Next(h.readIdx)
    ensures Pending(h) && TypeOf(h.rx.slots[h.readIdx]) == MotionRequestType ==>
              && r.1 == MotionActions(h.rx.slots[h.readIdx])
              && r.0.settings == h.settings
              && r.0.tx == HostTx.QueueMotionReply(h.tx, rd)
    ensures Pending(h) && TypeOf(h.rx.slots[h.readIdx]) == ConfigRequestType ==>
              var p := ProcessConfig(h.settings, h.rx.slots[h.readIdx]);
              && r.1 == p.1 && r.0.settings == p.0
              && r.0.tx == HostTx.QueueConfigReply(h.tx, layout, p.0.gains, rd.(offset := p.0.offset))
    ensures Pending(h) && TypeOf(h.rx.slots[h.readIdx]) > ConfigRequestType ==>
              r == (h.(readIdx := HostRx.Next(h.readIdx)), [])
    ensures r.0.tx != h.tx ==> !HostTx.IsTransmitting(h.tx)
  {
    if h.rx.writeIdx == h.readIdx then (h, [])
    else
      var req := h.rx.slots[h.readIdx];
      var next := h.(readIdx := HostRx.Next(h.readIdx));
      if TypeOf(req) == MotionRequestType then
        var t := HostTx.QueueMotionReply(h.tx, rd);
        (next.(tx := HostTx.QueueMotionReply(t, rd)), MotionActions(req))
      else if TypeOf(req) == ConfigRequestType then
        var p := ProcessConfig(h.settings, req);
        var rd' := rd.(offset := p.0.offset);
        var t := HostTx.QueueConfigReply(h.tx, layout, p.0.gains, rd');
        (next.(tx := HostTx.QueueConfigReply(t, layout, p.0.gains, rd'), settings := p.0), p.1)
      else (next, [])
  }
}

=== FILE: host_tx.dfy ===
/** The transmit side of the starfish host link (`starfish/hostComms.c`):
    the transmit buffer, the two reply builders, the checksum writer and
    the fast-code branch that sends the buffer one byte per call. */
module HostTx {
  import opened Common
  import opened HostBits
  import opened HostWire

  const TxWords: nat := 100

  /** Packet types and the reply lengths in words. */
  const MotionReplyType: bv8 := 2
  const ConfigReplyType: bv8 := 3
  const MotionReplyWords: nat := 16
  const ConfigReplyWords: nat := 11

  /** `FeedbackType` of `feedback.h`, with its numeric values 0 to 5. */
  datatype Feedback = FbDisabled | FbOpenLoop | FbPosition | FbVelocity | FbForce | FbCurrent

  function FeedbackCode(f: Feedback): (c: bv8)
    ensures c <= 5
  {
    match f
    case FbDisabled => 0
    case FbOpenLoop => 1
    case FbPosition => 2
    case FbVelocity => 3
    case FbForce => 4
    case FbCurrent => 5
  }

  /** `MotionStatusType`; `MsOther` stands for any value outside the four
      the reply switch names. */
  datatype MotionStatus = MsStopped | MsIdle | MsMoveInProgress | MsError | MsOther

  /** The status byte of a motion reply; an unknown status reads as
      stopped. */
  function StatusCode(s: MotionStatus): (c: bv8)
    ensures c <= 3
    ensures c == 0 <==> s == MsStopped || s == MsOther
  {
    match s
    case MsStopped => 0
    case MsIdle => 1
    case MsMoveInProgress => 2
    case MsError => 3
    case MsOther => 0
  }

  /** The gains and feedback type kept by `feedback.c`, as 32-bit words:
      the reply copies the float bits unchanged. */
  datatype Gains = Gains(p: bv32, i: bv32, d: bv32, fb: Feedback)

  /** What the builders read from the rest of the firmware when they run:
      the board address, the motion status, the thirteen measured values
      of a motion reply (position, velocity, time, torque, current and
      eight sensors), the position offset and the version word. */
  datatype Readings = Readings(address: bv8, status: MotionStatus, measured: seq<bv32>,
                               offset: bv32, version: bv32)

  /** The transmit buffer, the number of words being sent (0 when idle),
      and the transmit branch's position: the word being sent and the
      memory byte after the one sent last. */
  datatype Tx = Tx(buf: seq<bv32>, wordsToTransmit: nat, wordIndex: nat, byteIndex: nat)

  predicate Valid(t: Tx) {
    && |t.buf| == TxWords
    && t.wordsToTransmit <= TxWords
    && t.wordIndex <= t.wordsToTransmit
    && 1 <= t.byteIndex <= 4
    && (t.byteIndex < 4 ==> t.wordIndex < t.wordsToTransmit)
  }

  function Init(): (t: Tx)
    ensures Valid(t) && !IsTransmitting(t)
  {
    Tx(seq(TxWords, _ => 0 as bv32), 0, 0, 4)
  }

  predicate IsTransmitting(t: Tx) {
    t.wordsToTransmit > 0
  }

  // ---------------------------------------------------------------------
  // Checksum writer

  /** The buffer with the wrapping sum of words `0 .. len - 2` in word
      `len - 1`. */
  function Seal(buf: seq<bv32>, len: nat): (r: seq<bv32>)
    requires 1 <= len <= |buf|
    ensures |r| == |buf| && Checked(r[..len])
    ensures r[..len - 1] == buf[..len - 1] && r[len..] == buf[len..]
  {
    var r := buf[len - 1 := Sum(buf[..len - 1])];
    assert r[..len][..len - 1] == r[..len - 1];
    r
  }

  /** `calcChecksumAndSend`: sum the words before the last, store the sum
      in the last, and start sending `len` words. */
  method CalcChecksumAndSend(t: Tx, len: nat) returns (r: Tx)
    requires 1 <= len <= |t.buf|
    ensures r.buf == Seal(t.buf, len) && Checked(r.buf[..len])
    ensures r.wordsToTransmit == len
    ensures r.wordIndex == t.wordIndex && r.byteIndex == t.byteIndex
  {
    var result: bv32 := 0;
    var i := 0;
    while i < len - 1
      invariant 0 <= i <= len - 1
      invariant result == Sum(t.buf[..i])
    {
      assert t.buf[..i + 1][..i] == t.buf[..i];
      result := Add(result, t.buf[i]);
      i := i + 1;
    }
    r := t.(buf := t.buf[len - 1 := result], wordsToTransmit := len);
  }

  /** The checksum writer as a value, for the builders below. */
  function Send(t: Tx, len: nat): (r: Tx)
    requires 1 <= len <= |t.buf|
    ensures r.buf == Seal(t.buf, len) && r.wordsToTransmit == len
    ensures r.wordIndex == t.wordIndex && r.byteIndex == t.byteIndex
  {
    t.(buf := Seal(t.buf, len), wordsToTransmit := len)
  }

  // ---------------------------------------------------------------------
  // Reply builders

  /** Header of a motion reply: type, address, status, 0, in wire order. */
  function MotionHeader(address: bv8, s: MotionStatus): bv32 {
    WordOf(MotionReplyType, address, StatusCode(s), 0)
  }

  /** `queueMotionReplyPacket`: nothing while a send is pending; otherwise
      the header, the measured values around a zero loop index in word 4,
      the checksum, and a 16-word send. */
  function QueueMotionReply(t: Tx, rd: Readings): (r: Tx)
    requires Valid(t) && |rd.measured| == 13
    ensures Valid(r)
    ensures IsTransmitting(t) ==> r == t
    ensures r.wordIndex == t.wordIndex && r.byteIndex == t.byteIndex
    ensures !IsTransmitting(t) ==>
              && r.wordsToTransmit == MotionReplyWords
              && r.buf[0] == MotionHeader(rd.address, rd.status)
              && r.buf[1..4] == rd.measured[..3] && r.buf[4] == 0
              && r.buf[5..15] == rd.measured[3..]
              && Checked(r.buf[..MotionReplyWords])
  {
    if IsTransmitting(t) then t
    else
      var words := [MotionHeader(rd.address, rd.status)] + rd.measured[..3] + [0] + rd.measured[3..];
      var buf := words + t.buf[15..];
      var r := Send(t.(buf := buf), MotionReplyWords);
      assert r.buf[..15] == buf[..15] == words;
      r
  }

  /** The layout of a config reply's header: `AsWritten` is the one
      `queueConfigReplyPacket` builds, `Uniform` the one every other
      packet uses. */
  datatype ConfigLayout = AsWritten | Uniform

  /** The header of a config reply.  As written, the feedback type is
      shifted into the most significant byte (which goes on the wire
      first), the address into the second least and the packet type into
      the least significant.  Laid out uniformly it is type, address, then
      the feedback type in the byte a config request carries it in. */
  function ConfigHeader(layout: ConfigLayout, address: bv8, fb: Feedback): (w: bv32)
    ensures layout == AsWritten ==>
              && Byte3(w) == FeedbackCode(fb) && Byte2(w) == 0
              && Byte1(w) == address && Byte0(w) == ConfigReplyType
    ensures layout == Uniform ==>
              && Byte3(w) == ConfigReplyType && Byte2(w) == address
              && Byte1(w) == 0 && Byte0(w) == FeedbackCode(fb)
  {
    match layout
    case AsWritten =>
      BytesRoundTrip(FeedbackCode(fb), 0, address, ConfigReplyType);
      WordOf(FeedbackCode(fb), 0, address, ConfigReplyType)
    case Uniform =>
      BytesRoundTrip(ConfigReplyType, address, 0, FeedbackCode(fb));
      WordOf(ConfigReplyType, address, 0, FeedbackCode(fb))
  }

  /** `queueConfigReplyPacket` with a given header: nothing while a send
      is pending; otherwise the header, the position offset, the three
      gains, the version word, the checksum over words 0 to 9, and an
      11-word send.  Words 6 to 9 keep whatever the buffer held. */
  function QueueConfigReplyWith(t: Tx, header: bv32, g: Gains, rd: Readings): (r: Tx)
    requires Valid(t)
    ensures Valid(r)
    ensures IsTransmitting(t) ==> r == t
    ensures r.wordIndex == t.wordIndex && r.byteIndex == t.byteIndex
    ensures !IsTransmitting(t) ==>
              && r.wordsToTransmit == ConfigReplyWords
              && r.buf[..6] == [header, rd.offset, g.p, g.i, g.d, rd.version]
              && r.buf[6..10] == t.buf[6..10]
              && Checked(r.buf[..ConfigReplyWords])
  {
    if IsTransmitting(t) then t
    else
      var buf := [header, rd.offset, g.p, g.i, g.d, rd.version] + t.buf[6..];
      var r := Send(t.(buf := buf), ConfigReplyWords);
      assert r.buf[..10] == buf[..10];
      r
  }

  /** `queueConfigReplyPacket`: the reply to a config request, with the
      header in the given layout. */
  function QueueConfigReply(t: Tx, layout: ConfigLayout, g: Gains, rd: Readings): (r: Tx)
    requires Valid(t)
    ensures Valid(r)
    ensures IsTransmitting(t) ==> r == t
    ensures !IsTransmitting(t) ==>
              && r.wordsToTransmit == ConfigReplyWords
              && r.buf[..6] == [ConfigHeader(layout, rd.address, g.fb), rd.offset, g.p, g.i, g.d,
                                rd.version]
              && Checked(r.buf[..ConfigReplyWords])
  {
    QueueConfigReplyWith(t, ConfigHeader(layout, rd.address, g.fb), g, rd)
  }

  /** A builder called again before the send finishes does nothing, so
      the second reply call after a request is lost. */
  lemma SecondReplyIsNoOp(t: Tx, l: ConfigLayout, g: Gains, rd: Readings)
    requires Valid(t) && |rd.measured| == 13
    ensures QueueMotionReply(QueueMotionReply(t, rd), rd) == QueueMotionReply(t, rd)
    ensures QueueConfigReply(QueueConfigReply(t, l, g, rd), l, g, rd) == QueueConfigReply(t, l, g, rd)
    ensures QueueConfigReply(QueueMotionReply(t, rd), l, g, rd) == QueueMotionReply(t, rd)
  {
  }

  // ---------------------------------------------------------------------
  // Transmit branch

  /** Memory byte `j` of a word on the little-endian target: byte 3 is the
      most significant. */
  function MemByte(w: bv32, j: nat): bv8
    requires j < 4
  {
    if j == 3 then Byte3(w) else if j == 2 then Byte2(w) else if j == 1 then Byte1(w) else Byte0(w)
  }

  /** `hostCommsTxBranch`, given the USART's transmit-empty and
      transmit-complete flags and whether the 5 ms stall timer expired:
      the new state and the byte sent, if any. */
  function TxBranch(t: Tx, txe: bool, tc: bool, expired: bool): (r: (Tx, Option<bv8>))
    requires Valid(t)
    ensures Valid(r.0)
    ensures r.0.buf == t.buf
    ensures r.1.Some? <==> txe && t.wordIndex < t.wordsToTransmit
    ensures r.0.wordsToTransmit != t.wordsToTransmit ==>
              r.0.wordsToTransmit == 0 && t.wordIndex == t.wordsToTransmit && txe && (tc || expired)
  {
    if !txe then
      (if expired then t.(byteIndex := 4, wordIndex := 0) else t, None)
    else if t.wordIndex == t.wordsToTransmit then
      (if tc || expired then t.(wordsToTransmit := 0, wordIndex := 0, byteIndex := 4) else t, None)
    else
      var j := t.byteIndex - 1;
      var b := MemByte(t.buf[t.wordIndex], j);
      if j == 0 then (t.(wordIndex := t.wordIndex + 1, byteIndex := 4), Some(b))
      else (t.(byteIndex := j), Some(b))
  }

  /** `k` calls of the transmit branch with the USART always ready and
      never complete, and the bytes they send. */
  function Sends(t: Tx, k: nat): (r: (Tx, seq<bv8>))
    requires Valid(t)
    ensures Valid(r.0) && r.0.buf == t.buf
  {
    if k == 0 then (t, [])
    else
      var u := Sends(t, k - 1);
      var v := TxBranch(u.0, true, false, false);
      (v.0, u.1 + (if v.1.Some? then [v.1.value] else []))
  }

  /** The bytes sent so far are the first `j` bytes of the packet, most
      significant byte of each word first. */
  lemma {:induction false} SendsPrefix(t: Tx, j: nat)
    requires Valid(t) && t.wordIndex == 0 && t.byteIndex == 4
    requires j <= 4 * t.wordsToTransmit
    ensures var r := Sends(t, j);
            && r.0.wordIndex == j / 4 && r.0.byteIndex == 4 - j % 4
            && r.0.wordsToTransmit == t.wordsToTransmit
            && |r.1| == j
            && forall p :: 0 <= p < j ==> r.1[p] == WordBytes(t.buf[p / 4])[p % 4]
    decreases j
  {
    if j > 0 {
      SendsPrefix(t, j - 1);
      SendOne(Sends(t, j - 1).0, j - 1);
    }
  }

  /** The call that sends byte `p` of the packet. */
  lemma SendOne(u: Tx, p: nat)
    requires Valid(u) && p < 4 * u.wordsToTransmit
    requires u.wordIndex == p / 4 && u.byteIndex == 4 - p % 4
    ensures var v := TxBranch(u, true, false, false);
            && v.0 == u.(wordIndex := (p + 1) / 4, byteIndex := 4 - (p + 1) % 4)
            && v.1 == Some(WordBytes(u.buf[p / 4])[p % 4])
  {
  }

  /** Once all words are out, a call with transmit-complete set ends the
      send and the branch is ready for the next packet. */
  lemma SendCompletes(t: Tx)
    requires Valid(t) && t.wordIndex == 0 && t.byteIndex == 4
    ensures var u := Sends(t, 4 * t.wordsToTransmit).0;
            var v := TxBranch(u, true, true, false);
            && v.0 == t.(wordsToTransmit := 0)
            && v.1.None?
  {
    SendsPrefix(t, 4 * t.wordsToTransmit);
  }

  /** Sending a whole packet puts its words on the wire in order, most
      significant byte first. */
  lemma SendsPacket(t: Tx)
    requires Valid(t) && t.wordIndex == 0 && t.byteIndex == 4
    ensures Sends(t, 4 * t.wordsToTransmit).1 == Serialize(t.buf[..t.wordsToTransmit])
  {
    var n := t.wordsToTransmit;
    SendsPrefix(t, 4 * n);
    var out := Sends(t, 4 * n).1;
    forall p | 0 <= p < 4 * n ensures out[p] == Serialize(t.buf[..n])[p] {
      SerializeAt(t.buf[..n], p / 4, p % 4);
    }
  }
}

=== FILE: host_wire.dfy ===
/** Wire format of the starfish host link (`starfish/hostComms.c`): a
    packet is a sequence of 32-bit words sent most significant byte
    first, and its last word is the wrapping 32-bit sum of the others. */
module HostWire {
  import opened HostBits

  /** Word `i` of a byte stream, most significant byte first. */
  function WordAt(bs: seq<bv8>, i: nat): bv32
    requires 4 * i + 4 <= |bs|
  {
    WordOf(bs[4 * i], bs[4 * i + 1], bs[4 * i + 2], bs[4 * i + 3])
  }

  /** The bytes of a sequence of words, each most significant first. */
  function Serialize(ws: seq<bv32>): (bs: seq<bv8>)
    ensures |bs| == 4 * |ws|
  {
    seq(4 * |ws|, j requires 0 <= j < 4 * |ws| => WordBytes(ws[j / 4])[j % 4])
  }

  lemma SerializeAt(ws: seq<bv32>, i: nat, q: nat)
    requires i < |ws| && q < 4
    ensures Serialize(ws)[4 * i + q] == WordBytes(ws[i])[q]
  {
    assert (4 * i + q) / 4 == i && (4 * i + q) % 4 == q;
  }

  /** Word `i` of the serialised words is word `i`. */
  lemma SerializeWordAt(ws: seq<bv32>, i: nat)
    requires i < |ws|
    ensures WordAt(Serialize(ws), i) == ws[i]
  {
    SerializeAt(ws, i, 0);
    SerializeAt(ws, i, 1);
    SerializeAt(ws, i, 2);
    SerializeAt(ws, i, 3);
    WordAtBytes(Serialize(ws), i, ws[i]);
  }

  /** Four bytes in wire order read back as their word. */
  lemma WordAtBytes(s: seq<bv8>, i: nat, w: bv32)
    requires 4 * i + 4 <= |s|
    requires s[4 * i] == WordBytes(w)[0] && s[4 * i + 1] == WordBytes(w)[1]
    requires s[4 * i + 2] == WordBytes(w)[2] && s[4 * i + 3] == WordBytes(w)[3]
    ensures WordAt(s, i) == w
  {
    WordRoundTrip(w);
  }

  /** The first `n` words of a byte stream. */
  function Words(bs: seq<bv8>, n: nat): (ws: seq<bv32>)
    requires 4 * n <= |bs|
    ensures |ws| == n
  {
    seq(n, i requires 0 <= i < n => WordAt(bs, i))
  }

  /** Serialising then reading back gives the words. */
  lemma SerializeWords(ws: seq<bv32>)
    ensures Words(Serialize(ws), |ws|) == ws
  {
    forall i | 0 <= i < |ws| ensures Words(Serialize(ws), |ws|)[i] == ws[i] {
      SerializeWordAt(ws, i);
    }
  }

  /** The first `n` words read back from the bytes of a longer packet. */
  lemma SerializePrefix(ws: seq<bv32>, n: nat)
    requires n <= |ws|
    ensures Words(Serialize(ws), n) == ws[..n]
  {
    forall i | 0 <= i < n ensures Words(Serialize(ws), n)[i] == ws[..n][i] {
      SerializeWordAt(ws, i);
    }
  }

  /** The first two bytes on the wire are the top two bytes of word 0. */
  lemma SerializeHead(ws: seq<bv32>)
    requires |ws| >= 1
    ensures Serialize(ws)[0] == Byte3(ws[0]) && Serialize(ws)[1] == Byte2(ws[0])
  {
    SerializeAt(ws, 0, 0);
    SerializeAt(ws, 0, 1);
  }

  /** The wrapping 32-bit sum of words. */
  function Sum(ws: seq<bv32>): bv32 {
    if ws == [] then 0 else Add(Sum(ws[..|ws| - 1]), ws[|ws| - 1])
  }

  /** A packet of `n` words is well formed when its last word is the sum
      of the others. */
  predicate Checked(ws: seq<bv32>) {
    |ws| >= 1 && ws[|ws| - 1] == Sum(ws[..|ws| - 1])
  }
}

=== FILE: motion.dfy ===
/** The motion driver of `actuator/motion.c`: a millisecond tick that
    takes setpoint batches from a mailbox, counts down a batch's delay,
    swaps it in, walks its setpoints for their durations and loop count,
    and hands the current setpoint to a render driver whose output goes to
    the motor.

    The mailbox is the FIFO `mbox` with its capacity, the memory pool is
    the set `live` of allocated batch ids, and the render driver is a
    record of its four methods.  Every call the tick makes to the render
    driver, to `motorSet` and to the pool's free is recorded, in order, in
    an event trace. */
module Motion {
  import opened Common
  import MsgType

  /** One timed target, as the wire layout has it. */
  type Point = MsgType.Point

  /** A pool-allocated setpoint batch: the identity of its pool block,
      the delay before it starts, its loop count and its `n` setpoints. */
  datatype Batch = Batch(id: nat, delay: uint16, loop: uint16, points: seq<Point>)

  /** `motionstate_t`. */
  datatype RunState = Uninit | Stopped | Ready

  /** An observable call made by the driver thread. */
  datatype Event =
    | Reset                 // rdReset
    | WillRender            // rdWillRender
    | Render(setpoint: uint16)  // rdRender with the current setpoint
    | MotorSet(pwm: int8)   // motorSet
    | HasRendered           // rdHasRendered
    | Free(id: nat)         // chPoolFree

  /** The four methods of a render driver (`actuator/render.h`) over its
      own state `R`. */
  datatype Renderer<!R> = Renderer(reset: R -> R, willRender: R -> R,
                                  render: (R, uint16) -> (R, int8), hasRendered: R -> R)

  /** `MotionDriver` with its mailbox and pool.  `running` says whether the
      driver thread exists; `configured` says whether `config` (and so the
      mailbox) has been set, which only `motionStart` from STOP does. */
  datatype Motion = Motion(
    state: RunState, running: bool, configured: bool,
    sp: Option<Batch>, nextsp: Option<Batch>,
    delay: uint16, loop: uint16, duration: uint16, setpoint: uint16, spindex: nat,
    active: bool,
    mbox: seq<Batch>, capacity: nat,
    live: set<nat>)

  /** Faults of the as-written code. */
  datatype Fault = NullDeref | OutOfBounds

  datatype Outcome<T> = Ok(value: T) | Failed(fault: Fault)

  // ---------------------------------------------------------------------
  // Batches held by the driver

  /** The batches fetched or queued but not yet current, in the order they
      will become current. */
  function Pending(m: Motion): seq<Batch> {
    (if m.nextsp.Some? then [m.nextsp.value] else []) + m.mbox
  }

  function IdsOf(bs: seq<Batch>): (ids: seq<nat>)
    ensures |ids| == |bs|
    ensures forall i :: 0 <= i < |bs| ==> ids[i] == bs[i].id
  {
    if |bs| == 0 then [] else [bs[0].id] + IdsOf(bs[1..])
  }

  /** The pool blocks the driver refers to: current, next, then queued. */
  function Ids(m: Motion): seq<nat> {
    (if m.sp.Some? then [m.sp.value.id] else []) + IdsOf(Pending(m))
  }

  predicate Distinct(s: seq<nat>) {
    forall i, j :: 0 <= i < j < |s| ==> s[i] != s[j]
  }

  /** Every referenced block is allocated and referenced once: in
      particular `sp` and `nextsp` never alias. */
  predicate PoolInv(m: Motion) {
    Distinct(Ids(m)) && forall i :: 0 <= i < |Ids(m)| ==> Ids(m)[i] in m.live
  }

  /** The setpoint index points into the current batch, or is 0. */
  predicate Inv(m: Motion) {
    m.sp.Some? ==> m.spindex < |m.sp.value.points| || m.spindex == 0
  }

  // ---------------------------------------------------------------------
  // The phases of one tick

  /** `motion_lld_free_sp`. */
  function FreeSp(m: Motion): (r: (Motion, seq<Event>))
    ensures r.0.sp.None?
    ensures m.sp.None? ==> r == (m, [])
    ensures m.sp.Some? ==> r.1 == [Free(m.sp.value.id)] && r.0.live == m.live - {m.sp.value.id}
    ensures r.0 == m.(sp := None, live := r.0.live)
  {
    if m.sp.Some? then (m.(sp := None, live := m.live - {m.sp.value.id}), [Free(m.sp.value.id)])
    else (m, [])
  }

  /** `motion_lld_load_sp_data`. */
  function LoadSpData(m: Motion): (r: Motion)
    requires m.sp.Some? ==> m.spindex < |m.sp.value.points|
    ensures m.sp.Some? ==>
              r == m.(duration := m.sp.value.points[m.spindex].duration,
                      setpoint := m.sp.value.points[m.spindex].setpoint)
    ensures m.sp.None? ==> r == m
  {
    if m.sp.Some? then
      var p := m.sp.value.points[m.spindex];
      m.(duration := p.duration, setpoint := p.setpoint)
    else m
  }

  /** `motion_lld_load_nextsp`: a non-blocking fetch, only when no next
      batch is held. */
  function LoadNextSp(m: Motion): (r: Motion)
    ensures Pending(r) == Pending(m) && Ids(r) == Ids(m)
    ensures r.nextsp.Some? <==> m.nextsp.Some? || |m.mbox| > 0
    ensures m.nextsp.None? && |m.mbox| > 0 ==>
              r == m.(nextsp := Some(m.mbox[0]), mbox := m.mbox[1..], delay := m.mbox[0].delay)
    ensures m.nextsp.Some? || |m.mbox| == 0 ==> r == m
    ensures r == m.(nextsp := r.nextsp, mbox := r.mbox, delay := r.delay)
  {
    if m.nextsp.None? && |m.mbox| > 0 then
      var r := m.(nextsp := Some(m.mbox[0]), mbox := m.mbox[1..], delay := m.mbox[0].delay);
      assert Pending(r) == [m.mbox[0]] + m.mbox[1..] == m.mbox;
      r
    else m
  }

  /** `motion_lld_activate_sp_after_delay`, with the first setpoint loaded
      only when the batch has one. */
  function Activate(m: Motion): (r: (Motion, seq<Event>))
    ensures m.nextsp.None? ==> r == (m, [])
    ensures m.nextsp.Some? && m.delay > 0 ==> r == (m.(delay := m.delay - 1), [])
    ensures m.nextsp.Some? && m.delay == 0 ==>
              && r.0.sp == m.nextsp && r.0.nextsp.None?
              && r.0.loop == m.nextsp.value.loop && r.0.spindex == 0
              && r.0.mbox == m.mbox
              && r.1 == FreeSp(m).1 && r.0.live == FreeSp(m).0.live
    ensures m.nextsp.Some? && m.delay == 0 && |m.nextsp.value.points| > 0 ==>
              && r.0.duration == m.nextsp.value.points[0].duration
              && r.0.setpoint == m.nextsp.value.points[0].setpoint
    ensures Inv(m) ==> Inv(r.0)
    ensures r.0 == m.(sp := r.0.sp, nextsp := r.0.nextsp, delay := r.0.delay, loop := r.0.loop,
                      duration := r.0.duration, setpoint := r.0.setpoint, spindex := r.0.spindex,
                      live := r.0.live)
  {
    if m.nextsp.None? then (m, [])
    else if m.delay > 0 then (m.(delay := m.delay - 1), [])
    else
      var (m1, e) := FreeSp(m);
      var b := m.nextsp.value;
      var m2 := m1.(sp := Some(b), nextsp := None, loop := b.loop, spindex := 0);
      (if |b.points| > 0 then LoadSpData(m2) else m2, e)
  }

  /** `motion_lld_free_sp_if_empty`, reached only with a current batch. */
  function FreeSpIfEmpty(m: Motion): (r: (Motion, seq<Event>))
    ensures r.0.sp.Some? ==> r.0.sp == m.sp && |r.0.sp.value.points| > 0
    ensures m.sp.Some? && |m.sp.value.points| == 0 ==> r == FreeSp(m)
    ensures m.sp.None? || |m.sp.value.points| > 0 ==> r == (m, [])
    ensures r.0 == m.(sp := r.0.sp, live := r.0.live)
  {
    if m.sp.Some? && |m.sp.value.points| == 0 then FreeSp(m) else (m, [])
  }

  /** `motion_lld_has_update`: whether to render this tick, freeing a batch
      whose loops are spent. */
  function HasUpdate(m: Motion, inf: uint16): (r: (bool, Motion, seq<Event>))
    ensures r.0 <==> m.sp.Some? && (m.loop == inf || m.loop > 0)
    ensures r.0 ==> r.1 == m && r.2 == []
    ensures !r.0 ==> r.1.sp.None?
    ensures !r.0 ==> (r.1, r.2) == FreeSp(m)
    ensures r.1 == m.(sp := r.1.sp, live := r.1.live)
  {
    if m.sp.None? then (false, m, [])
    else if m.loop == inf then (true, m, [])
    else if m.loop > 0 then (true, m, [])
    else
      var (m1, e) := FreeSp(m);
      (false, m1, e)
  }

  /** `motion_lld_step_motion`: count the current setpoint's duration
      down; at zero move to the next setpoint, wrapping to the first and
      counting a loop unless the loop count is the infinite marker. */
  function StepMotion(m: Motion, inf: uint16): (r: Motion)
    requires m.sp.Some? && m.spindex < |m.sp.value.points|
    ensures r.sp == m.sp && r.spindex < |r.sp.value.points|
    ensures m.duration > 1 ==> r == m.(duration := m.duration - 1)
    ensures m.duration <= 1 ==>
              && r.spindex == (if m.spindex + 1 < |m.sp.value.points| then m.spindex + 1 else 0)
              && r.setpoint == m.sp.value.points[r.spindex].setpoint
              && r.duration == m.sp.value.points[r.spindex].duration
    ensures m.duration <= 1 && m.spindex + 1 == |m.sp.value.points| && m.loop != inf ==>
              r.loop == (m.loop - 1) % 0x1_0000
    ensures m.duration > 1 || m.spindex + 1 < |m.sp.value.points| || m.loop == inf ==>
              r.loop == m.loop
    ensures r == m.(duration := r.duration, setpoint := r.setpoint, spindex := r.spindex, loop := r.loop)
  {
    var d := if m.duration > 0 then m.duration - 1 else m.duration;
    if d == 0 then
      var idx := m.spindex + 1;
      var m1 :=
        if idx >= |m.sp.value.points| then
          m.(loop := if m.loop != inf then (m.loop - 1) % 0x1_0000 else m.loop, spindex := 0)
        else m.(spindex := idx);
      LoadSpData(m1.(duration := d))
    else m.(duration := d)
  }

  /** Lines 146-150 of the driver thread: fetch, activate, drop an empty
      batch, and decide. */
  function Prepare(m: Motion, inf: uint16): (r: (bool, Motion, seq<Event>))
    requires Inv(m)
    ensures Inv(r.1)
    ensures r.0 ==> r.1.sp.Some? && r.1.spindex < |r.1.sp.value.points|
    ensures r.0 <==> r.1.sp.Some?
    ensures r.1.state == m.state && r.1.running == m.running
    ensures r.1.capacity == m.capacity && r.1.active == m.active
  {
    var m1 := LoadNextSp(m);
    var (m2, e2) := Activate(m1);
    var (m3, e3) := FreeSpIfEmpty(m2);
    var (go, m4, e4) := HasUpdate(m3, inf);
    assert Inv(m2);
    (go, m4, e2 + e3 + e4)
  }

  /** Lines 151-167 of the driver thread: with nothing to render stop
      the motor and mark the driver inactive; otherwise reset the render
      driver on the inactive-to-active edge, then will_render,
      render(setpoint), motorSet of its output, step, has_rendered. */
  function RenderPhase<R>(go: bool, m: Motion, rs: R, rd: Renderer<R>, inf: uint16): (r: (Motion, R, seq<Event>))
    requires go ==> m.sp.Some? && m.spindex < |m.sp.value.points|
    ensures !go ==> r == (m.(active := false), rs, [MotorSet(0)])
    ensures go ==> r.0 == StepMotion(m.(active := true), inf)
    ensures go ==> && |r.2| >= 4 && r.2[|r.2| - 2].MotorSet?
                   && r.2 == (if m.active then [] else [Reset]) +
                             [WillRender, Render(m.setpoint), MotorSet(r.2[|r.2| - 2].pwm), HasRendered]
    ensures go ==>
              var out := rd.render(rd.willRender(if m.active then rs else rd.reset(rs)), m.setpoint);
              r.2[|r.2| - 2].pwm == out.1 && r.1 == rd.hasRendered(out.0)
  {
    if !go then
      (m.(active := false), rs, [MotorSet(0)])
    else
      var (rs1, e) := if !m.active then (rd.reset(rs), [Reset]) else (rs, []);
      var rs2 := rd.willRender(rs1);
      var (rs3, pwm) := rd.render(rs2, m.setpoint);
      (StepMotion(m.(active := true), inf), rd.hasRendered(rs3),
       e + [WillRender, Render(m.setpoint), MotorSet(pwm), HasRendered])
  }

  /** One iteration of `driver_thread` after the timer's signal, with the
      render driver's state `rs` and methods `rd`. */
  function Tick<R>(m: Motion, rs: R, rd: Renderer<R>, inf: uint16): (r: (Motion, R, seq<Event>))
    requires Inv(m)
    ensures Inv(r.0)
    ensures r.0.state == m.state && r.0.running == m.running && r.0.capacity == m.capacity
  {
    var (go, m4, e) := Prepare(m, inf);
    var (m5, rs5, e5) := RenderPhase(go, m4, rs, rd, inf);
    (m5, rs5, e + e5)
  }

  // ---------------------------------------------------------------------
  // The as-written phases

  /** `motion_lld_activate_sp_after_delay` as written: loading the first
      setpoint of an empty batch reads past its end. */
  function ActivateAsWritten(m: Motion): (r: Outcome<(Motion, seq<Event>)>)
    ensures r.Failed? <==> m.nextsp.Some? && m.delay == 0 && |m.nextsp.value.points| == 0
    ensures r.Ok? ==> r.value == Activate(m)
  {
    if m.nextsp.Some? && m.delay == 0 && |m.nextsp.value.points| == 0 then Failed(OutOfBounds)
    else Ok(Activate(m))
  }

  /** `motion_lld_free_sp_if_empty` as written: `sp->n` is read with no
      check that there is a current batch. */
  function FreeSpIfEmptyAsWritten(m: Motion): (r: Outcome<(Motion, seq<Event>)>)
    ensures r.Failed? <==> m.sp.None?
    ensures r.Ok? ==> r.value == FreeSpIfEmpty(m)
  {
    if m.sp.None? then Failed(NullDeref) else Ok(FreeSpIfEmpty(m))
  }

  /** One iteration of `driver_thread` as written. */
  function TickAsWritten<R>(m: Motion, rs: R, rd: Renderer<R>, inf: uint16)
    : (r: Outcome<(Motion, R, seq<Event>)>)
    requires Inv(m)
    ensures r.Ok? ==> r.value == Tick(m, rs, rd, inf)
    ensures r.Failed? && r.fault == OutOfBounds ==>
              LoadNextSp(m).nextsp.Some? && |LoadNextSp(m).nextsp.value.points| == 0
    ensures r.Failed? && r.fault == NullDeref ==> Activate(LoadNextSp(m)).0.sp.None?
  {
    var m1 := LoadNextSp(m);
    match ActivateAsWritten(m1)
    case Failed(f) => Failed(f)
    case Ok(a) =>
      match FreeSpIfEmptyAsWritten(a.0)
      case Failed(f) => Failed(f)
      case Ok(_) => Ok(Tick(m, rs, rd, inf))
  }

  /** The as-written tick agrees with the guarded one exactly when a
      batch is current after activation and activation did not take an
      empty batch. */
  lemma TickAsWrittenAgrees<R>(m: Motion, rs: R, rd: Renderer<R>, inf: uint16)
    requires Inv(m)
    ensures var a := Activate(LoadNextSp(m)).0;
            var emptyActivation := LoadNextSp(m).nextsp.Some? && LoadNextSp(m).delay == 0
                                   && |LoadNextSp(m).nextsp.value.points| == 0;
            && (TickAsWritten(m, rs, rd, inf).Ok? <==> a.sp.Some? && !emptyActivation)
            && (TickAsWritten(m, rs, rd, inf).Ok? ==> TickAsWritten(m, rs, rd, inf).value == Tick(m, rs, rd, inf))
  {
  }

  /** With no batch current, held or queued, every tick of the as-written
      thread dereferences NULL; the guarded tick only stops the motor. */
  lemma IdleTickFaults<R>(m: Motion, rs: R, rd: Renderer<R>, inf: uint16)
    requires m.sp.None? && m.nextsp.None? && m.mbox == []
    ensures TickAsWritten(m, rs, rd, inf) == Failed(NullDeref)
    ensures Tick(m, rs, rd, inf).2 == [MotorSet(0)]
    ensures Tick(m, rs, rd, inf).0 == m.(active := false)
  {
  }

  /** An empty batch fetched with no delay makes the as-written thread
      read `setpoints[0]` of a zero-length array; the guarded tick frees
      it on the spot, along with the batch it replaced. */
  lemma EmptyBatchFaults<R>(m: Motion, rs: R, rd: Renderer<R>, inf: uint16, b: Batch)
    requires Inv(m) && m.nextsp.None? && |m.mbox| > 0 && m.mbox[0] == b
    requires b.delay == 0 && b.points == []
    ensures TickAsWritten(m, rs, rd, inf) == Failed(OutOfBounds)
    ensures Tick(m, rs, rd, inf).2 ==
              (if m.sp.Some? then [Free(m.sp.value.id)] else []) + [Free(b.id), MotorSet(0)]
    ensures Tick(m, rs, rd, inf).0.sp.None? && Tick(m, rs, rd, inf).0.nextsp.None?
  {
  }

  // ---------------------------------------------------------------------
  // Driver control

  /** The zero-initialised global `MOTION2` before `motionInit`: UNINIT,
      no thread, no configuration, no batches.  `capacity` and `live` are
      the mailbox size and pool contents the model tracks beside it. */
  function Zero(capacity: nat, live: set<nat>): Motion {
    Motion(Uninit, false, false, None, None, 0, 0, 0, 0, 0, false, [], capacity, live)
  }

  /** `motionObjectInit`: delay, duration, setpoint and `active` keep
      their values. */
  function ObjectInit(m: Motion): (r: Motion)
    ensures r.state == Stopped && r.sp.None? && r.nextsp.None? && r.spindex == 0 && r.loop == 0
    ensures r.delay == m.delay && r.duration == m.duration && r.setpoint == m.setpoint
    ensures r.mbox == m.mbox && r.live == m.live && r.active == m.active && r.running == m.running
    ensures r.configured == m.configured
  {
    m.(state := Stopped, sp := None, nextsp := None, spindex := 0, loop := 0)
  }

  /** `motionStart`: from STOP the configuration is stored and the thread
      created (and clears `active`); from any state the driver ends READY. */
  function Start(m: Motion): (r: Motion)
    ensures r.state == Ready
    ensures m.state == Stopped ==> r.configured && r.running && !r.active
    ensures m.state != Stopped ==> r == m.(state := Ready)
    ensures r.sp == m.sp && r.nextsp == m.nextsp && r.mbox == m.mbox && r.live == m.live
  {
    if m.state == Stopped then m.(state := Ready, configured := true, running := true, active := false)
    else m.(state := Ready)
  }

  /** `motionStop`: from READY the thread ends, the current batch is
      freed and the driver re-initialised; the held next batch is dropped
      without being freed. */
  function Stop(m: Motion): (r: (Motion, seq<Event>))
    ensures r.0.state == Stopped && r.0.configured == m.configured
    ensures m.state == Ready ==>
              && !r.0.running && r.0.sp.None? && r.0.nextsp.None?
              && r.1 == (if m.sp.Some? then [Free(m.sp.value.id)] else [])
              && r.0.live == (if m.sp.Some? then m.live - {m.sp.value.id} else m.live)
    ensures m.state != Ready ==> r == (m.(state := Stopped), [])
  {
    if m.state == Ready then
      var freed := if m.sp.Some? then m.live - {m.sp.value.id} else m.live;
      var e := if m.sp.Some? then [Free(m.sp.value.id)] else [];
      (ObjectInit(m.(running := false, active := false, live := freed)), e)
    else (m.(state := Stopped), [])
  }

  /** A batch held as next when the driver stops stays allocated with
      nothing referring to it. */
  lemma StopLeaksNext(m: Motion)
    requires m.state == Ready && m.nextsp.Some? && PoolInv(m)
    ensures m.nextsp.value.id in Stop(m).0.live
    ensures m.nextsp.value.id !in Ids(Stop(m).0)
  {
    var id := m.nextsp.value.id;
    var pre := if m.sp.Some? then [m.sp.value.id] else [];
    var q := IdsOf(m.mbox);
    assert IdsOf(Pending(m)) == [id] + q by {
      assert Pending(m) == [m.nextsp.value] + m.mbox;
    }
    assert Ids(m) == pre + [id] + q;
    assert Ids(m)[|pre|] == id;
    assert id in m.live;
    assert pre != [] ==> Ids(m)[0] == m.sp.value.id != id;
    var r := Stop(m).0;
    assert r.sp.None? && r.nextsp.None? && r.mbox == m.mbox;
    assert Ids(r) == q by {
      assert Pending(r) == m.mbox;
    }
    forall j | 0 <= j < |q|
      ensures q[j] != id
    {
      assert Ids(m)[|pre| + 1 + j] == q[j];
    }
  }

  /** `chMBPost` with `TIME_IMMEDIATE`: a full mailbox rejects. */
  function Post(m: Motion, b: Batch): (r: (Motion, int))
    ensures |m.mbox| < m.capacity ==> r == (m.(mbox := m.mbox + [b]), RdyOk)
    ensures |m.mbox| >= m.capacity ==> r == (m, RdyTimeout)
  {
    if |m.mbox| < m.capacity then (m.(mbox := m.mbox + [b]), RdyOk) else (m, RdyTimeout)
  }

  /** `motionSetpoint` as written: it refuses exactly when the driver is
      READY, and otherwise posts to `config.mbox`, which is NULL until the
      first `motionStart` from STOP. */
  function SetpointAsWritten(m: Motion, b: Batch): (r: Outcome<(Motion, int)>)
    ensures r.Failed? <==> m.state != Ready && !m.configured
    ensures r.Failed? ==> r.fault == NullDeref
    ensures m.state == Ready ==> r == Ok((m, RdyReset))
    ensures m.state != Ready && m.configured ==> r == Ok(Post(m, b))
  {
    if m.state == Ready then Ok((m, RdyReset))
    else if !m.configured then Failed(NullDeref)
    else Ok(Post(m, b))
  }

  /** `motionSetpoint` with the guard the header promises: queue while
      READY with a configured mailbox, answering RDY_OK or RDY_TIMEOUT if
      full; refuse otherwise. */
  function Setpoint(m: Motion, b: Batch): (r: (Motion, int))
    ensures r.1 == RdyOk <==> m.state == Ready && m.configured && |m.mbox| < m.capacity
    ensures r.1 == RdyOk ==> r.0 == m.(mbox := m.mbox + [b])
    ensures r.1 != RdyOk ==> r.0 == m
    ensures m.state == Ready && m.configured && |m.mbox| >= m.capacity ==> r.1 == RdyTimeout
    ensures m.state != Ready || !m.configured ==> r.1 == RdyReset
  {
    if m.state != Ready || !m.configured then (m, RdyReset) else Post(m, b)
  }

  /** The inverted guard: a running driver with room never accepts a
      batch, while a configured driver that is not READY queues a batch
      that waits for the next `motionStart`. */
  lemma InvertedGuard(m: Motion, b: Batch)
    requires |m.mbox| < m.capacity
    ensures m.state == Ready ==> SetpointAsWritten(m, b) == Ok((m, RdyReset))
    ensures m.state == Ready && m.configured ==> Setpoint(m, b).1 == RdyOk
    ensures m.state != Ready && m.configured ==>
              SetpointAsWritten(m, b) == Ok((m.(mbox := m.mbox + [b]), RdyOk))
    ensures m.state != Ready ==> Setpoint(m, b) == (m, RdyReset)
  {
  }

  /** A driver never started from STOP has no mailbox: as written,
      `motionSetpoint` dereferences NULL both before `motionInit` and after
      it, and only a start from STOP gives it a mailbox, which a later
      `motionStop` keeps.  The corrected call refuses all the unstarted
      ones. */
  lemma UnstartedSetpointFaults(capacity: nat, live: set<nat>, b: Batch)
    ensures SetpointAsWritten(Zero(capacity, live), b) == Failed(NullDeref)
    ensures SetpointAsWritten(ObjectInit(Zero(capacity, live)), b) == Failed(NullDeref)
    ensures SetpointAsWritten(Start(Zero(capacity, live)), b) == Ok((Start(Zero(capacity, live)), RdyReset))
    ensures Setpoint(Start(Zero(capacity, live)), b) == (Start(Zero(capacity, live)), RdyReset)
    ensures SetpointAsWritten(Stop(Start(ObjectInit(Zero(capacity, live)))).0, b).Ok?
  {
  }
}

=== FILE: motion_playback.dfy ===
/** What the motion driver renders over many ticks: each setpoint for
    max(duration, 1) ticks, in array order, the whole batch `loop` times,
    then a free; an infinite loop never frees; and a batch fetched with
    delay `d` becomes current `d` ticks after the tick that fetched it. */
module MotionPlayback {
  import opened Common
  import opened Motion
  import opened MotionPool

  // ---------------------------------------------------------------------
  // Traces over many ticks

  /** The setpoints handed to `rdRender`, in order. */
  function Renders(e: seq<Event>): (s: seq<uint16>)
    ensures |s| <= |e|
  {
    if e == [] then [] else (if e[0].Render? then [e[0].setpoint] else []) + Renders(e[1..])
  }

  lemma {:induction false} RendersAppend(a: seq<Event>, b: seq<Event>)
    ensures Renders(a + b) == Renders(a) + Renders(b)
    decreases |a|
  {
    if a == [] {
      assert a + b == b;
    } else {
      assert (a + b)[0] == a[0] && (a + b)[1..] == a[1..] + b;
      RendersAppend(a[1..], b);
    }
  }

  lemma {:induction false} NoRenders(e: seq<Event>)
    requires forall i :: 0 <= i < |e| ==> !e[i].Render?
    ensures Renders(e) == []
    decreases |e|
  {
    if e != [] {
      NoRenders(e[1..]);
    }
  }

  /** `k` consecutive ticks, their traces concatenated. */
  function Ticks<R>(m: Motion, rs: R, rd: Renderer<R>, inf: uint16, k: nat): (r: (Motion, R, seq<Event>))
    requires Inv(m)
    ensures Inv(r.0)
    ensures r.0.state == m.state && r.0.running == m.running && r.0.capacity == m.capacity
    decreases k
  {
    if k == 0 then (m, rs, [])
    else
      var u := Ticks(m, rs, rd, inf, k - 1);
      var t := Tick(u.0, u.1, rd, inf);
      (t.0, t.1, u.2 + t.2)
  }

  // ---------------------------------------------------------------------
  // The shape of one tick

  /** `Prepare` only ever frees. */
  lemma PrepareOnlyFrees(m: Motion, inf: uint16)
    requires Inv(m)
    ensures forall i :: 0 <= i < |Prepare(m, inf).2| ==> Prepare(m, inf).2[i].Free?
  {
    var m1 := LoadNextSp(m);
    var (m2, e2) := Activate(m1);
    var (m3, e3) := FreeSpIfEmpty(m2);
    var (go, m4, e4) := HasUpdate(m3, inf);
    assert forall i :: 0 <= i < |e2| ==> e2[i].Free?;
    assert forall i :: 0 <= i < |e3| ==> e3[i].Free?;
    assert forall i :: 0 <= i < |e4| ==> e4[i].Free?;
  }

  /** The render phase renders the current setpoint once when it runs
      and never frees. */
  lemma RenderPhaseEvents<R>(go: bool, m: Motion, rs: R, rd: Renderer<R>, inf: uint16)
    requires go ==> m.sp.Some? && m.spindex < |m.sp.value.points|
    ensures var q := RenderPhase(go, m, rs, rd, inf);
            && Renders(q.2) == (if go then [m.setpoint] else [])
            && FreesOf(q.2) == []
  {
    var q := RenderPhase(go, m, rs, rd, inf);
    assert forall i :: 0 <= i < |q.2| ==> !q.2[i].Free?;
    NoFrees(q.2);
    if go {
      var pre := if m.active then [] else [Reset];
      var post := [MotorSet(q.2[|q.2| - 2].pwm), HasRendered];
      assert q.2 == (pre + [WillRender]) + [Render(m.setpoint)] + post;
      NoRenders(pre + [WillRender]);
      NoRenders(post);
      RendersAppend(pre + [WillRender], [Render(m.setpoint)]);
      RendersAppend(pre + [WillRender] + [Render(m.setpoint)], post);
    } else {
      NoRenders(q.2);
    }
  }

  /** A tick is `Prepare`, then either `motorSet(0)` or one render
      followed by a step. */
  lemma TickShape<R>(m: Motion, rs: R, rd: Renderer<R>, inf: uint16)
    requires Inv(m)
    ensures var p := Prepare(m, inf);
            var t := Tick(m, rs, rd, inf);
            && Renders(p.2) == []
            && (!p.0 ==> t.0 == p.1.(active := false) && t.2 == p.2 + [MotorSet(0)])
            && (p.0 ==> && t.0 == StepMotion(p.1.(active := true), inf)
                        && Renders(t.2) == [p.1.setpoint]
                        && FreesOf(t.2) == FreesOf(p.2))
  {
    var p := Prepare(m, inf);
    var q := RenderPhase(p.0, p.1, rs, rd, inf);
    PrepareOnlyFrees(m, inf);
    NoRenders(p.2);
    RenderPhaseEvents(p.0, p.1, rs, rd, inf);
    RendersAppend(p.2, q.2);
    FreesOfAppend(p.2, q.2);
  }

  // ---------------------------------------------------------------------
  // Reference playback

  /** The ticks a setpoint with this duration is presented for. */
  function Span(d: uint16): nat {
    if d == 0 then 1 else d
  }

  function Repeat(x: uint16, k: nat): (r: seq<uint16>)
    ensures |r| == k
    ensures forall i :: 0 <= i < k ==> r[i] == x
  {
    seq(k, _ => x)
  }

  /** Setpoints `j` to the end of the batch, each for its span. */
  function Tail(pts: seq<Point>, j: nat): seq<uint16>
    requires j <= |pts|
    decreases |pts| - j
  {
    if j == |pts| then [] else Repeat(pts[j].setpoint, Span(pts[j].duration)) + Tail(pts, j + 1)
  }

  /** `n` passes over the batch. */
  function Loops(pts: seq<Point>, n: nat): seq<uint16> {
    if n == 0 then [] else Tail(pts, 0) + Loops(pts, n - 1)
  }

  /** The length of one pass: the sum of the spans. */
  function Total(pts: seq<Point>): nat {
    if pts == [] then 0 else Span(pts[0].duration) + Total(pts[1..])
  }

  lemma {:induction false} TailLength(pts: seq<Point>, j: nat)
    requires j <= |pts|
    ensures |Tail(pts, j)| == Total(pts[j..])
    decreases |pts| - j
  {
    if j < |pts| {
      TailLength(pts, j + 1);
      assert pts[j..][1..] == pts[j + 1..];
    }
  }

  /** `n` passes take `n` times the sum of the spans. */
  lemma {:induction false} LoopsLength(pts: seq<Point>, n: nat)
    ensures |Loops(pts, n)| == n * Total(pts)
  {
    if n > 0 {
      LoopsLength(pts, n - 1);
      TailLength(pts, 0);
      assert pts[0..] == pts;
    }
  }

  /** A batch is current with a finite loop count, nothing held or queued
      behind it, and the driver's setpoint is that of `spindex`. */
  predicate Playing(m: Motion, inf: uint16) {
    && m.sp.Some? && |m.sp.value.points| >= 1
    && m.spindex < |m.sp.value.points|
    && m.setpoint == m.sp.value.points[m.spindex].setpoint
    && m.loop < inf
    && m.nextsp.None? && m.mbox == []
  }

  /** The setpoints still to be rendered: the rest of the current one,
      the rest of this pass, then the remaining passes. */
  function Rem(m: Motion, inf: uint16): (s: seq<uint16>)
    requires Playing(m, inf)
    ensures s == [] <==> m.loop == 0
  {
    if m.loop == 0 then []
    else Repeat(m.setpoint, Span(m.duration)) + Tail(m.sp.value.points, m.spindex + 1)
         + Loops(m.sp.value.points, m.loop - 1)
  }

  /** One step consumes the head of the remaining playback. */
  lemma StepRem(m: Motion, inf: uint16)
    requires Playing(m, inf) && m.loop >= 1
    ensures var r := StepMotion(m.(active := true), inf);
            && Playing(r, inf) && r.sp == m.sp && r.active
            && Rem(r, inf) == Rem(m, inf)[1..]
  {
    var pts := m.sp.value.points;
    var r := StepMotion(m.(active := true), inf);
    var head := Repeat(m.setpoint, Span(m.duration));
    var rest := Tail(pts, m.spindex + 1) + Loops(pts, m.loop - 1);
    assert Rem(m, inf) == head + rest;
    assert Rem(m, inf)[1..] == head[1..] + rest;
    if m.duration > 1 {
      assert head[1..] == Repeat(r.setpoint, Span(r.duration));
    } else if m.spindex + 1 < |pts| {
      assert head[1..] == [];
      assert Tail(pts, r.spindex) == Repeat(r.setpoint, Span(r.duration)) + Tail(pts, r.spindex + 1);
    } else {
      assert head[1..] == [];
      assert Tail(pts, m.spindex + 1) == [];
      assert r.loop == m.loop - 1;
      if m.loop > 1 {
        assert Tail(pts, 0) == Repeat(r.setpoint, Span(r.duration)) + Tail(pts, 1);
        assert Loops(pts, m.loop - 1) == Tail(pts, 0) + Loops(pts, r.loop - 1);
      }
    }
  }

  /** While playing, `Prepare` does nothing. */
  lemma PreparePlaying(m: Motion, inf: uint16)
    requires Playing(m, inf) && m.loop >= 1
    ensures Inv(m) && Prepare(m, inf) == (true, m, [])
  {
  }

  /** One tick of a playing batch renders the head of the remaining
      playback, frees nothing, and leaves the rest. */
  lemma PlayTick<R>(m: Motion, rs: R, rd: Renderer<R>, inf: uint16)
    requires Playing(m, inf) && m.loop >= 1
    ensures Inv(m)
    ensures var t := Tick(m, rs, rd, inf);
            && Renders(t.2) == [Rem(m, inf)[0]] && FreesOf(t.2) == []
            && Playing(t.0, inf) && t.0.sp == m.sp
            && Rem(t.0, inf) == Rem(m, inf)[1..]
  {
    PreparePlaying(m, inf);
    TickShape(m, rs, rd, inf);
    StepRem(m, inf);
  }

  /** One more tick of a playing batch extends the rendered prefix of a
      playback `all` by one setpoint and frees nothing. */
  lemma PlayExtend<R>(m: Motion, rs: R, rd: Renderer<R>, inf: uint16, e: seq<Event>,
                      all: seq<uint16>, j: nat)
    requires Playing(m, inf) && 1 <= j <= |all|
    requires Rem(m, inf) == all[j - 1..] && Renders(e) == all[..j - 1]
    ensures Inv(m)
    ensures var t := Tick(m, rs, rd, inf);
            && Playing(t.0, inf) && t.0.sp == m.sp
            && Rem(t.0, inf) == all[j..]
            && Renders(e + t.2) == all[..j]
            && FreesOf(e + t.2) == FreesOf(e)
  {
    assert Rem(m, inf) != [];
    PlayTick(m, rs, rd, inf);
    var t := Tick(m, rs, rd, inf);
    RendersAppend(e, t.2);
    FreesOfAppend(e, t.2);
    assert all[..j] == all[..j - 1] + [all[j - 1]];
    assert FreesOf(e) + [] == FreesOf(e);
  }

  /** The first `j` ticks of a playing batch render the first `j`
      remaining setpoints and free nothing. */
  lemma PlayPrefix<R>(m: Motion, rs: R, rd: Renderer<R>, inf: uint16, j: nat)
    requires Playing(m, inf) && j <= |Rem(m, inf)|
    ensures Inv(m)
    ensures var u := Ticks(m, rs, rd, inf, j);
            && Playing(u.0, inf) && u.0.sp == m.sp
            && Rem(u.0, inf) == Rem(m, inf)[j..]
            && Renders(u.2) == Rem(m, inf)[..j]
            && FreesOf(u.2) == []
    decreases j
  {
    if j > 0 {
      PlayPrefix(m, rs, rd, inf, j - 1);
      var u := Ticks(m, rs, rd, inf, j - 1);
      PlayExtend(u.0, u.1, rd, inf, u.2, Rem(m, inf), j);
    } else {
      assert Rem(m, inf)[0..] == Rem(m, inf);
    }
  }

  /** A batch whose loops are spent is freed by the next tick, which only
      stops the motor. */
  lemma DoneTick<R>(m: Motion, rs: R, rd: Renderer<R>, inf: uint16)
    requires Playing(m, inf) && m.loop == 0
    ensures Inv(m)
    ensures var t := Tick(m, rs, rd, inf);
            && t.2 == [Free(m.sp.value.id), MotorSet(0)]
            && t.0.sp.None? && !t.0.active
  {
  }

  // ---------------------------------------------------------------------
  // Activation and a whole batch

  /** The frees of `motion_lld_free_sp` at activation. */
  function Old(m: Motion): seq<Event> {
    if m.sp.Some? then [Free(m.sp.value.id)] else []
  }

  /** Activating a batch with setpoints: the old batch is freed whatever
      its progress, the loop count reloaded, and setpoint 0 loaded. */
  lemma ActivatePrepare(m: Motion, b: Batch, inf: uint16)
    requires Inv(m) && LoadNextSp(m).nextsp == Some(b) && LoadNextSp(m).delay == 0
    requires |b.points| >= 1
    ensures var p := Prepare(m, inf);
            && (b.loop >= 1 || b.loop == inf ==> p.0 && p.2 == Old(m))
            && (b.loop == 0 && inf != 0 ==> !p.0 && p.2 == Old(m) + [Free(b.id)] && p.1.sp.None?)
            && p.1.nextsp.None? && p.1.mbox == LoadNextSp(m).mbox
            && (p.0 ==> && p.1.sp == Some(b) && p.1.spindex == 0 && p.1.loop == b.loop
                        && p.1.setpoint == b.points[0].setpoint && p.1.duration == b.points[0].duration)
  {
  }

  /** Right after activation the remaining playback is `loop` passes. */
  lemma ActivateRem(m: Motion, b: Batch, inf: uint16)
    requires Inv(m) && m.nextsp == Some(b) && m.delay == 0 && m.mbox == []
    requires |b.points| >= 1 && 1 <= b.loop < inf
    ensures Playing(Prepare(m, inf).1, inf)
    ensures Rem(Prepare(m, inf).1, inf) == Loops(b.points, b.loop)
  {
    ActivatePrepare(m, b, inf);
    var p := Prepare(m, inf).1;
    assert Tail(b.points, 0) == Repeat(p.setpoint, Span(p.duration)) + Tail(b.points, 1);
  }

  /** The activating tick starts the playback of `loop` passes. */
  lemma BatchFirstTick<R>(m: Motion, b: Batch, rs: R, rd: Renderer<R>, inf: uint16)
    requires Inv(m) && m.nextsp == Some(b) && m.delay == 0 && m.mbox == []
    requires |b.points| >= 1 && 1 <= b.loop < inf
    ensures var t := Tick(m, rs, rd, inf);
            var all := Loops(b.points, b.loop);
            && |all| >= 1
            && Playing(t.0, inf) && t.0.sp == Some(b)
            && Rem(t.0, inf) == all[1..]
            && Renders(t.2) == all[..1]
            && FreesOf(t.2) == FreesOf(Old(m))
  {
    ActivatePrepare(m, b, inf);
    ActivateRem(m, b, inf);
    var p := Prepare(m, inf);
    TickShape(m, rs, rd, inf);
    StepRem(p.1, inf);
    var all := Loops(b.points, b.loop);
    assert all[..1] == [p.1.setpoint];
  }

  lemma BatchOneTick<R>(m: Motion, b: Batch, rs: R, rd: Renderer<R>, inf: uint16)
    requires Inv(m) && m.nextsp == Some(b) && m.delay == 0 && m.mbox == []
    requires |b.points| >= 1 && 1 <= b.loop < inf
    ensures var u := Ticks(m, rs, rd, inf, 1);
            var all := Loops(b.points, b.loop);
            && Playing(u.0, inf) && u.0.sp == Some(b)
            && Rem(u.0, inf) == all[1..]
            && Renders(u.2) == all[..1]
            && FreesOf(u.2) == FreesOf(Old(m))
  {
    BatchFirstTick(m, b, rs, rd, inf);
    var t := Tick(m, rs, rd, inf);
    assert Ticks(m, rs, rd, inf, 0) == (m, rs, []);
    assert [] + t.2 == t.2;
  }

  /** The first `j` ticks from activation render the first `j` setpoints
      of the batch's `loop` passes and free only the batch replaced. */
  lemma BatchPrefix<R>(m: Motion, b: Batch, rs: R, rd: Renderer<R>, inf: uint16, j: nat)
    requires Inv(m) && m.nextsp == Some(b) && m.delay == 0 && m.mbox == []
    requires |b.points| >= 1 && 1 <= b.loop < inf
    requires 1 <= j <= |Loops(b.points, b.loop)|
    ensures var u := Ticks(m, rs, rd, inf, j);
            && Playing(u.0, inf) && u.0.sp == Some(b)
            && Rem(u.0, inf) == Loops(b.points, b.loop)[j..]
            && Renders(u.2) == Loops(b.points, b.loop)[..j]
            && FreesOf(u.2) == FreesOf(Old(m))
    decreases j
  {
    var all := Loops(b.points, b.loop);
    if j == 1 {
      BatchOneTick(m, b, rs, rd, inf);
    } else {
      BatchPrefix(m, b, rs, rd, inf, j - 1);
      var u := Ticks(m, rs, rd, inf, j - 1);
      PlayExtend(u.0, u.1, rd, inf, u.2, all, j);
    }
  }

  /** A batch with `n` setpoints and `1 <= loop < inf`, activated with no
      other batch behind it, is rendered for exactly `loop` times the sum
      of max(duration, 1) ticks, setpoint by setpoint in array order and
      pass after pass; the only free on the way is the batch it replaced,
      and the next tick frees it and stops the motor. */
  lemma {:induction false} BatchPlaysOut<R>(m: Motion, b: Batch, rs: R, rd: Renderer<R>, inf: uint16)
    requires Inv(m) && m.nextsp == Some(b) && m.delay == 0 && m.mbox == []
    requires |b.points| >= 1 && 1 <= b.loop < inf
    ensures var u := Ticks(m, rs, rd, inf, b.loop * Total(b.points));
            && Renders(u.2) == Loops(b.points, b.loop)
            && |Renders(u.2)| == b.loop * Total(b.points)
            && FreesOf(u.2) == FreesOf(Old(m))
            && Tick(u.0, u.1, rd, inf).2 == [Free(b.id), MotorSet(0)]
  {
    var K := b.loop * Total(b.points);
    var all := Loops(b.points, b.loop);
    LoopsLength(b.points, b.loop);
    assert Tail(b.points, 0) != [];
    BatchPrefix(m, b, rs, rd, inf, K);
    var v := Ticks(m, rs, rd, inf, K);
    assert all[..K] == all;
    assert Rem(v.0, inf) == [];
    DoneTick(v.0, v.1, rd, inf);
  }

  /** A batch activated with loop count 0 is freed in the same tick and
      never rendered. */
  lemma ZeroLoopFreesAtOnce<R>(m: Motion, b: Batch, rs: R, rd: Renderer<R>, inf: uint16)
    requires Inv(m) && m.nextsp == Some(b) && m.delay == 0 && |b.points| >= 1
    requires b.loop == 0 && inf != 0
    ensures Tick(m, rs, rd, inf).2 == Old(m) + [Free(b.id), MotorSet(0)]
    ensures Tick(m, rs, rd, inf).0.sp.None?
  {
    ActivatePrepare(m, b, inf);
    TickShape(m, rs, rd, inf);
  }

  // ---------------------------------------------------------------------
  // Infinite loops

  /** A batch current with the infinite loop marker and nothing behind
      it. */
  predicate Looping(m: Motion, inf: uint16) {
    && m.sp.Some? && |m.sp.value.points| >= 1
    && m.spindex < |m.sp.value.points|
    && m.loop == inf
    && m.nextsp.None? && m.mbox == []
  }

  lemma LoopTick<R>(m: Motion, rs: R, rd: Renderer<R>, inf: uint16)
    requires Looping(m, inf)
    ensures Inv(m)
    ensures var t := Tick(m, rs, rd, inf);
            && Looping(t.0, inf) && t.0.sp == m.sp
            && FreesOf(t.2) == [] && |Renders(t.2)| == 1
  {
    assert Prepare(m, inf) == (true, m, []);
    TickShape(m, rs, rd, inf);
  }

  /** With the infinite marker the batch renders on every tick and is
      never freed. */
  lemma InfiniteNeverFrees<R>(m: Motion, rs: R, rd: Renderer<R>, inf: uint16, k: nat)
    requires Looping(m, inf)
    ensures Inv(m)
    ensures var u := Ticks(m, rs, rd, inf, k);
            && Looping(u.0, inf) && u.0.sp == m.sp
            && FreesOf(u.2) == [] && |Renders(u.2)| == k
    decreases k
  {
    if k > 0 {
      InfiniteNeverFrees(m, rs, rd, inf, k - 1);
      var u := Ticks(m, rs, rd, inf, k - 1);
      LoopTick(u.0, u.1, rd, inf);
      var t := Tick(u.0, u.1, rd, inf);
      RendersAppend(u.2, t.2);
      FreesOfAppend(u.2, t.2);
    }
  }

  // ---------------------------------------------------------------------
  // Delay

  /** While a held batch's delay is positive a tick only counts it down. */
  lemma CountdownTick<R>(m: Motion, rs: R, rd: Renderer<R>, inf: uint16)
    requires Inv(m) && LoadNextSp(m).nextsp.Some? && LoadNextSp(m).delay > 0
    ensures var t := Tick(m, rs, rd, inf);
            && t.0.nextsp == LoadNextSp(m).nextsp && t.0.delay == LoadNextSp(m).delay - 1
            && t.0.mbox == LoadNextSp(m).mbox
  {
    TickShape(m, rs, rd, inf);
  }

  /** The activating tick: batch `b` becomes current and its setpoint 0 is
      the one rendered. */
  lemma ActivationTick<R>(m: Motion, b: Batch, rs: R, rd: Renderer<R>, inf: uint16)
    requires Inv(m) && LoadNextSp(m).nextsp == Some(b) && LoadNextSp(m).delay == 0
    requires |b.points| >= 1
    requires b.loop >= 1 || b.loop == inf
    ensures var t := Tick(m, rs, rd, inf);
            && t.0.sp == Some(b) && t.0.nextsp.None?
            && Renders(t.2) == [b.points[0].setpoint]
            && FreesOf(t.2) == FreesOf(Old(m))
  {
    ActivatePrepare(m, b, inf);
    TickShape(m, rs, rd, inf);
  }

  /** A batch fetched with delay `d` is held through tick `d`, its delay
      counting down. */
  lemma FetchCountdown<R>(m: Motion, b: Batch, rs: R, rd: Renderer<R>, inf: uint16, j: nat)
    requires Inv(m) && m.nextsp.None? && |m.mbox| >= 1 && m.mbox[0] == b
    requires 1 <= j <= b.delay
    ensures Ticks(m, rs, rd, inf, j).0.nextsp == Some(b)
    ensures Ticks(m, rs, rd, inf, j).0.delay as int == b.delay as int - j
    decreases j
  {
    if j == 1 {
      assert Ticks(m, rs, rd, inf, 0) == (m, rs, []);
      CountdownTick(m, rs, rd, inf);
    } else {
      FetchCountdown(m, b, rs, rd, inf, j - 1);
      var u := Ticks(m, rs, rd, inf, j - 1);
      CountdownTick(u.0, u.1, rd, inf);
    }
  }

  /** A batch fetched by the first tick with delay `d` is held, counting
      down, through tick `d`, and becomes current on tick `d + 1`, which
      renders its setpoint 0. */
  lemma DelayedActivation<R>(m: Motion, b: Batch, rs: R, rd: Renderer<R>, inf: uint16)
    requires Inv(m) && m.nextsp.None? && |m.mbox| >= 1 && m.mbox[0] == b
    requires |b.points| >= 1 && (b.loop >= 1 || b.loop == inf)
    ensures forall k :: 1 <= k <= b.delay ==>
              Ticks(m, rs, rd, inf, k).0.nextsp == Some(b)
              && Ticks(m, rs, rd, inf, k).0.delay as int == b.delay as int - k
    ensures var u := Ticks(m, rs, rd, inf, b.delay + 1);
            && u.0.sp == Some(b) && u.0.nextsp.None?
            && |Renders(u.2)| >= 1 && Renders(u.2)[|Renders(u.2)| - 1] == b.points[0].setpoint
  {
    forall k | 1 <= k <= b.delay
      ensures Ticks(m, rs, rd, inf, k).0.nextsp == Some(b)
              && Ticks(m, rs, rd, inf, k).0.delay as int == b.delay as int - k
    {
      FetchCountdown(m, b, rs, rd, inf, k);
    }
    ActivatesAfterDelay(m, b, rs, rd, inf);
  }

  /** Tick `d + 1` activates the batch fetched with delay `d`. */
  lemma ActivatesAfterDelay<R>(m: Motion, b: Batch, rs: R, rd: Renderer<R>, inf: uint16)
    requires Inv(m) && m.nextsp.None? && |m.mbox| >= 1 && m.mbox[0] == b
    requires |b.points| >= 1 && (b.loop >= 1 || b.loop == inf)
    ensures var u := Ticks(m, rs, rd, inf, b.delay + 1);
            && u.0.sp == Some(b) && u.0.nextsp.None?
            && |Renders(u.2)| >= 1 && Renders(u.2)[|Renders(u.2)| - 1] == b.points[0].setpoint
  {
    var d: nat := b.delay;
    if d == 0 {
      assert Ticks(m, rs, rd, inf, 0) == (m, rs, []);
    } else {
      FetchCountdown(m, b, rs, rd, inf, d);
    }
    ActivateFrom(m, b, rs, rd, inf, d);
  }

  /** When batch `b` is due after `d` ticks, tick `d + 1` makes it current
      and renders its setpoint 0. */
  lemma ActivateFrom<R>(m: Motion, b: Batch, rs: R, rd: Renderer<R>, inf: uint16, d: nat)
    requires Inv(m) && |b.points| >= 1 && (b.loop >= 1 || b.loop == inf)
    requires var u := Ticks(m, rs, rd, inf, d);
             LoadNextSp(u.0).nextsp == Some(b) && LoadNextSp(u.0).delay == 0
    ensures var u := Ticks(m, rs, rd, inf, d + 1);
            && u.0.sp == Some(b) && u.0.nextsp.None?
            && |Renders(u.2)| >= 1 && Renders(u.2)[|Renders(u.2)| - 1] == b.points[0].setpoint
  {
    var u := Ticks(m, rs, rd, inf, d);
    ActivationTick(u.0, b, u.1, rd, inf);
    var t := Tick(u.0, u.1, rd, inf);
    RendersAppend(u.2, t.2);
  }
}

=== FILE: motion_pool.dfy ===
/** Memory-pool discipline of the motion driver: every tick frees, in
    order, a prefix of the blocks the driver refers to (current, next,
    queued), frees each such block exactly once, and keeps referring only
    to allocated blocks. */
module MotionPool {
  import opened Common
  import opened Motion

  /** The ids freed by a trace, in order. */
  function FreesOf(e: seq<Event>): (f: seq<nat>)
    ensures |f| <= |e|
  {
    if e == [] then [] else (if e[0].Free? then [e[0].id] else []) + FreesOf(e[1..])
  }

  function Elems(f: seq<nat>): set<nat> {
    set x | x in f
  }

  lemma {:induction false} FreesOfAppend(a: seq<Event>, b: seq<Event>)
    ensures FreesOf(a + b) == FreesOf(a) + FreesOf(b)
    decreases |a|
  {
    if a == [] {
      assert a + b == b;
    } else {
      assert (a + b)[0] == a[0] && (a + b)[1..] == a[1..] + b;
      FreesOfAppend(a[1..], b);
    }
  }

  lemma {:induction false} NoFrees(e: seq<Event>)
    requires forall i :: 0 <= i < |e| ==> !e[i].Free?
    ensures FreesOf(e) == []
    decreases |e|
  {
    if e != [] {
      NoFrees(e[1..]);
    }
  }

  /** Going from `m` to `r` with trace `e` drops the first blocks `m`
      refers to, frees exactly those, in the order referred to, and
      touches no other block. */
  predicate Drops(m: Motion, r: Motion, e: seq<Event>) {
    && Prefix(Ids(m), Ids(r), FreesOf(e))
    && r.live == m.live - Elems(FreesOf(e))
  }

  /** `f` is the head of `s` and `t` the rest. */
  predicate Prefix(s: seq<nat>, t: seq<nat>, f: seq<nat>) {
    s == f + t
  }

  lemma PrefixTrans(s: seq<nat>, t: seq<nat>, u: seq<nat>, f1: seq<nat>, f2: seq<nat>)
    requires Prefix(s, t, f1) && Prefix(t, u, f2)
    ensures Prefix(s, u, f1 + f2)
  {
    assert s == f1 + (f2 + u) == (f1 + f2) + u;
  }

  /** Dropping a head from a sequence of distinct allocated ids leaves
      one, and the head was allocated, distinct, and apart from the rest. */
  lemma PrefixDistinct(s: seq<nat>, t: seq<nat>, f: seq<nat>, live: set<nat>)
    requires Prefix(s, t, f) && Distinct(s)
    requires forall i :: 0 <= i < |s| ==> s[i] in live
    ensures Distinct(t) && Distinct(f)
    ensures forall i :: 0 <= i < |t| ==> t[i] in live - Elems(f)
    ensures Elems(f) <= live && Elems(f) !! Elems(t)
  {
    var k := |f|;
    forall i | 0 <= i < |t|
      ensures t[i] in live - Elems(f)
    {
      assert t[i] == s[k + i];
      forall j | 0 <= j < k ensures f[j] != t[i] {
        assert f[j] == s[j];
      }
    }
    forall i, j | 0 <= i < j < |t| ensures t[i] != t[j] {
      assert t[i] == s[k + i] && t[j] == s[k + j];
    }
    forall i, j | 0 <= i < j < k ensures f[i] != f[j] {
      assert f[i] == s[i] && f[j] == s[j];
    }
    forall x | x in Elems(f) ensures x in live {
      var j :| 0 <= j < k && f[j] == x;
      assert s[j] == x;
    }
  }

  lemma DropsNothing(m: Motion, r: Motion, e: seq<Event>)
    requires Ids(r) == Ids(m) && r.live == m.live
    requires FreesOf(e) == []
    ensures Drops(m, r, e)
  {
    assert Ids(m) == [] + Ids(r);
  }

  lemma DropsTrans(a: Motion, b: Motion, c: Motion, e1: seq<Event>, e2: seq<Event>)
    requires Drops(a, b, e1) && Drops(b, c, e2)
    ensures Drops(a, c, e1 + e2)
  {
    FreesOfAppend(e1, e2);
    var f1, f2 := FreesOf(e1), FreesOf(e2);
    PrefixTrans(Ids(a), Ids(b), Ids(c), f1, f2);
    assert Elems(f1 + f2) == Elems(f1) + Elems(f2);
  }

  /** A drop keeps the pool invariant, and what it frees was allocated,
      is freed once, and is no longer referred to. */
  lemma DropsKeepPool(m: Motion, r: Motion, e: seq<Event>)
    requires PoolInv(m) && Drops(m, r, e)
    ensures PoolInv(r)
    ensures Distinct(FreesOf(e))
    ensures Elems(FreesOf(e)) <= m.live
    ensures Elems(FreesOf(e)) !! Elems(Ids(r))
  {
    PrefixDistinct(Ids(m), Ids(r), FreesOf(e), m.live);
  }

  lemma IdsOfCons(b: Batch, bs: seq<Batch>)
    ensures IdsOf([b] + bs) == [b.id] + IdsOf(bs)
  {
  }

  // ---------------------------------------------------------------------
  // One lemma per phase

  lemma FreeSpDrops(m: Motion)
    ensures Drops(m, FreeSp(m).0, FreeSp(m).1)
  {
    if m.sp.None? {
      DropsNothing(m, FreeSp(m).0, FreeSp(m).1);
    } else {
      var r := FreeSp(m).0;
      assert FreesOf(FreeSp(m).1) == [m.sp.value.id];
      assert Ids(m) == [m.sp.value.id] + Ids(r);
    }
  }

  lemma LoadNextSpDrops(m: Motion)
    ensures Drops(m, LoadNextSp(m), [])
  {
    assert Ids(m) == [] + Ids(LoadNextSp(m));
  }

  lemma ActivateDrops(m: Motion)
    ensures Drops(m, Activate(m).0, Activate(m).1)
  {
    var (r, e) := Activate(m);
    if m.nextsp.None? || m.delay > 0 {
      DropsNothing(m, r, e);
    } else {
      var m1 := FreeSp(m).0;
      var b := m.nextsp.value;
      FreeSpDrops(m);
      IdsOfCons(b, m.mbox);
      assert Pending(m1) == [b] + m.mbox && Pending(r) == m.mbox;
      assert Ids(m1) == [] + IdsOf([b] + m.mbox);
      assert Ids(r) == [b.id] + IdsOf(m.mbox);
      DropsNothing(m1, r, []);
      DropsTrans(m, m1, r, e, []);
      assert e + [] == e;
    }
  }

  lemma FreeSpIfEmptyDrops(m: Motion)
    ensures Drops(m, FreeSpIfEmpty(m).0, FreeSpIfEmpty(m).1)
  {
    if m.sp.Some? && |m.sp.value.points| == 0 {
      FreeSpDrops(m);
    } else {
      DropsNothing(m, m, []);
    }
  }

  lemma HasUpdateDrops(m: Motion, inf: uint16)
    ensures Drops(m, HasUpdate(m, inf).1, HasUpdate(m, inf).2)
  {
    if HasUpdate(m, inf).0 {
      DropsNothing(m, m, []);
    } else {
      FreeSpDrops(m);
    }
  }

  lemma PrepareDrops(m: Motion, inf: uint16)
    requires Inv(m)
    ensures Drops(m, Prepare(m, inf).1, Prepare(m, inf).2)
  {
    var m1 := LoadNextSp(m);
    var (m2, e2) := Activate(m1);
    var (m3, e3) := FreeSpIfEmpty(m2);
    var (go, m4, e4) := HasUpdate(m3, inf);
    LoadNextSpDrops(m);
    ActivateDrops(m1);
    FreeSpIfEmptyDrops(m2);
    HasUpdateDrops(m3, inf);
    DropsTrans(m, m1, m2, [], e2);
    assert [] + e2 == e2;
    DropsTrans(m, m2, m3, e2, e3);
    DropsTrans(m, m3, m4, e2 + e3, e4);
  }

  /** After `Prepare` a tick only renders: it refers to the same blocks
      and frees nothing more. */
  lemma TickAfterPrepare<R>(m: Motion, rs: R, rd: Renderer<R>, inf: uint16)
    requires Inv(m)
    ensures var p := Prepare(m, inf);
            var r := Tick(m, rs, rd, inf);
            && Ids(r.0) == Ids(p.1) && r.0.live == p.1.live
            && |p.2| <= |r.2| && r.2 == p.2 + r.2[|p.2|..]
            && forall i :: |p.2| <= i < |r.2| ==> !r.2[i].Free?
  {
    var p := Prepare(m, inf);
    var q := RenderPhase(p.0, p.1, rs, rd, inf);
    var r := Tick(m, rs, rd, inf);
    assert r.2 == p.2 + q.2;
    assert r.2[|p.2|..] == q.2;
    assert forall i :: 0 <= i < |q.2| ==> !q.2[i].Free?;
  }

  /** Pool discipline of one tick: the frees of its trace are the first
      blocks the driver referred to, each allocated and freed once, none
      referred to afterwards, and the pool invariant holds again. */
  lemma {:induction false} TickPool<R>(m: Motion, rs: R, rd: Renderer<R>, inf: uint16)
    requires Inv(m) && PoolInv(m)
    ensures var r := Tick(m, rs, rd, inf);
            && Drops(m, r.0, r.2)
            && PoolInv(r.0)
            && Distinct(FreesOf(r.2))
            && Elems(FreesOf(r.2)) <= m.live
            && Elems(FreesOf(r.2)) !! Elems(Ids(r.0))
  {
    var (go, m4, e) := Prepare(m, inf);
    PrepareDrops(m, inf);
    TickAfterPrepare(m, rs, rd, inf);
    var r := Tick(m, rs, rd, inf);
    var tail := r.2[|e|..];
    assert forall i :: 0 <= i < |tail| ==> !tail[i].Free? by {
      forall i | 0 <= i < |tail| ensures !tail[i].Free? {
        assert tail[i] == r.2[|e| + i];
      }
    }
    NoFrees(tail);
    DropsNothing(m4, r.0, tail);
    DropsTrans(m, m4, r.0, e, tail);
    DropsKeepPool(m, r.0, r.2);
  }
}

=== FILE: motion_scenarios.dfy ===
/** The two canned batches the actuator's motion self-test posts, run
    through the motion driver, and the pulse-step renderer plugged into
    the driver's render interface. */
module MotionScenarios {
  import opened Common
  import opened Motion
  import opened MotionPool
  import opened MotionPlayback
  import PulseStep

  /** A pulse-step setpoint word: pulse duration in the low byte, step in
      the high byte. */
  function PsWord(pulse: uint8, step: uint8): (w: uint16)
    ensures PulseStep.PulseOf(w) == pulse && Hi(w) == step
  {
    pulse + 0x100 * step
  }

  /** The first batch: no delay, the infinite loop marker, one setpoint
      whose duration is also the marker; 63 steps after a 10-tick pulse on
      the purr board, 15488 otherwise. */
  function Batch1(id: nat, inf: uint16, purr: bool): Batch {
    Batch(id, 0, inf, [MsgType.Point(inf, if purr then PsWord(10, 63) else 15488)])
  }

  /** The delay of the second batch. */
  const Batch2Delay: uint16 := 2000

  /** The second batch: delay 2000, four loops over two setpoints lasting
      1000 and 2000 ticks. */
  function Batch2(id: nat, purr: bool): Batch {
    Batch(id, Batch2Delay, 4,
          [MsgType.Point(1000, if purr then PsWord(10, 10) else 1500),
           MsgType.Point(2000, if purr then PsWord(10, 80) else 10000)])
  }

  /** Index `i` of `n` passes is index `i mod` pass length of one pass. */
  lemma {:induction false} LoopsAt(pts: seq<Point>, n: nat, q: nat, x: nat)
    requires q < n && x < |Tail(pts, 0)|
    ensures q * |Tail(pts, 0)| + x < |Loops(pts, n)|
    ensures Loops(pts, n)[q * |Tail(pts, 0)| + x] == Tail(pts, 0)[x]
  {
    var t := Tail(pts, 0);
    assert Loops(pts, n) == t + Loops(pts, n - 1);
    if q > 0 {
      LoopsAt(pts, n - 1, q - 1, x);
      assert q * |t| + x == |t| + ((q - 1) * |t| + x);
    }
  }

  /** One pass of the second batch. */
  lemma Batch2Pass(id: nat, purr: bool, x: nat)
    requires x < 3000
    ensures |Tail(Batch2(id, purr).points, 0)| == 3000
    ensures var b := Batch2(id, purr);
            Tail(b.points, 0)[x] == (if x < 1000 then b.points[0].setpoint else b.points[1].setpoint)
  {
    var b := Batch2(id, purr);
    assert Tail(b.points, 2) == [];
    assert Tail(b.points, 0) == Repeat(b.points[0].setpoint, 1000) + Repeat(b.points[1].setpoint, 2000) + [];
  }

  /** Posted alone, the second batch is fetched on tick 1, held as next
      through tick 2000, and current on tick 2001, rendering its first
      setpoint. */
  lemma Batch2Held<R>(m: Motion, id: nat, purr: bool, rs: R, rd: Renderer<R>, inf: uint16)
    requires Inv(m) && m.nextsp.None? && m.mbox == [Batch2(id, purr)]
    ensures forall k :: 1 <= k <= Batch2Delay ==> Ticks(m, rs, rd, inf, k).0.nextsp == Some(Batch2(id, purr))
    ensures var u := Ticks(m, rs, rd, inf, Batch2Delay as nat + 1);
            && u.0.sp == Some(Batch2(id, purr))
            && |Renders(u.2)| >= 1
            && Renders(u.2)[|Renders(u.2)| - 1] == Batch2(id, purr).points[0].setpoint
  {
    DelayedActivation(m, Batch2(id, purr), rs, rd, inf);
  }

  /** Ticks the second batch plays for: four passes of 3000. */
  const Batch2Ticks: nat := 12000

  /** The motor output of a tick that renders nothing. */
  const Stopped: Event := MotorSet(0)

  /** The setpoint the second batch renders on its `i`-th tick: 1000 ticks
      of the first setpoint, then 2000 of the second, once per pass. */
  function Batch2Output(purr: bool, i: nat): uint16 {
    if i % 3000 < 1000 then (if purr then PsWord(10, 10) else 1500)
    else (if purr then PsWord(10, 80) else 10000)
  }

  /** Once current with nothing behind it, the second batch renders 12000
      times: 1000 ticks of its first setpoint and 2000 of its second, four
      times over; then it is freed. */
  lemma Batch2Plays<R>(m: Motion, id: nat, purr: bool, rs: R, rd: Renderer<R>, inf: uint16)
    requires Inv(m) && m.nextsp == Some(Batch2(id, purr)) && m.delay == 0 && m.mbox == []
    requires inf > 4
    ensures var u := Ticks(m, rs, rd, inf, Batch2Ticks);
            var s := Renders(u.2);
            && |s| == Batch2Ticks
            && (forall i :: 0 <= i < Batch2Ticks ==> s[i] == Batch2Output(purr, i))
            && Tick(u.0, u.1, rd, inf).2 == [Free(id), Stopped]
  {
    var b := Batch2(id, purr);
    Batch2Loops(id, purr);
    BatchPlaysOut(m, b, rs, rd, inf);
  }

  /** The four passes of the second batch. */
  lemma Batch2Loops(id: nat, purr: bool)
    ensures var b := Batch2(id, purr);
            && b.loop * Total(b.points) == 12000
            && |Loops(b.points, 4)| == 12000
            && forall i :: 0 <= i < 12000 ==> Loops(b.points, 4)[i] == Batch2Output(purr, i)
  {
    var b := Batch2(id, purr);
    assert Total(b.points) == 3000 by {
      assert b.points[1..][1..] == [];
      assert Total(b.points[1..]) == 2000 + Total(b.points[1..][1..]);
    }
    LoopsLength(b.points, 4);
    forall i | 0 <= i < 12000
      ensures Loops(b.points, 4)[i] == Batch2Output(purr, i)
    {
      Batch2Pass(id, purr, i % 3000);
      LoopsAt(b.points, 4, i / 3000, i % 3000);
    }
  }

  /** The first batch, once current, renders on every tick and is never
      freed, however long the driver runs. */
  lemma Batch1Forever<R>(m: Motion, id: nat, purr: bool, rs: R, rd: Renderer<R>, inf: uint16, k: nat)
    requires Inv(m) && m.nextsp == Some(Batch1(id, inf, purr)) && m.delay == 0 && m.mbox == []
    ensures var t := Tick(m, rs, rd, inf);
            && t.0.sp == Some(Batch1(id, inf, purr))
            && var u := Ticks(t.0, t.1, rd, inf, k);
               && u.0.sp == Some(Batch1(id, inf, purr))
               && FreesOf(u.2) == [] && |Renders(u.2)| == k
  {
    var b := Batch1(id, inf, purr);
    ActivationTick(m, b, rs, rd, inf);
    var t := Tick(m, rs, rd, inf);
    ActivatePrepare(m, b, inf);
    TickShape(m, rs, rd, inf);
    assert Looping(t.0, inf);
    InfiniteNeverFrees(t.0, t.1, rd, inf, k);
  }

  // ---------------------------------------------------------------------
  // The pulse-step renderer as the driver's render interface

  /** The pulse-step driver's methods: its hooks do nothing and `render`
      returns the output it applies. */
  const PsRenderer: Renderer<PulseStep.PsState> :=
    Renderer(st => st, st => st, (st, sp) => PulseStep.Render(st, sp), st => st)

  /** The purr board's first batch pulses up and then holds step 63. */
  lemma PurrStep()
    ensures PulseStep.PulseOf(PsWord(10, 63)) == 10 && PulseStep.StepOf(PsWord(10, 63)) == 63
    ensures PulseStep.StepOf(PsWord(10, 80)) == 80 && PulseStep.StepOf(PsWord(10, 10)) == 10
  {
  }

  /** With the pulse-step renderer a tick drives the motor with a full-
      scale pulse, the step byte of the rendered setpoint, or 0, and keeps
      the renderer's invariant. */
  lemma PsTick(m: Motion, st: PulseStep.PsState, inf: uint16)
    requires Inv(m) && PulseStep.Valid(st)
    ensures var t := Tick(m, st, PsRenderer, inf);
            && PulseStep.Valid(t.1)
            && forall i :: 0 <= i < |t.2| && t.2[i].MotorSet? ==>
                 t.2[i].pwm in {127, -127, 0, PulseStep.StepOf(Prepare(m, inf).1.setpoint)}
  {
    var p := Prepare(m, inf);
    var q := RenderPhase(p.0, p.1, st, PsRenderer, inf);
    var t := Tick(m, st, PsRenderer, inf);
    PrepareOnlyFrees(m, inf);
    PulseStep.RenderOutput(st, p.1.setpoint);
    assert t.2 == p.2 + q.2;
    forall i | 0 <= i < |t.2| && t.2[i].MotorSet?
      ensures t.2[i].pwm in {127, -127, 0, PulseStep.StepOf(p.1.setpoint)}
    {
      assert i >= |p.2|;
      assert t.2[i] == q.2[i - |p.2|];
    }
  }
}

=== FILE: msgtype.dfy ===
/** The RS-485 message catalogue of `actuator/msgtype.h`: type codes and
    the packed (1-byte aligned) little-endian payload layouts of the
    STM32F4 target. */
module MsgType {
  import opened Common

  datatype Kind = MultiMsg | PingReq | PingResp | SetPidReq | SetPidResp
                | SetpointReq | SetpointResp | ErrorResp

  /** The `MSGTYPE_*` defines. */
  function Code(k: Kind): uint8 {
    match k
    case MultiMsg => 0
    case PingReq => 1
    case PingResp => 2
    case SetPidReq => 31
    case SetPidResp => 32
    case SetpointReq => 33
    case SetpointResp => 34
    case ErrorResp => 255
  }

  /** The inverse table: which message a type byte names, if any. */
  function KindOf(c: uint8): (r: Option<Kind>)
    ensures r.None? <==> c !in {0, 1, 2, 31, 32, 33, 34, 255}
  {
    if c == 0 then Some(MultiMsg)
    else if c == 1 then Some(PingReq)
    else if c == 2 then Some(PingResp)
    else if c == 31 then Some(SetPidReq)
    else if c == 32 then Some(SetPidResp)
    else if c == 33 then Some(SetpointReq)
    else if c == 34 then Some(SetpointResp)
    else if c == 255 then Some(ErrorResp)
    else None
  }

  /** The eight codes are pairwise distinct: each names exactly one kind. */
  lemma CodesDistinct(k: Kind, c: uint8)
    ensures KindOf(Code(k)) == Some(k)
    ensures KindOf(c) == Some(k) <==> c == Code(k)
  {
  }

  // ---------------------------------------------------------------------
  // Payload layouts

  /** `msgtype_setpidreq_t`. */
  datatype SetPid = SetPid(kp: uint16, ki: uint16, kd: uint16, setpoint: uint16)

  /** `msgtype_setpoint_t`: one timed target. */
  datatype Point = Point(duration: uint16, setpoint: uint16)

  /** `msgtype_setpointreq_t`: a batch header followed by its points. */
  datatype SetpointBatch = SetpointBatch(delay: uint16, loop: uint16, points: seq<Point>)

  /** A decoded payload, one alternative per structure of the header. */
  datatype Msg =
    | Multi(n: uint8)
    | Ping
    | Pong
    | Pid(pid: SetPid)
    | Batch(batch: SetpointBatch)
    | BatchAck

  function KindOfMsg(m: Msg): Kind {
    match m
    case Multi(_) => MultiMsg
    case Ping => PingReq
    case Pong => PingResp
    case Pid(_) => SetPidReq
    case Batch(_) => SetpointReq
    case BatchAck => SetpointResp
  }

  /** The packed layout of `msgtype_setpidreq_t`: four u16 at offsets 0, 2,
      4 and 6, so the last field is at 6 and the structure is 8 bytes. */
  function EncodePid(x: SetPid): (r: seq<uint8>)
    ensures |r| == 8
    ensures r[0..2] == U16Le(x.kp) && r[2..4] == U16Le(x.ki)
    ensures r[4..6] == U16Le(x.kd) && r[6..8] == U16Le(x.setpoint)
  {
    U16Le(x.kp) + U16Le(x.ki) + U16Le(x.kd) + U16Le(x.setpoint)
  }

  function DecodePid(b: seq<uint8>): Option<SetPid> {
    if |b| != 8 then None
    else Some(SetPid(FromU16Le(b[0], b[1]), FromU16Le(b[2], b[3]),
                     FromU16Le(b[4], b[5]), FromU16Le(b[6], b[7])))
  }

  function EncodePoint(p: Point): (r: seq<uint8>)
    ensures |r| == 4
    ensures r[0..2] == U16Le(p.duration) && r[2..4] == U16Le(p.setpoint)
  {
    U16Le(p.duration) + U16Le(p.setpoint)
  }

  function DecodePoint(b: seq<uint8>): Point
    requires |b| == 4
  {
    Point(FromU16Le(b[0], b[1]), FromU16Le(b[2], b[3]))
  }

  lemma PointRoundTrip(p: Point)
    ensures DecodePoint(EncodePoint(p)) == p
  {
    U16RoundTrip(p.duration);
    U16RoundTrip(p.setpoint);
  }

  lemma PointBytesRoundTrip(b: seq<uint8>)
    requires |b| == 4
    ensures EncodePoint(DecodePoint(b)) == b
  {
    U16BytesRoundTrip(b[0], b[1]);
    U16BytesRoundTrip(b[2], b[3]);
    assert b == b[0..2] + b[2..4];
  }

  /** The point array, points back to back. */
  function EncodePoints(ps: seq<Point>): (r: seq<uint8>)
    ensures |r| == 4 * |ps|
  {
    seq(4 * |ps|, j requires 0 <= j < 4 * |ps| => EncodePoint(ps[j / 4])[j % 4])
  }

  /** Point `i` lies at offset `4 * i` of the array. */
  lemma EncodePointsAt(ps: seq<Point>, i: nat)
    requires i < |ps|
    ensures EncodePoints(ps)[4 * i .. 4 * i + 4] == EncodePoint(ps[i])
  {
    var e, p := EncodePoints(ps), EncodePoint(ps[i]);
    EncodePointsByte(ps, i, 0);
    EncodePointsByte(ps, i, 1);
    EncodePointsByte(ps, i, 2);
    EncodePointsByte(ps, i, 3);
    assert e[4 * i .. 4 * i + 4] == [p[0], p[1], p[2], p[3]];
  }

  lemma EncodePointsByte(ps: seq<Point>, i: nat, q: nat)
    requires i < |ps| && q < 4
    ensures EncodePoints(ps)[4 * i + q] == EncodePoint(ps[i])[q]
  {
    assert (4 * i + q) / 4 == i && (4 * i + q) % 4 == q;
  }

  /** The array read back four bytes at a time. */
  function DecodePoints(b: seq<uint8>): (r: seq<Point>)
    requires |b| % 4 == 0
    ensures |r| == |b| / 4
  {
    seq(|b| / 4, i requires 0 <= i < |b| / 4 => DecodePoint(b[4 * i .. 4 * i + 4]))
  }

  lemma PointsRoundTrip(ps: seq<Point>)
    ensures DecodePoints(EncodePoints(ps)) == ps
  {
    forall i | 0 <= i < |ps| ensures DecodePoints(EncodePoints(ps))[i] == ps[i] {
      EncodePointsAt(ps, i);
      PointRoundTrip(ps[i]);
    }
  }

  lemma PointsBytesRoundTrip(b: seq<uint8>)
    requires |b| % 4 == 0
    ensures EncodePoints(DecodePoints(b)) == b
  {
    var ps := DecodePoints(b);
    forall j | 0 <= j < |b| ensures EncodePoints(ps)[j] == b[j] {
      var i, q := j / 4, j % 4;
      assert 4 * i + q == j && 4 * i + 4 <= |b|;
      PointBytesRoundTrip(b[4 * i .. 4 * i + 4]);
    }
  }

  /** A batch: delay, loop, then `n` points from offset 4: `4 + 4n` bytes. */
  function EncodeBatch(x: SetpointBatch): (r: seq<uint8>)
    ensures |r| == 4 + 4 * |x.points|
    ensures r[0..2] == U16Le(x.delay) && r[2..4] == U16Le(x.loop)
  {
    U16Le(x.delay) + U16Le(x.loop) + EncodePoints(x.points)
  }

  /** Point `i` of a batch lies at offset `4 + 4 * i`. */
  lemma BatchPointAt(x: SetpointBatch, i: nat)
    requires i < |x.points|
    ensures EncodeBatch(x)[4 + 4 * i .. 8 + 4 * i] == EncodePoint(x.points[i])
  {
    var r := EncodeBatch(x);
    assert r[4..] == EncodePoints(x.points);
    SliceShift(r, 4, 4 * i, 4 * i + 4);
    EncodePointsAt(x.points, i);
  }

  lemma SliceShift(r: seq<uint8>, k: nat, a: nat, b: nat)
    requires a <= b && k + b <= |r|
    ensures r[k + a .. k + b] == r[k..][a..b]
  {
  }

  /** The payload length fixes the number of points; a length that is not
      `4 + 4n` has no batch reading. */
  function DecodeBatch(b: seq<uint8>): (r: Option<SetpointBatch>)
    ensures r.Some? <==> |b| >= 4 && (|b| - 4) % 4 == 0
    ensures r.Some? ==> |r.value.points| == (|b| - 4) / 4
  {
    if |b| < 4 || (|b| - 4) % 4 != 0 then None
    else Some(SetpointBatch(FromU16Le(b[0], b[1]), FromU16Le(b[2], b[3]), DecodePoints(b[4..])))
  }

  /** Payload bytes of a message; `ping`, `pong` and the batch
      acknowledgement are the empty structure, `multimsg` is one byte. */
  function Encode(m: Msg): (r: seq<uint8>)
    ensures m.Ping? || m.Pong? || m.BatchAck? ==> r == []
    ensures m.Multi? ==> r == [m.n]
  {
    match m
    case Multi(n) => [n]
    case Ping => []
    case Pong => []
    case Pid(x) => EncodePid(x)
    case Batch(x) => EncodeBatch(x)
    case BatchAck => []
  }

  /** Read a payload by its type byte; types without a layout, and payloads
      of the wrong size, give nothing. */
  function Decode(code: uint8, b: seq<uint8>): Option<Msg> {
    match KindOf(code)
    case None => None
    case Some(k) =>
      match k
      case MultiMsg => if |b| == 1 then Some(Multi(b[0])) else None
      case PingReq => if |b| == 0 then Some(Ping) else None
      case PingResp => if |b| == 0 then Some(Pong) else None
      case SetPidReq =>
        (match DecodePid(b) case None => None case Some(x) => Some(Pid(x)))
      case SetpointReq =>
        (match DecodeBatch(b) case None => None case Some(x) => Some(Batch(x)))
      case SetpointResp => if |b| == 0 then Some(BatchAck) else None
      case SetPidResp => None
      case ErrorResp => None
  }

  /** decode(encode(x)) == x for every message with a layout. */
  lemma RoundTrip(m: Msg)
    ensures Decode(Code(KindOfMsg(m)), Encode(m)) == Some(m)
  {
    match m
    case Batch(x) => BatchRoundTrip(x);
    case Pid(x) => PidRoundTrip(x);
    case _ =>
  }

  lemma BatchRoundTrip(x: SetpointBatch)
    ensures DecodeBatch(EncodeBatch(x)) == Some(x)
  {
    var e := EncodeBatch(x);
    PointsRoundTrip(x.points);
    assert e[4..] == EncodePoints(x.points);
    U16RoundTrip(x.delay);
    U16RoundTrip(x.loop);
  }

  lemma PidRoundTrip(x: SetPid)
    ensures DecodePid(EncodePid(x)) == Some(x)
  {
    U16RoundTrip(x.kp);
    U16RoundTrip(x.ki);
    U16RoundTrip(x.kd);
    U16RoundTrip(x.setpoint);
  }

  lemma PidBytesRoundTrip(b: seq<uint8>)
    requires |b| == 8
    ensures EncodePid(DecodePid(b).value) == b
  {
    var x := DecodePid(b).value;
    U16BytesRoundTrip(b[0], b[1]);
    U16BytesRoundTrip(b[2], b[3]);
    U16BytesRoundTrip(b[4], b[5]);
    U16BytesRoundTrip(b[6], b[7]);
    assert b == b[0..2] + b[2..4] + b[4..6] + b[6..8];
  }

  lemma BatchBytesRoundTrip(b: seq<uint8>)
    requires |b| >= 4 && (|b| - 4) % 4 == 0
    ensures EncodeBatch(DecodeBatch(b).value) == b
  {
    var x := DecodeBatch(b).value;
    PointsBytesRoundTrip(b[4..]);
    U16BytesRoundTrip(b[0], b[1]);
    U16BytesRoundTrip(b[2], b[3]);
    assert EncodeBatch(x) == [b[0], b[1]] + [b[2], b[3]] + b[4..];
    assert b == [b[0], b[1]] + [b[2], b[3]] + b[4..];
  }

  /** encode(decode(b)) == b: a payload that decodes carries no other bytes. */
  lemma BytesRoundTrip(code: uint8, b: seq<uint8>)
    requires Decode(code, b).Some?
    ensures KindOfMsg(Decode(code, b).value) == KindOf(code).value
    ensures Encode(Decode(code, b).value) == b
  {
    if KindOf(code) == Some(SetpointReq) {
      BatchBytesRoundTrip(b);
    } else if KindOf(code) == Some(SetPidReq) {
      PidBytesRoundTrip(b);
    }
  }
}

=== FILE: pwm.dfy ===
/** The motor bridge as the motor drivers see it: an enable pin and two
    PWM channels of timer 1, driven through a list of HAL calls. */
module Pwm {

  /** One HAL call issued by a motor driver. */
  datatype Action =
    | EnableSet                          // palSetPad(GPIOB, GPIOB_MOTOR_EN)
    | EnableClear                        // palClearPad(GPIOB, GPIOB_MOTOR_EN)
    | ChannelEnable(ch: nat, width: int) // pwmEnableChannel(&PWMD1, ch, width)
    | ChannelDisable(ch: nat)            // pwmDisableChannel(&PWMD1, ch)
    | Start(period: nat)                 // pwmStart(&PWMD1, &cfg)
    | Stop                               // pwmStop(&PWMD1)

  datatype Channel = Off | On(width: int)

  /** The bridge's observable state. */
  datatype Hw = Hw(enable: bool, running: bool, ch0: Channel, ch1: Channel)

  /** Effect of one call.  Starting the PWM unit leaves both channels
      disabled, as the HAL does when it programs a fresh configuration. */
  function Apply(hw: Hw, a: Action): (r: Hw)
    ensures a.Start? ==> r == Hw(hw.enable, true, Off, Off)
    ensures a.Stop? ==> r == hw.(running := false)
    ensures a.EnableSet? || a.EnableClear? ==> r == hw.(enable := a.EnableSet?)
    ensures a.ChannelEnable? || a.ChannelDisable? ==>
              var w := if a.ChannelEnable? then On(a.width) else Off;
              && r.enable == hw.enable && r.running == hw.running
              && r.ch0 == (if a.ch == 0 then w else hw.ch0)
              && r.ch1 == (if a.ch == 1 then w else hw.ch1)
  {
    match a
    case EnableSet => hw.(enable := true)
    case EnableClear => hw.(enable := false)
    case ChannelEnable(ch, w) =>
      if ch == 0 then hw.(ch0 := On(w)) else if ch == 1 then hw.(ch1 := On(w)) else hw
    case ChannelDisable(ch) =>
      if ch == 0 then hw.(ch0 := Off) else if ch == 1 then hw.(ch1 := Off) else hw
    case Start(_) => hw.(running := true, ch0 := Off, ch1 := Off)
    case Stop => hw.(running := false)
  }

  function ApplyAll(hw: Hw, acts: seq<Action>): Hw
    decreases |acts|
  {
    if |acts| == 0 then hw else ApplyAll(Apply(hw, acts[0]), acts[1..])
  }

  lemma ApplyOne(hw: Hw, a: Action)
    ensures ApplyAll(hw, [a]) == Apply(hw, a)
  {
    assert [a][1..] == [];
  }

  lemma ApplyTwo(hw: Hw, a: Action, b: Action)
    ensures ApplyAll(hw, [a, b]) == Apply(Apply(hw, a), b)
  {
    assert [a, b][1..] == [b];
    ApplyOne(Apply(hw, a), b);
  }

  lemma ApplyThree(hw: Hw, a: Action, b: Action, c: Action)
    ensures ApplyAll(hw, [a, b, c]) == Apply(Apply(Apply(hw, a), b), c)
  {
    assert [a, b, c][1..] == [b, c];
    ApplyTwo(Apply(hw, a), b, c);
  }

  lemma {:induction false} ApplyAllAppend(hw: Hw, a: seq<Action>, b: seq<Action>)
    ensures ApplyAll(hw, a + b) == ApplyAll(ApplyAll(hw, a), b)
    decreases |a|
  {
    if |a| == 0 {
      assert a + b == b;
    } else {
      assert (a + b)[1..] == a[1..] + b;
      ApplyAllAppend(Apply(hw, a[0]), a[1..], b);
    }
  }
}

=== FILE: render_ps.dfy ===
/** The pulse-step renderer of `actuator/render_ps.c`.

    A 16-bit setpoint word holds, in little-endian order, a pulse
    duration (low byte) and a signed step (high byte).  When the word
    changes the renderer drives a full-scale pulse for the given number
    of ticks and then holds the step value. */
module PulseStep {
  import opened Common

  /** The driver's data: the stored setpoint word, the pulse countdown and
      the pulse output. */
  datatype PsState = PsState(v: uint16, pulseDuration: uint16, pulsePwm: int8)

  /** `psrdObjectInit`. */
  const Init: PsState := PsState(0, 0, 0)

  /** `setpoint.ps.pulse_duration` and `setpoint.ps.step` of a word. */
  function PulseOf(v: uint16): uint8 { Lo(v) }
  function StepOf(v: uint16): int8 { SignedByte(Hi(v)) }

  /** The pulse direction chosen on a change: the old step is read into a
      `uint8_t` and compared with the new step as an `int8_t`. */
  function PulseDirection(prev: uint16, next: uint16): (d: int8)
    ensures d == 127 <==> StepOf(prev) >= 0 && StepOf(prev) < StepOf(next)
    ensures d == 127 || d == -127
  {
    if Hi(prev) < StepOf(next) then 127 else -127
  }

  /** `render`: the state after one tick and the output it applies. */
  function Render(st: PsState, sp: uint16): (r: (PsState, int8))
    ensures r.0.v == sp
    ensures sp == st.v ==> r.0.pulsePwm == st.pulsePwm
    ensures sp == st.v && st.pulseDuration > 0 ==>
              r.0.pulseDuration == st.pulseDuration - 1 && r.1 == st.pulsePwm
    ensures sp == st.v && st.pulseDuration == 0 ==> r.0.pulseDuration == 0 && r.1 == StepOf(sp)
    ensures sp != st.v ==> r.0.pulsePwm == PulseDirection(st.v, sp)
    ensures sp != st.v && PulseOf(sp) > 0 ==>
              r.0.pulseDuration == PulseOf(sp) - 1 && r.1 == PulseDirection(st.v, sp)
    ensures sp != st.v && PulseOf(sp) == 0 ==> r.0.pulseDuration == 0 && r.1 == StepOf(sp)
  {
    var s1 :=
      if st.v != sp then PsState(sp, PulseOf(sp), PulseDirection(st.v, sp))
      else st;
    if s1.pulseDuration > 0 then
      (s1.(pulseDuration := s1.pulseDuration - 1), s1.pulsePwm)
    else
      (s1, StepOf(s1.v))
  }

  /** A pending pulse always has a full-scale output. */
  predicate Valid(st: PsState) {
    st.pulseDuration > 0 ==> st.pulsePwm == 127 || st.pulsePwm == -127
  }

  /** The output is a full-scale pulse or the step byte, and the
      invariant holds from initialisation on. */
  lemma RenderOutput(st: PsState, sp: uint16)
    requires Valid(st)
    ensures Valid(Render(st, sp).0)
    ensures Render(st, sp).1 in {127, -127, StepOf(sp)}
  {
  }

  lemma InitValid()
    ensures Valid(Init) && Init.v == 0 && Init.pulseDuration == 0 && Init.pulsePwm == 0
  {
  }

  /** The outputs of `n` consecutive ticks with setpoint `sp`. */
  function Run(st: PsState, sp: uint16, n: nat): (outs: seq<int8>)
    ensures |outs| == n
    decreases n
  {
    if n == 0 then [] else [Render(st, sp).1] + Run(Render(st, sp).0, sp, n - 1)
  }

  /** Once the word is stored, a run outputs the pulse for the remaining
      countdown and then the step. */
  lemma {:induction false} HoldRun(st: PsState, n: nat)
    ensures forall i :: 0 <= i < n ==>
              Run(st, st.v, n)[i] == (if i < st.pulseDuration then st.pulsePwm else StepOf(st.v))
    decreases n
  {
    if n > 0 {
      var next := Render(st, st.v).0;
      HoldRun(next, n - 1);
      forall i | 0 <= i < n
        ensures Run(st, st.v, n)[i] == (if i < st.pulseDuration then st.pulsePwm else StepOf(st.v))
      {
        if i > 0 {
          assert Run(st, st.v, n)[i] == Run(next, st.v, n - 1)[i - 1];
        }
      }
    }
  }

  /** After a change to a word with low byte `k`, the output is the pulse
      for `k` consecutive ticks, the changing tick included, and the step
      from then on. */
  lemma {:induction false} PulseThenStep(st: PsState, sp: uint16, n: nat)
    requires sp != st.v
    ensures forall i :: 0 <= i < n ==>
              Run(st, sp, n)[i] ==
                (if i < PulseOf(sp) then PulseDirection(st.v, sp) else StepOf(sp))
  {
    if n > 0 {
      var next := Render(st, sp).0;
      HoldRun(next, n - 1);
      forall i | 0 <= i < n
        ensures Run(st, sp, n)[i] ==
                  (if i < PulseOf(sp) then PulseDirection(st.v, sp) else StepOf(sp))
      {
        if i > 0 {
          assert Run(st, sp, n)[i] == Run(next, sp, n - 1)[i - 1];
        }
      }
    }
  }

  /** The mixed-sign comparison at work: a change from step -5 to step 3
      pulses down, and so does repeating step 3 with a new duration. */
  lemma MixedSignComparison()
    ensures PulseDirection(0xFB00, 0x0305) == -127
    ensures PulseDirection(0x0302, 0x0305) == -127
    ensures PulseDirection(0x0102, 0x0305) == 127
  {
  }

  // ---------------------------------------------------------------------
  // The method table

  /** The functions `render_ps.c` defines for the table, and the no-op
      `reset` it lacks. */
  datatype Method = ResetNoOp | WillRender | RenderFn | HasRendered

  /** A `struct PSRenderDriverVMT`: the four slots of
      `_base_render_driver_methods`, each a function or NULL. */
  datatype Table = Table(reset: Option<Method>, willRender: Option<Method>,
                         render: Option<Method>, hasRendered: Option<Method>)

  /** C's positional initialisation: the listed functions fill the slots
      in declaration order and the remaining slots are NULL. */
  function Positional(init: seq<Method>): (t: Table)
    requires |init| <= 4
    ensures |init| > 0 ==> t.reset == Some(init[0])
    ensures |init| > 1 ==> t.willRender == Some(init[1])
    ensures |init| > 2 ==> t.render == Some(init[2])
    ensures |init| > 3 ==> t.hasRendered == Some(init[3])
    ensures |init| <= 3 ==> t.hasRendered == None
  {
    Table(if |init| > 0 then Some(init[0]) else None,
          if |init| > 1 then Some(init[1]) else None,
          if |init| > 2 then Some(init[2]) else None,
          if |init| > 3 then Some(init[3]) else None)
  }

  /** The table as written: three initialisers for four slots, so each
      function lands one slot before its own and `has_rendered` is NULL. */
  function VmtAsWritten(): (t: Table)
    ensures t.reset == Some(WillRender) && t.willRender == Some(RenderFn)
    ensures t.render == Some(HasRendered) && t.hasRendered.None?
  {
    Positional([WillRender, RenderFn, HasRendered])
  }

  /** The evidently intended table, with a no-op `reset` in front: every
      slot holds the function of its own name. */
  function Vmt(): (t: Table)
    ensures t.reset == Some(ResetNoOp) && t.willRender == Some(WillRender)
    ensures t.render == Some(RenderFn) && t.hasRendered == Some(HasRendered)
  {
    Positional([ResetNoOp, WillRender, RenderFn, HasRendered])
  }

  /** What a call through a table slot does: run the pulse-step logic, run
      a function that returns no value, run `render` with its setpoint
      argument missing, or call NULL. */
  datatype Call = Rendered(st: PsState, pwm: int8) | NoValue(st: PsState) | MissingArgument | NullCall

  function CallRender(t: Table, st: PsState, sp: uint16): (c: Call)
    ensures t.render == Some(RenderFn) ==> c == Rendered(Render(st, sp).0, Render(st, sp).1)
    ensures t.render.None? <==> c.NullCall?
  {
    match t.render
    case None => NullCall
    case Some(m) => if m == RenderFn then Rendered(Render(st, sp).0, Render(st, sp).1) else NoValue(st)
  }

  /** A call through one of the one-argument slots (`reset`,
      `will_render`, `has_rendered`): the three hooks leave the state
      alone, `render` finds no setpoint argument, NULL is a fault. */
  function CallHook(slot: Option<Method>, st: PsState): (c: Call)
    ensures slot.None? <==> c.NullCall?
    ensures slot.Some? && slot.value != RenderFn ==> c == NoValue(st)
  {
    match slot
    case None => NullCall
    case Some(m) => if m == RenderFn then MissingArgument else NoValue(st)
  }

  /** As written, `rdRender` reaches `has_rendered`, which returns no
      output and leaves the setpoint unread, `rdHasRendered` calls NULL,
      and `rdReset` and `rdWillRender` land one slot off. */
  lemma AsWrittenTableMisbinds(st: PsState, sp: uint16)
    ensures VmtAsWritten().reset == Some(WillRender)
    ensures VmtAsWritten().willRender == Some(RenderFn)
    ensures VmtAsWritten().render == Some(HasRendered)
    ensures CallRender(VmtAsWritten(), st, sp) == NoValue(st)
    ensures CallHook(VmtAsWritten().willRender, st) == MissingArgument
    ensures CallHook(VmtAsWritten().hasRendered, st) == NullCall
  {
  }

  /** With four initialisers every slot holds the function of its name,
      and `rdRender` runs the pulse-step logic. */
  lemma TableBindsByName(st: PsState, sp: uint16)
    ensures Vmt() == Table(Some(ResetNoOp), Some(WillRender), Some(RenderFn), Some(HasRendered))
    ensures CallRender(Vmt(), st, sp) == Rendered(Render(st, sp).0, Render(st, sp).1)
    ensures CallHook(Vmt().reset, st) == CallHook(Vmt().willRender, st) == NoValue(st)
    ensures CallHook(Vmt().hasRendered, st) == NoValue(st)
  {
  }
}

=== FILE: service.dfy ===
/** The two request dispatchers of the actuator, `serviceHandler` of
    `actuator/service.c` and `stateCommCallback` of `actuator/state.c`.
    Both switch on the message type alone and write their reply to the
    serial stream. */
module Service {
  import opened Common

  /** The `MSGTYPE_PING`, `_PONG`, `_SETPID`, `_SETPOINT`, `_TEST` and
      `_VALUE` codes the two switches use; no header of the actuator
      defines them, so they are a parameter. */
  datatype Codes = Codes(ping: uint8, pong: uint8, setpid: uint8, setpoint: uint8,
                         test: uint8, value: uint8)

  /** The case labels of one `switch` are distinct constants. */
  predicate Distinct(c: Codes) {
    && c.ping != c.setpid && c.ping != c.setpoint && c.ping != c.test && c.ping != c.value
    && c.setpid != c.setpoint && c.setpid != c.test && c.setpid != c.value
    && c.setpoint != c.test && c.setpoint != c.value
    && c.test != c.value
  }

  /** The requests the dispatchers know. */
  datatype Command = Ping | SetPid | SetPoint | Test | Value

  /** Reference reading of a type byte: which command, if any, it names. */
  function Classify(c: Codes, typ: uint8): Option<Command> {
    if typ == c.ping then Some(Ping)
    else if typ == c.setpid then Some(SetPid)
    else if typ == c.setpoint then Some(SetPoint)
    else if typ == c.test then Some(Test)
    else if typ == c.value then Some(Value)
    else None
  }

  lemma ClassifyExact(c: Codes, typ: uint8, cmd: Command)
    requires Distinct(c)
    ensures Classify(c, typ) == Some(cmd) <==>
              typ == (match cmd
                      case Ping => c.ping case SetPid => c.setpid case SetPoint => c.setpoint
                      case Test => c.test case Value => c.value)
  {
  }

  /** `msgtype_header_t` as a record of its fields; its byte layout is not
      modelled. */
  datatype Header = Header(addr: uint8, typ: uint8, len: uint16)

  /** A status and the bytes written to the stream. */
  datatype Reply = Reply(status: int, out: seq<uint8>)

  /** The bytes of `"Hello World!\r\n"`. */
  const Hello: seq<uint8> := [72, 101, 108, 108, 111, 32, 87, 111, 114, 108, 100, 33, 13, 10]

  /** `serviceHandler`.  `put` is what `sdPut` returns; `valueText` is
      the decimal text `chprintf` makes of `motorGet()`. */
  function ServiceHandler(c: Codes, h: Header, put: int, valueText: seq<uint8>): (r: Reply)
    requires Distinct(c)
    ensures Classify(c, h.typ) == None ==> r == Reply(RdyReset, [])
    ensures Classify(c, h.typ) == Some(Ping) ==> r == Reply(put, [c.pong])
    ensures Classify(c, h.typ) in {Some(SetPid), Some(SetPoint)} ==> r == Reply(RdyOk, [])
    ensures Classify(c, h.typ) == Some(Test) ==> r == Reply(RdyOk, Hello)
    ensures Classify(c, h.typ) == Some(Value) ==> r == Reply(RdyOk, valueText)
  {
    if h.typ == c.ping then Reply(put, [c.pong])
    else if h.typ == c.setpid then Reply(RdyOk, [])
    else if h.typ == c.setpoint then Reply(RdyOk, [])
    else if h.typ == c.test then Reply(RdyOk, Hello)
    else if h.typ == c.value then Reply(RdyOk, valueText)
    else Reply(RdyReset, [])
  }

  /** The `msgtype_shortmsg_t` a ping is answered with, taken as four
      bytes: address, type and two zero bytes. */
  function ShortMsg(addr: uint8, typ: uint8): (m: seq<uint8>)
    ensures |m| == 4 && m[0] == addr && m[1] == typ && m[2..] == [0, 0]
  {
    [addr, typ, 0, 0]
  }

  /** `stateCommCallback`.  `self` is `addrGet()`, `written` what
      `sdWrite` returns; `buf` is the payload, which the code discards. */
  function StateCallback(c: Codes, self: uint8, h: Header, buf: seq<uint8>, written: int,
                         valueText: seq<uint8>): (r: Reply)
    requires Distinct(c)
    ensures Classify(c, h.typ) == None ==> r == Reply(RdyReset, [])
    ensures Classify(c, h.typ) == Some(Ping) ==> r == Reply(written, ShortMsg(self, c.pong))
    ensures Classify(c, h.typ) in {Some(SetPid), Some(SetPoint)} ==> r == Reply(RdyOk, [])
    ensures Classify(c, h.typ) == Some(Test) ==> r == Reply(RdyOk, Hello)
    ensures Classify(c, h.typ) == Some(Value) ==> r == Reply(RdyOk, valueText)
  {
    if h.typ == c.ping then Reply(written, ShortMsg(self, c.pong))
    else if h.typ == c.setpid then Reply(RdyOk, [])
    else if h.typ == c.setpoint then Reply(RdyOk, [])
    else if h.typ == c.test then Reply(RdyOk, Hello)
    else if h.typ == c.value then Reply(RdyOk, valueText)
    else Reply(RdyReset, [])
  }

  /** Only the type drives dispatch: two headers with the same type, and
      any two payloads, get the same reply. */
  lemma OnlyTypeMatters(c: Codes, self: uint8, h1: Header, h2: Header, b1: seq<uint8>, b2: seq<uint8>,
                        put: int, valueText: seq<uint8>)
    requires Distinct(c)
    requires h1.typ == h2.typ
    ensures ServiceHandler(c, h1, put, valueText) == ServiceHandler(c, h2, put, valueText)
    ensures StateCallback(c, self, h1, b1, put, valueText) == StateCallback(c, self, h2, b2, put, valueText)
  {
  }

  /** The two dispatchers differ only in the ping reply: one byte against
      a four-byte short message carrying the board's address. */
  lemma DispatchersAgreeExceptPing(c: Codes, self: uint8, h: Header, buf: seq<uint8>, st: int,
                                   valueText: seq<uint8>)
    requires Distinct(c)
    ensures Classify(c, h.typ) != Some(Ping) ==>
              StateCallback(c, self, h, buf, st, valueText) == ServiceHandler(c, h, st, valueText)
    ensures Classify(c, h.typ) == Some(Ping) ==>
              && ServiceHandler(c, h, st, valueText).out == [c.pong]
              && StateCallback(c, self, h, buf, st, valueText).out == [self, c.pong, 0, 0]
  {
  }
}
